=== FILE: README.md ===
# AI video studio: a Dafny model of its request and editing logic

The system is a demo studio for short AI-generated videos. A browser client
asks a generation backend for a clip and polls until the clip is ready. While
it waits, it can run a local simulated generator instead. The user then edits
captions in a Remotion editor, lays a soundtrack over the clip through an
ffmpeg route, uploads the result to Google Cloud Storage, and publishes it to
YouTube. The YouTube step uses the real API or a demo mock, depending on which
credentials are configured.

Most of the code is glue around remote services. This project models the
deterministic logic inside that glue, as pure functions and small state
machines:

- `GenerationApi`: the request sanitiser, `startJob`, and the job poller.
- `FakeGeneration`: the simulated job store, its four-phase walk and its sweep.
- `MergeAudio`: the audio-merge route, including its ffmpeg command lines, its effects in order, and its `data:` URL answer (RFC 2397 carrying RFC 4648 section 4 base64).
- `TrendingSounds`: the trending-sounds route with its Deezer, iTunes and curated providers.
- `PublishYouTube`: the real and mock YouTube routes, the credential predicate, and the dispatch between them.
- `UploadGcs`: the multipart filter and the Cloud Storage upload route.
- `VideoEditor`, `CaptionText`, `EditableVideo`, `Compositions`, `RemotionRender`: the caption editor, caption line breaking, the EditableVideo frame, the composition registry and the render route.
- `PostModal`, `SoundLibrary`, `Uploader`, `PromptEnhancer`: the publish dialog, the built-in sound picker, the upload/publish panel and the prompt enhancer.
- Shared foundations:
  - `JsValues`: JavaScript values.
  - `Strings`: string operations.
  - `Seqs`: sequence filters and subsequences.
  - `Base64`: RFC 4648 sections 4 and 5.
  - `UriComponent`: `encodeURIComponent` over UTF-8.
  - `Http`: JSON replies.
  - `Aspects`: the three aspect ratios.

The model treats every outside call as an input:

- network requests, ffmpeg, Cloud Storage, the Google APIs and Remotion's bundler and renderer;
- the clock, and random draws and UUIDs;
- `JSON.parse` and URL resolution.

A handler is a function from its request and those inputs to its reply and,
where the order matters, the list of effects it performs.

## Model

| member | source | states |
|---|---|---|
| GenerationApi.Preset | source/api.ts:31-35 | Each preset size is a multiple of 64 and at least 64. The size is square exactly for 1:1 and wider than tall exactly for 16:9. |
| GenerationApi.ChooseAspect | source/api.ts:41-44 | A requested aspect that names a preset is kept. An absent or unknown aspect becomes 16:9. |
| GenerationApi.Snap | source/api.ts:50-51 | A finite non-zero dimension snaps to a multiple of 64 that is at least 64. +Infinity stays infinite; -Infinity becomes 64. |
| GenerationApi.SnapIsNearest | source/api.ts:50-51 | The snapped value is at least as close to the input as every other grid point from 64 up. |
| GenerationApi.Sanitize | source/api.ts:40-70 | The prompt passes through unchanged. Two truthy dimensions are snapped; otherwise the preset of the chosen aspect is used. A non-finite seconds value becomes 6 and a non-finite steps value becomes 14. Frames are min(round(12 * seconds), 48), so never above 48. |
| GenerationApi.SanitizedSizeOnGrid | source/api.ts:46-53 | Unless a custom dimension is +Infinity, both sent dimensions are multiples of 64 and at least 64. |
| GenerationApi.NoLowerFrameBound | source/api.ts:55-56 | Zero seconds gives 0 frames and -1 seconds gives -12: the frame count has no lower bound. |
| GenerationApi.PortraitTenSeconds | source/api.ts:41-56 | A 10-second 9:16 request is sent as 320x576 with 48 frames. |
| GenerationApi.StartJob | source/api.ts:72-85 | The sanitised payload is sent. A rejected fetch or body fails with its own Error message. A non-OK status fails with "startJob failed: <status>". A missing or empty job id fails with "No job_id in response". Otherwise the result is the non-empty job id. |
| GenerationApi.JobUrl | source/api.ts:88 | The job address is the API base, then "/jobs/", then `encodeURIComponent` of the id. That segment holds no slash, and decoding it gives the id back. |
| GenerationApi.GetJob | source/api.ts:87-93 | A rejected fetch or body fails with its own message. A non-OK status fails with "getJob failed: <status>". Exactly a JSON reply is accepted, and it is returned as it is. |
| GenerationApi.Judge | source/api.ts:101-117 | Cancellation is checked before the query. A failed query rejects with its message, or with "getJob failed: <status>". "done" settles: an absolute http(s) URL is kept as it is, and any other or missing URL is resolved against the site base, rejecting when that throws. "error" rejects with the upstream text or "Job failed". Every other status keeps waiting. |
| GenerationApi.PollUntilDone | source/api.ts:95-119 | The poller settles at the first iteration that does not wait. It queries once per iteration, or not at all in a cancelled one. It sleeps `ms` after each waiting iteration, 3000 ms when `ms` is not given. If no iteration settles, it is still waiting after querying every time: there is no timeout. |
| GenerationApi.PollIgnoresLaterReplies | source/api.ts:101-118 | Once an iteration settles, the replies that would have come after it do not change the outcome. |
| GenerationApi.FirstVerdict | source/api.ts:101-118 | The outcome is waiting exactly when every iteration waits. |
| FakeGeneration.ApplyPhase | source/fakeVideoGeneration.ts:57-68 | Phase i sets the phase's status and progress i*100/3, except that completion sets 100 and the result video. The id, prompt and creation time are kept. |
| FakeGeneration.PhasesRun | source/fakeVideoGeneration.ts:73-75 | Between one and four phases have run at any elapsed time. |
| FakeGeneration.PhasesRunMatchesStarts | source/fakeVideoGeneration.ts:57-75 | Phase i has run exactly when the elapsed time has reached the sum of the earlier phases' durations. |
| FakeGeneration.WalkLast | source/fakeVideoGeneration.ts:57-68 | After k phases the job has the status of phase k and progress (k-1)*100/3. It has a video exactly when all four phases have run. |
| FakeGeneration.StatusTimeline | source/fakeVideoGeneration.ts:23-28 | The status follows queued, generating, processing, completed by elapsed time, and is never "error". |
| FakeGeneration.ProgressMonotone | source/fakeVideoGeneration.ts:62-68 | Status rank and progress never decrease. Progress stays within [0, 100]. It is 100 exactly at completion, and the video is set exactly then. |
| FakeGeneration.StartFakeGeneration | source/fakeVideoGeneration.ts:30-47 | Exactly one entry is added: queued, progress 0, the given prompt, no video. Every other entry is unchanged. |
| FakeGeneration.Simulate | source/fakeVideoGeneration.ts:53-77 | Only the simulated job changes. An unknown id changes nothing. |
| FakeGeneration.GetFakeJob | source/fakeVideoGeneration.ts:49-51 | A job is returned exactly for an id in the store. |
| FakeGeneration.StartThenGet | source/fakeVideoGeneration.ts:30-77 | A started job reports its prompt. It is completed with the result video 13 seconds later, and is below 100% and without a video before that. |
| FakeGeneration.WalkAgain | source/fakeVideoGeneration.ts:57-61 | Re-applying the first phase to a job that is already queued changes nothing. |
| FakeGeneration.ClearCompletedJobs | source/fakeVideoGeneration.ts:79-88 | Exactly the completed jobs created more than ten minutes before `now` are removed. Every other entry, including old unfinished jobs, is kept unchanged. |
| FakeGeneration.ClearIdempotent | source/fakeVideoGeneration.ts:79-88 | For a fixed `now` the sweep is idempotent, and a later sweep keeps no more jobs. |
| FakeGeneration.SweptWithinFifteenMinutes | source/fakeVideoGeneration.ts:79-91 | With sweeps every five minutes from module load, a completed job created after the load is still present before its removing sweep and gone after it. |
| FakeGeneration.RemovingSweep | source/fakeVideoGeneration.ts:79-91 | The removing sweep is the first one more than ten minutes after creation. It comes at most fifteen minutes after creation, and every earlier sweep comes at most ten minutes after it. |
| FakeGeneration.Survives | source/fakeVideoGeneration.ts:79-88 | Up to its removing sweep, a completed job stays in the store unchanged. |
| FakeGeneration.SweepSparesRunningJob | source/fakeVideoGeneration.ts:53-88 | A job still walking its phases is never swept. |
| MergeAudio.Fields | server/routes/merge-audio.ts:29 | A missing body reads as a body with no fields. |
| MergeAudio.PathJoin | server/routes/merge-audio.ts:36-38 | A file path is the directory, a slash, and the name. |
| MergeAudio.AudioExtension | server/routes/merge-audio.ts:55-56 | The extension is one of .mp3, .ogg and .wav. The content type is checked for "mpeg", then "ogg", then "wav", and .mp3 is the default. |
| MergeAudio.ExtensionOfMediaType | server/routes/merge-audio.ts:55-56 | Each audio media type yields its own extension, and an absent content type yields .mp3. |
| MergeAudio.ClampVolume | server/routes/merge-audio.ts:65 | A volume is clamped to [0, 5]: values inside are kept, and the infinities go to the nearest bound. NaN stays NaN. |
| MergeAudio.NumText | server/routes/merge-audio.ts:65 | A whole number prints as its integer digits, and NaN prints as "NaN". |
| MergeAudio.LavfiSource | server/routes/merge-audio.ts:77-79 | "silence" selects the silent source; every other choice selects the 440 Hz tone. |
| MergeAudio.VolumeArgs | server/routes/merge-audio.ts:65 | The volume filter appears exactly when the volume is a number. |
| MergeAudio.FfmpegArgs | server/routes/merge-audio.ts:61-72 | The command line starts by overwriting and reading the video, and ends with the output path. |
| MergeAudio.ArgsAsRead | server/routes/merge-audio.ts:81-94 | Both command lines, read back as ffmpeg reads options, give the same inputs and options. The inputs are the video and then the audio. The options are the optional volume filter, video copy, AAC audio, the two maps, the shortest-stream cut and the one output. |
| MergeAudio.RunCommand | server/routes/merge-audio.ts:16-25 | The command succeeds exactly on exit code 0. Otherwise the message names the command and the code ("null" when the process was killed by a signal), or it is the spawn error. |
| MergeAudio.DataUrl | server/routes/merge-audio.ts:100-102 | The answer is a `data:video/mp4;base64,` URL. |
| MergeAudio.DataUrlRoundTrip | server/routes/merge-audio.ts:100-102 | Reading the data URL back (RFC 2397) gives the media type video/mp4 and exactly the output bytes. |
| MergeAudio.Failure | server/routes/merge-audio.ts:110-113 | The catch block answers 500 with the error's message, or with "merge-audio failed" when the message is empty. |
| MergeAudio.Finish | server/routes/merge-audio.ts:74-109 | The data URL of the output's bytes is sent exactly when ffmpeg exits with code 0 and reading the output succeeds; that path also removes the directory. A failed ffmpeg run answers 500 with its message. A rejected read after exit 0 answers 500 with the read's message, after the read and without removing the directory. |
| MergeAudio.FinishTrace | server/routes/merge-audio.ts:96-109 | After ffmpeg, a success ends with the cleanup, a failure removes nothing, and neither downloads anything more. |
| MergeAudio.MuxFile | server/routes/merge-audio.ts:49-74 | Only the audio URL is downloaded. A failed audio download answers 400 with its status, and a thrown fetch answers 500. |
| MergeAudio.Mux | server/routes/merge-audio.ts:49-97 | The audio URL is downloaded only when one is given, and the data URL is sent only after a clean ffmpeg run and a successful read of the output. |
| MergeAudio.Merge | server/routes/merge-audio.ts:27-114 | A missing video URL answers 400 before any effect. Otherwise the handler first makes the directory and downloads the video, and a failed download answers 400 with its status. The directory is removed exactly when the answer is the data URL. Without an audio URL only the video is downloaded. |
| MergeAudio.AfterDownload | server/routes/merge-audio.ts:45-109 | After a good video download, the directory is removed exactly on success. |
| MergeAudio.GeneratedAudioChoice | server/routes/merge-audio.ts:29-96 | Without an audio URL, ffmpeg gets the generated source. That source is silence exactly for "silence" and the tone otherwise, with "beep" as the default. |
| MergeAudio.RemovalSplit | server/routes/merge-audio.ts:104-107 | A trace that ends in the directory removal cleans up; one with no removal after setup does not. |
| TrendingSounds.RegionPath | server/routes/trending-sounds.ts:47-49 | The region segment is present exactly for a non-empty region of at most three UTF-16 units. It is then a slash followed by the encoded region, which contains no further slash. |
| TrendingSounds.FetchDeezerChart | server/routes/trending-sounds.ts:46-64 | A non-OK chart answer yields an empty track list, not an error. A rejected fetch or body is an error, and so is a `data` that is not a list, on which the handler's `.filter` throws. Otherwise the result is the `data` list. |
| TrendingSounds.DeezerSound | server/routes/trending-sounds.ts:67-75 | A track's duration is capped at 30 seconds, and is 30 when not finite. Its id and title are the track's, as text, and its source is "deezer-chart". The artist falls back to "Unknown". The small cover is used when truthy, else the large one, and no cover when neither is. |
| TrendingSounds.DeezerSelection | server/routes/trending-sounds.ts:64-66 | The kept tracks are the first 25 of those with a preview, in chart order, or all of them when there are fewer. |
| TrendingSounds.DeezerSounds | server/routes/trending-sounds.ts:64-75 | The sounds are the selected tracks transformed one by one, each at most 30 seconds and with an audio URL. |
| TrendingSounds.DeezerKeepsShortFullChart | server/routes/trending-sounds.ts:64-75 | A chart of at most 25 tracks, all with previews, is transformed in full. |
| TrendingSounds.ItunesRegion | server/routes/trending-sounds.ts:81 | The region defaults to "US" and is upper-cased character by character. |
| TrendingSounds.SearchUrl | server/routes/trending-sounds.ts:92 | The address is the iTunes search endpoint with four query fields: the encoded term, the encoded country, "entity=song" and "limit=1". Decoding the first two gives the term and the country back. |
| TrendingSounds.QueryFields | server/routes/trending-sounds.ts:92 | The query splits at "&" into exactly its four fields, because encoded values hold no "&". |
| TrendingSounds.MatchedSound | server/routes/trending-sounds.ts:98-107 | A matched item gives a 30-second "itunes-preview" sound with the match's preview. The id is the track id, else the item id, else the search term. The title is the feed's name, else the track name. The artist is the feed's, else the match's, else "Unknown". The cover follows the same fallback order. |
| TrendingSounds.ItunesSound | server/routes/trending-sounds.ts:91-109 | An item gives a sound exactly when its search answers OK with a first result that has a preview URL. |
| TrendingSounds.Collect | server/routes/trending-sounds.ts:90-110 | There are no more sounds than items, each 30 seconds long from "itunes-preview". |
| TrendingSounds.CollectCount | server/routes/trending-sounds.ts:90-110 | The number of sounds is the number of items whose search succeeds. |
| TrendingSounds.ItunesSounds | server/routes/trending-sounds.ts:88-110 | The loop collects from the first 15 feed items, so there are at most 15 sounds. |
| TrendingSounds.CuratedShape | server/routes/trending-sounds.ts:3-44 | The curated list has five sounds with distinct ids, all from the curated source. |
| TrendingSounds.Provider | server/routes/trending-sounds.ts:60 | The provider is the query's when truthy, "curated" otherwise. |
| TrendingSounds.Handle | server/routes/trending-sounds.ts:58-122 | Any provider other than deezer or itunes gets the curated list, cached for 600 seconds. Deezer and iTunes lists are cached for 120 seconds. A failed chart request, an unreadable chart body, a chart `data` that is not a list, or a failed RSS feed answers 500. |
| TrendingSounds.SoundsBody | server/routes/trending-sounds.ts:76-117 | The body is `{ sounds }` with one entry per sound. |
| PublishYouTube.Destructure | server/routes/publish-to-youtube.ts:16 | An absent title, description or tag list takes its default; a present one is kept. |
| PublishYouTube.UploadFor | server/routes/publish-to-youtube.ts:68-85 | The upload request carries the title, description and tags, with category 22, unlisted privacy and not made for kids. |
| PublishYouTube.WatchUrlRoundTrip | server/routes/publish-to-youtube.ts:88 | The watch URL is the prefix followed by the id, and the id is read back from it. |
| PublishYouTube.RealFailure | server/routes/publish-to-youtube.ts:112-123 | An Error gives 500 "Failed to publish to YouTube" with its message as details; any other thrown value gives the unknown-error reply. |
| PublishYouTube.Published | server/routes/publish-to-youtube.ts:99-110 | The success body has demoMode false, the fixed message and the upload time. Its title and description fall back to the request's values when the platform's are falsy. The id, channel and privacy fields are present exactly when the platform gave them, and then hold its values. |
| PublishYouTube.Publish | server/routes/publish-to-youtube.ts:14-124 | A missing video URL answers 400 with no calls. A failed download answers 500 with its status text, and a thrown download or insert answers the catch block's reply for what was thrown. The insert happens only after a good download. The answer is 200 exactly when the insert succeeds, and it is then the success body built from the insert's result. |
| PublishYouTube.IdFrom | server/routes/publish-to-youtube-mock.ts:31-38 | Each random draw picks the character of the base64url alphabet (RFC 4648 section 5) at floor(64 * draw). |
| PublishYouTube.GenerateVideoId | server/routes/publish-to-youtube-mock.ts:31-38 | The id has 11 characters, each taken from the draws in order. |
| PublishYouTube.EveryIdReachable | server/routes/publish-to-youtube-mock.ts:31-38 | Every 11-character base64url string is produced by some draws. |
| PublishYouTube.PublishMock | server/routes/publish-to-youtube-mock.ts:12-71 | A missing video URL answers 400. Otherwise, after waits of 1 and 2 seconds, the answer carries the generated id, its watch URL, the title with its default, and demoMode true. A failure answers 500 with demoMode true. |
| PublishYouTube.ResponsesDiffer | server/routes/publish-to-youtube-mock.ts:52-60 | The real and mock success bodies have different field sets: the mock has no description, privacy, upload time or channel, and has a note. |
| PublishYouTube.CredentialsMeaning | server/server.ts:37-44 | Real mode requires the access token, client id and client secret to be present and not blank, and neither the token nor the id may contain "your-". The secret is not checked for "your-", and the refresh token plays no part. |
| PublishYouTube.FilledNotBlank | server/server.ts:40-42 | A credential counts as filled exactly when it is non-empty and not only white space. |
| PublishYouTube.ModeFor | server/server.ts:46-52 | The real handler is chosen exactly when the credential predicate holds. |
| PublishYouTube.ApiPublish | api/publish-to-youtube.ts:5-25 | A non-POST request answers 405 without calling either handler. Otherwise the same predicate selects the real or the mock handler. |
| PublishYouTube.PlaceholderMeansDemo | api/publish-to-youtube.ts:11-24 | A placeholder client id always selects the mock. |
| UploadGcs.Receive | server/server.ts:19-34 | Only a video part under the field "video" is handed on, and only up to 100 MiB. A larger one is an error. A non-video part is skipped, and a part under another field is rejected. |
| UploadGcs.Extension | server/routes/upload-to-gcs.ts:31 | The extension is the dot-free suffix after the last dot, or the whole name when there is no dot. |
| UploadGcs.ObjectName | server/routes/upload-to-gcs.ts:32 | The object name is under "videos/". |
| UploadGcs.ObjectNameKeepsExtension | server/routes/upload-to-gcs.ts:31-32 | The object name splits at its one dot into "videos/<uuid>" and the original extension. |
| UploadGcs.PublicUrl | server/routes/upload-to-gcs.ts:56 | The public address is the storage host followed by "<bucket>/<name>". |
| UploadGcs.UploadToGcs | server/routes/upload-to-gcs.ts:9-78 | A missing file answers 400 before anything else. A missing bucket answers 500. A stream error or a failed makePublic answers 500. Success answers with the URL, object name, original name and size, after writing the file and making it public. |
| UploadGcs.ServeUpload | server/server.ts:34 | A parser error answers 500 without touching the bucket; otherwise the handler runs on what the parser kept. |
| UploadGcs.OnlyVideosStored | server/server.ts:22-30 | Only a video of at most 100 MiB reaches the bucket. A non-video file is answered as if no file was sent. |
| VideoEditor.Dimensions | components/RemotionVideoEditor.tsx:55-66 | 16:9 is landscape, 9:16 is portrait and 1:1 is square, with the shorter side 1080 in each case. |
| VideoEditor.AutoCaptions | components/RemotionVideoEditor.tsx:109-131 | There are three contiguous captions from 0, with ids 1 to 3. They change at 3 s and 6 s, the last ends at min(duration, 10), and their texts are the three fixed lines. |
| VideoEditor.AutoCaptionsShape | components/RemotionVideoEditor.tsx:109-131 | The automatic captions are sorted. The last ends no earlier than it starts exactly when the video is at least six seconds long. |
| VideoEditor.Insert | components/RemotionVideoEditor.tsx:144 | Inserting into a sorted list keeps it sorted and adds exactly the new caption. |
| VideoEditor.SortByStart | components/RemotionVideoEditor.tsx:144 | The sort gives a sorted permutation of the captions. |
| VideoEditor.SortIsStable | components/RemotionVideoEditor.tsx:144 | Captions with equal start times keep their relative order. |
| VideoEditor.SortSorted | components/RemotionVideoEditor.tsx:144 | Sorting a sorted list changes nothing. |
| VideoEditor.NewCaption | components/RemotionVideoEditor.tsx:137-142 | The new caption has the clock reading as its id, the form's times, and the trimmed text. |
| VideoEditor.AddCaption | components/RemotionVideoEditor.tsx:134-148 | Blank text changes nothing. Otherwise the list becomes a sorted permutation of the old captions plus the new one, whose text is non-empty. The form then moves to start at the old end and end at min(old end + 2, duration), with its text cleared. |
| VideoEditor.AddToSorted | components/RemotionVideoEditor.tsx:144 | Adding to a sorted list places the new caption after every caption that starts no later than it. |
| VideoEditor.RemoveCaption | components/RemotionVideoEditor.tsx:151-153 | Exactly the captions with the id are removed, and the rest stay in order, each as often as before. An unknown id changes nothing. |
| VideoEditor.RemoveKeepsSorted | components/RemotionVideoEditor.tsx:151-153 | Removing keeps a sorted list sorted. |
| VideoEditor.Apply | components/RemotionVideoEditor.tsx:158 | Each field an update gives replaces the caption's field; the others are kept. |
| VideoEditor.UpdateCaption | components/RemotionVideoEditor.tsx:156-160 | The length is kept, only the captions with the id are patched, and nothing moves. |
| VideoEditor.UpdateIdempotent | components/RemotionVideoEditor.tsx:156-160 | Applying the same update twice is applying it once, unless it renames the id. An empty update or an unknown id changes nothing. |
| VideoEditor.ModMinute | components/RemotionVideoEditor.tsx:200 | JavaScript's remainder by 60 takes the sign of the dividend, and differs from it by a whole number of minutes. |
| VideoEditor.FormatWholeSeconds | components/RemotionVideoEditor.tsx:198-202 | For whole seconds s the clock shows s div 60, a colon, and s mod 60 padded to two digits. |
| VideoEditor.FormatTimeReadsBack | components/RemotionVideoEditor.tsx:198-202 | For a non-negative time, the clock reads back as the whole seconds; only the fraction is lost. |
| VideoEditor.SeekFrame | components/RemotionVideoEditor.tsx:172-176 | The seek frame divided by 30 frames per second is the requested time. |
| VideoEditor.DurationInFrames | components/RemotionVideoEditor.tsx:266 | The player's length is the duration in whole frames, rounded down. |
| CaptionText.PlacementOf | remotion/components/Caption.tsx:38-95 | "top" and "center" are honoured; any other value, and a missing one, places the caption at the bottom. |
| CaptionText.DefaultFontSize | remotion/components/Caption.tsx:34 | The default font size is a 25th of the width, at most 48. |
| CaptionText.MaxWordsPerLine | remotion/components/Caption.tsx:100 | The words per line are the width over 0.6 times the font size, rounded down. |
| CaptionText.Groups | remotion/components/Caption.tsx:103-105 | Every line but the last has exactly n words, and the last has between 1 and n. Together the lines are the words again, in order. |
| CaptionText.GroupsCount | remotion/components/Caption.tsx:103-105 | The number of lines is the number of words divided by n, rounded up. |
| CaptionText.Chunk | remotion/components/Caption.tsx:101-105 | The loop produces the lines of those groups. |
| CaptionText.LinesOf | remotion/components/Caption.tsx:99-105 | The text is split at single spaces and chunked; the lines joined with spaces give the text back. |
| EditableVideo.PropsCaptions | components/RemotionVideoEditor.tsx:166 | The composition gets each caption's times and text, without its id, in order. |
| EditableVideo.VideoBox | remotion/compositions/EditableVideo.tsx:28-54 | 1:1 makes a square of the shorter side; every other value keeps the canvas. The video is centred, so it lies inside the canvas and touches two opposite sides. |
| EditableVideo.ActiveCues | remotion/compositions/EditableVideo.tsx:57-60 | The active captions are exactly those with start <= frame/fps <= end, both ends included. They keep their original order, each as often as before. |
| EditableVideo.Compose | remotion/compositions/EditableVideo.tsx:17-100 | An empty source shows the placeholder. The title shows only when it is non-empty and the frame is below 60. A missing caption list shows no captions. |
| EditableVideo.SeekShowsCaption | remotion/compositions/EditableVideo.tsx:57-60 | Seeking the editor to a caption's start shows that caption. |
| EditableVideo.AutoCaptionsOverlap | remotion/compositions/EditableVideo.tsx:57-60 | Because both ends are included, two automatic captions show together at frame 90. |
| Compositions.RegistryShape | remotion/Root.tsx:40-109 | There are four compositions with distinct ids, each 300 frames at 30 frames per second. |
| Compositions.Lookup | remotion/Root.tsx:40-109 | A composition is found exactly when one is registered under the id. |
| Compositions.EditableRegistered | remotion/Root.tsx:40-88 | For each editor aspect, its EditableVideo id is registered. The registered composition has the editor's canvas size and that aspect as its default. |
| Compositions.RegisteredIds | remotion/Root.tsx:41-92 | The registered ids are exactly EditableVideo-16-9, EditableVideo-9-16, EditableVideo-1-1 and CaptionedVideo. |
| Compositions.EditableId | api/remotion-render.ts:37 | The id is "EditableVideo-" followed by the aspect. Without a colon the aspect is kept as it is; otherwise its first colon becomes a dash and the rest is kept. |
| Compositions.ReplacePreimage | api/remotion-render.ts:37 | A first-colon replacement that gives a one-dash suffix came from that suffix or from the suffix with its dash made a colon. |
| Compositions.RenderableAspects | api/remotion-render.ts:37-50 | Exactly six aspect values find a composition: the three ratio names and the three id suffixes. |
| RemotionRender.OutputName | api/remotion-render.ts:55 | The file name is "edited-video-", the UUID, and ".mp4". |
| RemotionRender.PublicPath | api/remotion-render.ts:82 | The public path is "/temp/" followed by that file name. |
| RemotionRender.RenderFailure | api/remotion-render.ts:90-96 | A failure answers 500 "Failed to render video", with the Error's message or "Unknown error" as details. |
| RemotionRender.RenderVideo | api/remotion-render.ts:12-97 | A non-POST request answers 405 with no calls. The answer is 200 exactly when bundling, the lookup, selecting the composition, the directory and the render all succeed. The renderer is then asked for the registered composition. A missing aspect fails with V8's TypeError. A failed selection answers 500 with its Error. |
| RemotionRender.EditorAspectsRender | api/remotion-render.ts:37-88 | Every editor aspect renders when no renderer call fails, and only the six accepted values ever render. |
| PostModal.Initial | components/YouTubePostModal.tsx:22-31 | The dialog opens with the given title and description, no tags, public privacy, category 22 and no thumbnail. |
| PostModal.ParseTags | components/YouTubePostModal.tsx:40-43 | No tag is empty or has white space at either end, and there are at most commas + 1 tags. The tags are the trimmed pieces in order, and every non-blank piece gives its tag. |
| PostModal.DisplayedCountMatches | components/YouTubePostModal.tsx:40-248 | The count in the summary equals the number of tags a submission sends. |
| PostModal.TagsRoundTrip | components/YouTubePostModal.tsx:40-43 | Trimmed, non-empty, comma-free tags joined with commas parse back to themselves, however many there are. |
| PostModal.PickThumbnail | components/YouTubePostModal.tsx:60-65 | An image replaces the thumbnail. Anything else, or no file, keeps the previous one, and the rest of the form is unchanged. |
| PostModal.SubmitDisabledMeaning | components/YouTubePostModal.tsx:267 | Submit is disabled exactly while uploading or while the title is blank. |
| PostModal.Submit | components/YouTubePostModal.tsx:35-58 | A submission hands on the form's values with the tags parsed. Afterwards the dialog is not busy, whatever the outcome. |
| SoundLibrary.Filtered | components/AppleMusicTrendingSounds.tsx:58-64 | A sound is listed exactly when its genre matches ("All" matches every genre) and the search is empty or occurs, ignoring case, in its name or artist. The list keeps the library's order. |
| SoundLibrary.EverythingUnfiltered | components/AppleMusicTrendingSounds.tsx:58-64 | "All" with an empty search lists the whole library. |
| SoundLibrary.EmptyGenres | components/AppleMusicTrendingSounds.tsx:7-56 | "Hip-Hop" and "Electronic" never list anything. |
| SoundLibrary.EmptyStateMeaning | components/AppleMusicTrendingSounds.tsx:130 | "No songs found" shows exactly when no sound passes both filters. |
| SoundLibrary.SearchIgnoresCase | components/AppleMusicTrendingSounds.tsx:60-62 | A query and its lower-case form list the same sounds. |
| Uploader.Rejection | components/VideoUploader.tsx:80-131 | A non-OK answer becomes an Error carrying the body's error, or the fallback when that is falsy. |
| Uploader.Drop | components/VideoUploader.tsx:41-58 | A drop without a file changes nothing. A drop with one starts the upload and forgets any earlier storage address. |
| Uploader.UploadSettled | components/VideoUploader.tsx:60-92 | The upload is over either way. An OK answer stores the address; any other outcome is an error and keeps the old address. |
| Uploader.Request | components/VideoUploader.tsx:109-115 | The publish request sends the stored address, with the title "AI Generated Video - " followed by the file name. |
| Uploader.PublishStart | components/VideoUploader.tsx:94-101 | Publishing does nothing without a stored address and a file. |
| Uploader.PublishSettled | components/VideoUploader.tsx:119-143 | Publishing is over either way. An OK answer records the YouTube address; anything else is an error and keeps the old one. |
| Uploader.Reset | components/VideoUploader.tsx:145-156 | Reset restores exactly the initial panel. |
| Uploader.StepConsistent | components/VideoUploader.tsx:41-162 | Every event the interface enables keeps the flags in agreement with the progress. |
| Uploader.RunConsistent | components/VideoUploader.tsx:162-320 | The controls disable drops while a request runs, publishing without an address and after publication, and reset outside errors and publication. Under those rules the panel stays consistent from any consistent state, and an upload and a publication never run at once. |
| Uploader.InitialConsistent | components/VideoUploader.tsx:27-35 | The initial panel is consistent, and reset leaves it as it is. |
| PromptEnhancer.BuildPrompt | source/geminiPromptEnhancer.ts:45-72 | The built prompt contains the user's prompt in double quotes and every one of the four reference prompts. |
| PromptEnhancer.LastIndexOf | source/geminiPromptEnhancer.ts:77 | The result is the last position of the character, or -1 exactly when it is absent. |
| PromptEnhancer.JsonSpan | source/geminiPromptEnhancer.ts:77 | The greedy match runs from the first "{" to the last "}". It exists exactly when some "{" comes before some "}". |
| PromptEnhancer.SpanText | source/geminiPromptEnhancer.ts:77 | The matched text starts with "{" and ends with "}". |
| PromptEnhancer.SpanSkipsChatter | source/geminiPromptEnhancer.ts:77 | Text around an object is skipped when it has no "{" before the object and no "}" after it. |
| PromptEnhancer.FieldOr | source/geminiPromptEnhancer.ts:81-83 | A truthy field is kept; anything else takes the fallback. |
| PromptEnhancer.Fallback | source/geminiPromptEnhancer.ts:90-95 | The fallback keeps the whole answer as the enhanced prompt. Its reasoning is the fixed "Enhanced with AI-powered improvements", with the three fixed improvements. |
| PromptEnhancer.ParseResponse | source/geminiPromptEnhancer.ts:74-96 | With no match, or when parsing fails, the result is the fallback. Otherwise falsy fields default to "", "" and []. |
| PromptEnhancer.NoBracesFallback | source/geminiPromptEnhancer.ts:77-95 | An answer with no "{" or no "}" always falls back. |
| PromptEnhancer.Enhance | source/geminiPromptEnhancer.ts:30-43 | A model failure becomes the one Error "Failed to enhance prompt with AI"; otherwise the answer is parsed, which never fails. |
| Base64.DecodeEncode | server/routes/merge-audio.ts:101 | Decoding the standard base64 encoding (RFC 4648 section 4) of any bytes gives the bytes back. |
| Base64.Encode | server/routes/merge-audio.ts:101 | The encoding has 4 characters per started group of 3 bytes, each from the alphabet or "=". |
| Base64.SextetRoundTrip | server/routes/publish-to-youtube-mock.ts:32 | Each of the 64 characters names its own value, in both alphabets. |
| Aspects.Parse | source/api.ts:31-35 | Exactly the three names parse, and each parses to the aspect of that name. |
| JsValues.Round | source/api.ts:50-56 | Math.round gives the integer nearest its argument, with halves rounded up. |
| JsValues.Or | source/api.ts:42 | `a \|\| b` on strings is truthy exactly when either operand is, and picks the first truthy one. |
| Strings.Trim | components/YouTubePostModal.tsx:42 | Trimming removes exactly the white space at both ends. |
| Strings.TrimIdempotent | components/YouTubePostModal.tsx:42 | Trimming twice is trimming once. |
| Strings.SplitJoin | components/YouTubePostModal.tsx:41 | Splitting the join of separator-free pieces gives the pieces back. |
| Strings.Split | components/YouTubePostModal.tsx:41 | There is one piece more than separators, and the pieces joined with the separator give the string back. |
| Strings.SplitPieces | server/routes/upload-to-gcs.ts:31 | No piece of a split contains the separator. |
| Strings.ReplaceFirst | api/remotion-render.ts:37 | Only the first occurrence of the character is replaced. |
| UriComponent.Encode | server/routes/trending-sounds.ts:48 | The encoding leaves unreserved text as it is, and the output contains only unreserved characters and percent escapes. That the escapes are the UTF-8 bytes is stated by the decoding round trip, UriComponent.DecodeEncode. |
| UriComponent.DecodeEncode | server/routes/trending-sounds.ts:48 | Decoding an encoded string gives it back, for every string. |
| Seqs.Filter | components/AppleMusicTrendingSounds.tsx:58 | The result keeps exactly the elements that pass, in order, as a subsequence of the input. How often each is kept is stated by Seqs.FilterCounts. |
| Seqs.FilterCounts | components/AppleMusicTrendingSounds.tsx:58 | Each passing element occurs as often as in the input, and a failing one not at all. |

## Left out

- Network, subprocess and cloud I/O (fetch, ffmpeg through `spawn`, the output file read, Cloud Storage streams, googleapis and OAuth, Remotion's `bundle`, `selectComposition` and `renderMedia`) are inputs or results of the model; their own behaviour is not modelled.
- Timers: the generator's waits, the poller's sleeps and the mock's delays appear only as recorded waits. The five-minute `setInterval` sweep is a schedule of sweep times counted from the module's load (`FakeGeneration.SweepTime`).
- Randomness: UUIDs, `Date.now()` ids and the mock's `Math.random` draws are parameters.
- URL resolution against `BASE` in the poller is an input function. The `/^https?:\/\//i` test is modelled only for ASCII letters.
- Floating point: JavaScript numbers are reals, with NaN and the infinities kept only where the source tests for them. Rounding of IEEE doubles is not modelled.
- Number formatting: the text of a non-integer volume is an input function. JSON key order and the exact bytes of `JSON.stringify` are not modelled.
- GenerationApi.ChooseAspect: the model treats every string other than the three preset names as unknown. In JavaScript, an inherited property name such as "constructor" is also truthy in the preset table.
- UploadGcs.Receive: only the status of multer's errors is modelled, not their body. A request with several files is not modelled.
- RemotionRender.RenderVideo: an aspect of a non-string type is not modelled; the body fields the route only forwards are not modelled either. A missing request body is not modelled either: the route destructures `req.body` before its `try` (api/remotion-render.ts:17-25), so a missing body would reject the handler with no answer at all, rather than the 500 of the catch block.
- Uploader.UploadSettled: an absent `url` or `youtubeUrl` in an OK answer is stored as the empty string. Only its truthiness is ever read, and `undefined` is not distinguished.
- Strings.Lower and Strings.Upper change only ASCII letters, unlike `toLowerCase` and `toUpperCase`.
- MergeAudio.Merge: `mkdtemp`, the two `arrayBuffer` reads and the two `writeFile` calls are taken to succeed. Each would reject into the catch block and answer 500 with its message; only the read of the output file is modelled as failing (in `MergeAudio.Finish`).
- TrendingSounds.FetchDeezerChart: chart entries that are not objects are not modelled; a `null` entry would make the preview filter throw and the route answer 500.
- TrendingSounds.Handle: feed items that are not objects are not modelled. A `null` item would make the search term (server/routes/trending-sounds.ts:91), read outside the inner `try`, throw, and the route would answer 500.
- MergeAudio.ParseDataUrl reads only base64 data URLs; percent-encoded data URLs are not read.
- PublishYouTube.GenerateVideoId draws exactly 11 characters, as the source does; the draws are given, not produced.
- CaptionText.LinesOf requires at least one word per line. With zero words per line (a font larger than the width over 0.6), the source's loop never advances. With a negative count it never ends either. The compositions' default font size always allows at least one word, but the render route forwards `subtitleStyle` unchecked (api/remotion-render.ts:17-23,48), so a request can reach both cases.
- CaptionText.MaxWordsPerLine requires a positive font size. A font size of 0 with a positive width makes the source's division Infinity (with a zero width, NaN), and the loop then emits the whole text as one line (an empty line for NaN); a negative one gives a negative count and the loop never ends. Those IEEE 754 cases are not modelled.
- All rendering, styling and animation: the JSX of every component, the spring and interpolate animation, and the caption styles.
- remotion/compositions/CaptionedVideo.tsx, App.tsx and the other context components and scripts are not part of this model.
- Behaviour a reader might expect that the code does not have, where the model follows the code:
  - Frames are not bounded below: `GenerationApi.NoLowerFrameBound` gives 0 and -12.
  - The merge route removes its temporary directory only on success: `MergeAudio.Merge` and `MergeAudio.FinishTrace` state this.
  - The mock's answer does not have the real answer's shape: `PublishYouTube.ResponsesDiffer` states the difference.
- Compositions.RenderableAspects: the render route also accepts the three id suffixes ("16-9", "9-16", "1-1") as aspect values, because a name without a colon is left as it is.

=== FILE: aspects.dfy ===
/** The three aspect ratios the generator, the editor and the Remotion
    compositions share, and their names "16:9", "1:1" and "9:16". */
module Aspects {
  import opened JsValues

  datatype Aspect = Landscape | Square | Portrait

  function Name(a: Aspect): string {
    match a
    case Landscape => "16:9"
    case Square => "1:1"
    case Portrait => "9:16"
  }

  /** The aspect a string names, if it names one. */
  function Parse(s: string): (r: Option<Aspect>)
    ensures r.Some? <==> s in {"16:9", "1:1", "9:16"}
    ensures r.Some? ==> Name(r.value) == s
  {
    if s == "16:9" then Some(Landscape)
    else if s == "1:1" then Some(Square)
    else if s == "9:16" then Some(Portrait)
    else None
  }

  /** Names are distinct and parse back to their aspect. */
  lemma ParseName(a: Aspect)
    ensures Parse(Name(a)) == Some(a)
  {
  }
}

=== FILE: base64.dfy ===
/** Base 64 as RFC 4648 defines it: the standard alphabet with `=` padding of
    section 4 (used by `Buffer.toString('base64')` for the merged video's data
    URL) and the URL- and filename-safe alphabet of section 5 (the alphabet the
    demo publisher draws video ids from). */
module Base64 {
  import opened JsValues

  /** Section 4 uses `+` and `/` for values 62 and 63; section 5 uses `-` and `_`. */
  datatype Variant = Standard | UrlSafe

  /** The character that encodes a 6-bit value. */
  function SextetChar(n: nat, v: Variant): (c: char)
    requires n < 64
  {
    if n < 26 then ('A' as int + n) as char
    else if n < 52 then ('a' as int + (n - 26)) as char
    else if n < 62 then ('0' as int + (n - 52)) as char
    else if n == 62 then (if v == Standard then '+' else '-')
    else (if v == Standard then '/' else '_')
  }

  /** The 6-bit value a character encodes, if it belongs to the alphabet. */
  function SextetOf(c: char, v: Variant): (r: Option<nat>)
    ensures r.Some? ==> r.value < 64 && SextetChar(r.value, v) == c
  {
    if 'A' <= c <= 'Z' then Some(c as int - 'A' as int)
    else if 'a' <= c <= 'z' then Some(c as int - 'a' as int + 26)
    else if '0' <= c <= '9' then Some(c as int - '0' as int + 52)
    else if c == (if v == Standard then '+' else '-') then Some(62)
    else if c == (if v == Standard then '/' else '_') then Some(63)
    else None
  }

  /** The 64 characters of an alphabet, in value order. */
  function Alphabet(v: Variant): (a: string)
    ensures |a| == 64
    ensures forall n :: 0 <= n < 64 ==> a[n] == SextetChar(n, v)
  {
    seq(64, n requires 0 <= n < 64 => SextetChar(n, v))
  }

  lemma SextetRoundTrip(n: nat, v: Variant)
    requires n < 64
    ensures SextetOf(SextetChar(n, v), v) == Some(n)
  {
  }

  /** Every character of an alphabet decodes to its position in it. */
  lemma AlphabetMembership(c: char, v: Variant)
    ensures c in Alphabet(v) <==> SextetOf(c, v).Some?
  {
    if c in Alphabet(v) {
      var n :| 0 <= n < 64 && Alphabet(v)[n] == c;
      SextetRoundTrip(n, v);
    }
  }

  /** Three bytes as four characters. */
  function EncodeGroup(b0: byte, b1: byte, b2: byte): (r: string)
    ensures |r| == 4
    ensures forall i :: 0 <= i < 4 ==> SextetOf(r[i], Standard).Some?
  {
    SextetRoundTrip(b0 / 4, Standard);
    SextetRoundTrip((b0 % 4) * 16 + b1 / 16, Standard);
    SextetRoundTrip((b1 % 16) * 4 + b2 / 64, Standard);
    SextetRoundTrip(b2 % 64, Standard);
    [SextetChar(b0 / 4, Standard), SextetChar((b0 % 4) * 16 + b1 / 16, Standard),
     SextetChar((b1 % 16) * 4 + b2 / 64, Standard), SextetChar(b2 % 64, Standard)]
  }

  /** `buffer.toString('base64')`: groups of three bytes become four characters of
      the standard alphabet; a final group of one or two bytes is padded with `=`
      to four characters. */
  function Encode(bs: seq<byte>): (r: string)
    ensures |r| == 4 * ((|bs| + 2) / 3)
    ensures forall i :: 0 <= i < |r| ==> r[i] == '=' || SextetOf(r[i], Standard).Some?
    decreases |bs|
  {
    if |bs| == 0 then ""
    else if |bs| == 1 then
      SextetRoundTrip(bs[0] / 4, Standard);
      SextetRoundTrip((bs[0] % 4) * 16, Standard);
      [SextetChar(bs[0] / 4, Standard), SextetChar((bs[0] % 4) * 16, Standard), '=', '=']
    else if |bs| == 2 then
      SextetRoundTrip(bs[0] / 4, Standard);
      SextetRoundTrip((bs[0] % 4) * 16 + bs[1] / 16, Standard);
      SextetRoundTrip((bs[1] % 16) * 4, Standard);
      [SextetChar(bs[0] / 4, Standard), SextetChar((bs[0] % 4) * 16 + bs[1] / 16, Standard),
       SextetChar((bs[1] % 16) * 4, Standard), '=']
    else
      var rest := Encode(bs[3..]);
      assert (|bs| + 2) / 3 == (|bs| - 1) / 3 + 1;
      var r := EncodeGroup(bs[0], bs[1], bs[2]) + rest;
      assert forall i :: 4 <= i < |r| ==> r[i] == rest[i - 4];
      r
  }

  /** Four characters without padding as three bytes. */
  function DecodeGroup(q: string): (r: Option<seq<byte>>)
    requires |q| == 4
    ensures r.Some? ==> |r.value| == 3
  {
    var c0 := SextetOf(q[0], Standard);
    var c1 := SextetOf(q[1], Standard);
    var c2 := SextetOf(q[2], Standard);
    var c3 := SextetOf(q[3], Standard);
    if c0.None? || c1.None? || c2.None? || c3.None? then None
    else Some([c0.value * 4 + c1.value / 16, (c1.value % 16) * 16 + c2.value / 4,
               (c2.value % 4) * 64 + c3.value])
  }

  /** The last four characters, which may end in one or two `=`. */
  function DecodeLast(q: string): (r: Option<seq<byte>>)
    requires |q| == 4
    ensures r.Some? ==> 1 <= |r.value| <= 3
  {
    var c0 := SextetOf(q[0], Standard);
    var c1 := SextetOf(q[1], Standard);
    if c0.None? || c1.None? then None
    else if q[2] == '=' && q[3] == '=' then
      Some([c0.value * 4 + c1.value / 16])
    else if q[3] == '=' then
      var c2 := SextetOf(q[2], Standard);
      if c2.None? then None
      else Some([c0.value * 4 + c1.value / 16, (c1.value % 16) * 16 + c2.value / 4])
    else DecodeGroup(q)
  }

  /** The inverse of `Encode` on padded standard-alphabet text; `None` for text
      that is not of that form. */
  function Decode(s: string): (r: Option<seq<byte>>)
    decreases |s|
  {
    if |s| == 0 then Some([])
    else if |s| < 4 then None
    else if |s| == 4 then DecodeLast(s)
    else
      var head := DecodeGroup(s[..4]);
      var tail := Decode(s[4..]);
      if head.None? || tail.None? then None else Some(head.value + tail.value)
  }

  lemma GroupRoundTrip(b0: byte, b1: byte, b2: byte)
    ensures DecodeGroup(EncodeGroup(b0, b1, b2)) == Some([b0, b1, b2])
  {
    var c0, c1, c2, c3 := b0 / 4, (b0 % 4) * 16 + b1 / 16, (b1 % 16) * 4 + b2 / 64, b2 % 64;
    SextetRoundTrip(c0, Standard);
    SextetRoundTrip(c1, Standard);
    SextetRoundTrip(c2, Standard);
    SextetRoundTrip(c3, Standard);
    assert c1 / 16 == b0 % 4 && c1 % 16 == b1 / 16;
    assert c2 / 4 == b1 % 16 && c2 % 4 == b2 / 64;
  }

  lemma OneByteRoundTrip(b0: byte)
    ensures Decode(Encode([b0])) == Some([b0])
  {
    var c0, c1 := b0 / 4, (b0 % 4) * 16;
    SextetRoundTrip(c0, Standard);
    SextetRoundTrip(c1, Standard);
    assert c1 / 16 == b0 % 4;
  }

  lemma TwoBytesRoundTrip(b0: byte, b1: byte)
    ensures Decode(Encode([b0, b1])) == Some([b0, b1])
  {
    var c0, c1, c2 := b0 / 4, (b0 % 4) * 16 + b1 / 16, (b1 % 16) * 4;
    SextetRoundTrip(c0, Standard);
    SextetRoundTrip(c1, Standard);
    SextetRoundTrip(c2, Standard);
    assert c1 / 16 == b0 % 4 && c1 % 16 == b1 / 16 && c2 / 4 == b1 % 16;
  }

  /** No character of the alphabet is the padding character. */
  lemma NotPadding(n: nat, v: Variant)
    requires n < 64
    ensures SextetChar(n, v) != '='
  {
  }

  /** Decoding the encoding of any byte sequence gives the bytes back. */
  lemma {:induction false} DecodeEncode(bs: seq<byte>)
    ensures Decode(Encode(bs)) == Some(bs)
    decreases |bs|
  {
    if |bs| == 1 {
      assert bs == [bs[0]];
      OneByteRoundTrip(bs[0]);
    } else if |bs| == 2 {
      assert bs == [bs[0], bs[1]];
      TwoBytesRoundTrip(bs[0], bs[1]);
    } else if |bs| == 3 {
      ThreeBytesRoundTrip(bs);
    } else if |bs| > 3 {
      DecodeEncode(bs[3..]);
      LongRoundTrip(bs);
    }
  }

  lemma ThreeBytesRoundTrip(bs: seq<byte>)
    requires |bs| == 3
    ensures Decode(Encode(bs)) == Some(bs)
  {
    var g := EncodeGroup(bs[0], bs[1], bs[2]);
    GroupRoundTrip(bs[0], bs[1], bs[2]);
    assert Encode(bs[3..]) == "";
    assert Encode(bs) == g + "" == g;
    NotPadding((bs[1] % 16) * 4 + bs[2] / 64, Standard);
    NotPadding(bs[2] % 64, Standard);
    assert g[2] != '=' && g[3] != '=';
    FirstThree(bs);
  }

  /** A full group in front of a non-empty rest decodes group by group. */
  lemma LongRoundTrip(bs: seq<byte>)
    requires |bs| > 3 && Decode(Encode(bs[3..])) == Some(bs[3..])
    ensures Decode(Encode(bs)) == Some(bs)
  {
    var g := EncodeGroup(bs[0], bs[1], bs[2]);
    var t := Encode(bs[3..]);
    GroupRoundTrip(bs[0], bs[1], bs[2]);
    assert (|bs| - 3 + 2) / 3 >= 1;
    assert Encode(bs) == g + t;
    DecodeCons(g, t);
    FirstThree(bs);
  }

  lemma FirstThree(bs: seq<byte>)
    requires |bs| >= 3
    ensures [bs[0], bs[1], bs[2]] + bs[3..] == bs
    ensures |bs| == 3 ==> [bs[0], bs[1], bs[2]] == bs
  {
  }

  /** A group of four in front of more text decodes on its own. */
  lemma DecodeCons(g: string, t: string)
    requires |g| == 4 && |t| >= 4 && DecodeGroup(g).Some? && Decode(t).Some?
    ensures Decode(g + t) == Some(DecodeGroup(g).value + Decode(t).value)
  {
    assert (g + t)[..4] == g && (g + t)[4..] == t;
  }
}

=== FILE: caption_text.dfy ===
/** How a caption is laid out (remotion/components/Caption.tsx): its text
    broken into lines of a fixed number of words, and its placement on the
    frame. */
module CaptionText {
  import opened JsValues
  import opened Strings

  datatype Placement = Top | Center | Bottom

  /** The `position` of the style: "top" and "center" are honoured; anything
      else, and a missing value, places the caption at the bottom. */
  function PlacementOf(position: Option<string>): (p: Placement)
    ensures p == Top <==> position == Some("top")
    ensures p == Center <==> position == Some("center")
    ensures p == Bottom <==> position != Some("top") && position != Some("center")
  {
    match position
    case Some("top") => Top
    case Some("center") => Center
    case _ => Bottom
  }

  /** The font size when the style gives none: a 25th of the width, at most 48. */
  function DefaultFontSize(containerWidth: real): (size: real)
    ensures size <= 48.0 && size <= containerWidth / 25.0
    ensures size == 48.0 || size == containerWidth / 25.0
  {
    Min(containerWidth / 25.0, 48.0)
  }

  /** `Math.floor(containerWidth / (fontSize * 0.6))`: how many words fit on a line. */
  function MaxWordsPerLine(containerWidth: real, fontSize: real): (n: int)
    requires fontSize > 0.0
    ensures n as real <= containerWidth / (fontSize * 0.6) < n as real + 1.0
  {
    (containerWidth / (fontSize * 0.6)).Floor
  }

  /** The words of consecutive groups, in order. */
  function Flatten(gs: seq<seq<string>>): seq<string> {
    if |gs| == 0 then [] else gs[0] + Flatten(gs[1..])
  }

  /** The words cut into consecutive groups of `n`, the last one possibly
      shorter: every group but the last has `n` words, the last between 1 and
      `n`, there are as many groups as `n`-word lines are needed, and together
      they are the words again. */
  function Groups(ws: seq<string>, n: nat): (gs: seq<seq<string>>)
    requires n >= 1
    ensures forall k :: 0 <= k < |gs| ==> 1 <= |gs[k]| <= n
    ensures forall k :: 0 <= k < |gs| - 1 ==> |gs[k]| == n
    ensures |ws| == 0 <==> gs == []
    ensures Flatten(gs) == ws
    decreases |ws|
  {
    if |ws| == 0 then []
    else if |ws| <= n then
      assert Flatten([ws]) == ws + Flatten([]);
      [ws]
    else
      var rest := Groups(ws[n..], n);
      var gs := [ws[..n]] + rest;
      assert gs[1..] == rest;
      assert ws == ws[..n] + ws[n..];
      gs
  }

  /** There are as many groups as `n`-word lines are needed for the words. */
  lemma {:induction false} GroupsCount(ws: seq<string>, n: nat)
    requires n >= 1 && |ws| > 0
    ensures (|Groups(ws, n)| - 1) * n < |ws| <= |Groups(ws, n)| * n
    decreases |ws|
  {
    if |ws| > n {
      GroupsCount(ws[n..], n);
      ShiftBound(|Groups(ws[n..], n)|, n, |ws| - n);
    }
  }

  /** One more group of `n` covers `n` more words. */
  lemma ShiftBound(r: int, n: int, m: int)
    requires (r - 1) * n < m <= r * n
    ensures r * n < m + n <= (r + 1) * n
  {
    assert (r + 1) * n == r * n + n && (r - 1) * n == r * n - n;
  }

  /** Each group joined with a space. */
  function Lines(gs: seq<seq<string>>): (lines: seq<string>)
    ensures |lines| == |gs|
    ensures forall k :: 0 <= k < |gs| ==> lines[k] == Join(gs[k], " ")
  {
    seq(|gs|, k requires 0 <= k < |gs| => Join(gs[k], " "))
  }

  /** Joining the lines of non-empty groups is joining all their words. */
  lemma {:induction false} LinesJoin(gs: seq<seq<string>>)
    requires |gs| >= 1
    requires forall k :: 0 <= k < |gs| ==> |gs[k]| >= 1
    ensures Join(Lines(gs), " ") == Join(Flatten(gs), " ")
    decreases |gs|
  {
    if |gs| > 1 {
      LinesJoin(gs[1..]);
      assert Lines(gs)[1..] == Lines(gs[1..]);
      assert |Flatten(gs[1..])| >= |gs[1..][0]| >= 1;
      JoinAppend(gs[0], Flatten(gs[1..]), " ");
    } else {
      assert gs[1..] == [];
      assert Flatten(gs) == gs[0] + Flatten([]) == gs[0];
      assert Lines(gs) == [Join(gs[0], " ")];
    }
  }

  /** The words from position `i` on. */
  function From(words: seq<string>, i: nat): seq<string> {
    if i < |words| then words[i..] else []
  }

  /** `words.slice(i, i + n).join(' ')` */
  function LineAt(words: seq<string>, i: nat, n: nat): string
    requires i < |words|
  {
    var end := if i + n < |words| then i + n else |words|;
    Join(words[i..end], " ")
  }

  /** One turn of the loop: the first line is the first `n` words (or all
      that are left), and the rest are the lines of what follows. */
  lemma LinesStep(words: seq<string>, i: nat, n: nat)
    requires n >= 1 && i < |words|
    ensures Lines(Groups(From(words, i), n)) == [LineAt(words, i, n)] + Lines(Groups(From(words, i + n), n))
  {
    var ws := From(words, i);
    GroupsCons(ws, n);
    LinesCons(Groups(ws, n));
    FromFrom(words, i, n);
  }

  /** The first group is the first `n` words, or all of them. */
  lemma GroupsCons(ws: seq<string>, n: nat)
    requires n >= 1 && |ws| > 0
    ensures var end := if n < |ws| then n else |ws|;
            Groups(ws, n) == [ws[..end]] + Groups(From(ws, n), n)
  {
    if n >= |ws| {
      assert ws[..|ws|] == ws;
    }
  }

  lemma LinesCons(gs: seq<seq<string>>)
    requires |gs| > 0
    ensures Lines(gs) == [Join(gs[0], " ")] + Lines(gs[1..])
  {
    var r := [Join(gs[0], " ")] + Lines(gs[1..]);
    forall k | 0 <= k < |gs| ensures r[k] == Lines(gs)[k] {
      if k > 0 {
        assert r[k] == Lines(gs[1..])[k - 1] && gs[1..][k - 1] == gs[k];
      }
    }
  }

  lemma FromFrom(words: seq<string>, i: nat, n: nat)
    requires i < |words|
    ensures var end := if i + n < |words| then i + n else |words|;
            var ws := From(words, i);
            From(ws, n) == From(words, i + n) && ws[..if n < |ws| then n else |ws|] == words[i..end]
  {
  }

  /** The lines the loop of `Caption` still has to produce from word `i` on. */
  function LinesFrom(words: seq<string>, i: nat, n: nat): seq<string>
    requires n >= 1
    decreases |words| - i
  {
    if i >= |words| then [] else [LineAt(words, i, n)] + LinesFrom(words, i + n, n)
  }

  /** The loop's lines are the lines of the groups. */
  lemma {:induction false} LinesFromGroups(words: seq<string>, i: nat, n: nat)
    requires n >= 1
    ensures LinesFrom(words, i, n) == Lines(Groups(From(words, i), n))
    decreases |words| - i
  {
    if i >= |words| {
      NoLinesLeft(words, i, n);
    } else {
      LinesFromGroups(words, i + n, n);
      LinesStep(words, i, n);
      LinesFromCons(words, i, n);
      SameTail(LinesFrom(words, i, n), Lines(Groups(From(words, i), n)), LineAt(words, i, n),
               LinesFrom(words, i + n, n), Lines(Groups(From(words, i + n), n)));
    }
  }

  lemma LinesFromCons(words: seq<string>, i: nat, n: nat)
    requires n >= 1 && i < |words|
    ensures LinesFrom(words, i, n) == [LineAt(words, i, n)] + LinesFrom(words, i + n, n)
  {
  }

  lemma SameTail(a: seq<string>, b: seq<string>, x: string, a': seq<string>, b': seq<string>)
    requires a == [x] + a' && b == [x] + b' && a' == b'
    ensures a == b
  {
  }

  /** The loop of `Caption`: each slice of `n` words joined into a line. */
  method Chunk(words: seq<string>, n: nat) returns (lines: seq<string>)
    requires n >= 1
    ensures lines == Lines(Groups(words, n))
  {
    lines := [];
    var i: nat := 0;
    while i < |words|
      invariant lines + LinesFrom(words, i, n) == LinesFrom(words, 0, n)
      decreases |words| - i
    {
      AppendLine(lines, LineAt(words, i, n), LinesFrom(words, i + n, n));
      lines := lines + [LineAt(words, i, n)];
      i := i + n;
    }
    assert lines + [] == lines;
    LinesFromGroups(words, 0, n);
    assert From(words, 0) == words;
  }

  lemma NoLinesLeft(words: seq<string>, i: nat, n: nat)
    requires n >= 1 && i >= |words|
    ensures Lines(Groups(From(words, i), n)) == []
  {
    assert From(words, i) == [];
  }

  lemma AppendLine(lines: seq<string>, line: string, rest: seq<string>)
    ensures (lines + [line]) + rest == lines + ([line] + rest)
  {
  }

  /** The lines of a caption: its text split at single spaces and chunked.
      The lines joined with spaces give the text again. */
  method LinesOf(text: string, n: nat) returns (lines: seq<string>)
    requires n >= 1
    ensures lines == Lines(Groups(Split(text, ' '), n))
    ensures Join(lines, " ") == text
  {
    var words := Split(text, ' ');
    lines := Chunk(words, n);
    LinesJoin(Groups(words, n));
  }
}

=== FILE: compositions.dfy ===
/** The composition registry of remotion/Root.tsx: the three EditableVideo
    compositions, one per aspect ratio, and the CaptionedVideo composition,
    each with its id, length, frame rate, canvas size and default props. */
module Compositions {
  import opened JsValues
  import opened Strings
  import opened Aspects
  import opened VideoEditor
  import opened EditableVideo

  datatype Component = EditableComponent | CaptionedComponent

  /** A registered composition and the default props it is shown with. */
  datatype Composition = Composition(id: string, component: Component, durationInFrames: nat, fps: nat,
                                     width: nat, height: nat, defaultAspect: string, defaultTitle: string,
                                     defaultCaptions: seq<Cue>)

  /** The sample video every composition opens with. */
  const SampleVideo: string := "https://commondatastorage.googleapis.com/gtv-videos-bucket/sample/BigBuckBunny.mp4"

  /** `RemotionRoot`, in registration order. */
  const Registry: seq<Composition> := [
    Composition("EditableVideo-16-9", EditableComponent, 300, 30, 1920, 1080, "16:9", "Generated Video", []),
    Composition("EditableVideo-9-16", EditableComponent, 300, 30, 1080, 1920, "9:16", "Generated Video", []),
    Composition("EditableVideo-1-1", EditableComponent, 300, 30, 1080, 1080, "1:1", "Generated Video", []),
    Composition("CaptionedVideo", CaptionedComponent, 300, 30, 1920, 1080, "16:9", "Captioned Video",
                [Cue(0.0, 3.0, "AI Generated Video Content"), Cue(3.0, 6.0, "Made with VEO-3 Technology"),
                 Cue(6.0, 10.0, "Ready for Social Media")])
  ]

  /** Exactly four compositions with distinct ids, each ten seconds long at
      30 frames per second. */
  lemma RegistryShape()
    ensures |Registry| == 4
    ensures forall i, j :: 0 <= i < j < |Registry| ==> Registry[i].id != Registry[j].id
    ensures forall i :: 0 <= i < |Registry| ==>
              Registry[i].durationInFrames == 300 && Registry[i].fps == 30
              && Registry[i].durationInFrames == 10 * Registry[i].fps
  {
  }

  /** The composition registered under an id, if any. */
  function Lookup(id: string): (r: Option<Composition>)
    ensures r.Some? ==> r.value in Registry && r.value.id == id
    ensures r.None? <==> forall i :: 0 <= i < |Registry| ==> Registry[i].id != id
  {
    LookupIn(Registry, id)
  }

  function LookupIn(cs: seq<Composition>, id: string): (r: Option<Composition>)
    ensures r.Some? ==> r.value in cs && r.value.id == id
    ensures r.None? <==> forall i :: 0 <= i < |cs| ==> cs[i].id != id
  {
    if |cs| == 0 then None
    else if cs[0].id == id then Some(cs[0])
    else LookupIn(cs[1..], id)
  }

  /** The EditableVideo id of an aspect ratio: "EditableVideo-" and the
      ratio's name with its first colon made a dash; a name without a colon
      is kept as it is. */
  function EditableId(aspectRatio: string): (id: string)
    ensures StartsWith(id, "EditableVideo-") && |id| == 14 + |aspectRatio|
    ensures ':' !in aspectRatio ==> id == "EditableVideo-" + aspectRatio
    ensures ':' in aspectRatio ==>
              var k := IndexOf(aspectRatio, ':');
              id == "EditableVideo-" + aspectRatio[..k] + "-" + aspectRatio[k + 1..]
  {
    "EditableVideo-" + ReplaceFirst(aspectRatio, ':', '-')
  }

  /** For each aspect ratio the editor offers, its id is registered with an
      EditableVideo of the editor's canvas size whose default aspect is that
      ratio. */
  lemma EditableRegistered(a: Aspect)
    ensures Lookup(EditableId(Name(a))).Some?
    ensures var c := Lookup(EditableId(Name(a))).value;
            c.component == EditableComponent && (c.width, c.height) == Dimensions(a)
            && c.defaultAspect == Name(a)
  {
    match a
    case Landscape =>
      LandscapeSpelling();
      IdsOf("16-9", 2, "16:9");
    case Portrait =>
      PortraitSpelling();
      IdsOf("9-16", 1, "9:16");
    case Square =>
      SquareSpelling();
      IdsOf("1-1", 1, "1:1");
  }

  /** The only strings a one-colon replacement turns into `t`, when `t` has
      no colon and exactly one dash (at `k`): `t` itself, and `t` with the
      dash written as a colon. */
  lemma ReplacePreimage(s: string, t: string, k: nat)
    requires ':' !in t && k < |t| && t[k] == '-'
    requires forall i :: 0 <= i < |t| && i != k ==> t[i] != '-'
    requires ReplaceFirst(s, ':', '-') == t
    ensures s == t || s == t[k := ':']
  {
    if ':' in s {
      var j := IndexOf(s, ':');
      assert t == s[..j] + ['-'] + s[j + 1..];
      assert t[j] == '-';
      assert forall i :: 0 <= i < |s| && i != k ==> s[i] == t[i] by {
        forall i | 0 <= i < |s| && i != k ensures s[i] == t[i] {
          if i < j { assert t[i] == s[..j][i]; } else { assert t[i] == s[j + 1..][i - j - 1]; }
        }
      }
      assert s == t[k := ':'];
    }
  }

  /** The ids under which something is registered. */
  lemma RegisteredIds(id: string)
    ensures Lookup(id).Some? <==>
              id == "EditableVideo-16-9" || id == "EditableVideo-9-16" || id == "EditableVideo-1-1"
              || id == "CaptionedVideo"
  {
  }

  /** The aspect values the render route accepts. */
  predicate RenderName(s: string) {
    s == "16:9" || s == "16-9" || s == "9:16" || s == "9-16" || s == "1:1" || s == "1-1"
  }

  /** The render route finds a composition for exactly six aspect values: the
      three ratio names and, since a name without a colon is left as it is,
      the three id suffixes themselves. */
  lemma RenderableAspects(s: string)
    ensures Lookup(EditableId(s)).Some? <==> RenderName(s)
  {
    RegisteredIds(EditableId(s));
    assert EditableId(s)[0] == 'E' != "CaptionedVideo"[0];
    if Lookup(EditableId(s)).Some? {
      OnlySixRender(s);
    }
    if RenderName(s) {
      SixRender(s);
    }
  }

  /** An id suffix with one dash comes from two aspect values. */
  lemma SuffixPreimage(s: string, suffix: string, k: nat)
    requires EditableId(s) == "EditableVideo-" + suffix
    requires ':' !in suffix && k < |suffix| && suffix[k] == '-'
    requires forall i :: 0 <= i < |suffix| && i != k ==> suffix[i] != '-'
    ensures s == suffix || s == suffix[k := ':']
  {
    CancelPrefix("EditableVideo-", ReplaceFirst(s, ':', '-'), suffix);
    ReplacePreimage(s, suffix, k);
  }

  lemma CancelPrefix(a: string, b: string, c: string)
    requires a + b == a + c
    ensures b == c
  {
    assert b == (a + b)[|a|..];
  }

  lemma OnlySixRender(s: string)
    requires EditableId(s) == "EditableVideo-16-9" || EditableId(s) == "EditableVideo-9-16"
             || EditableId(s) == "EditableVideo-1-1"
    ensures RenderName(s)
  {
    var id := EditableId(s);
    if id == "EditableVideo-16-9" {
      LandscapeNames(s);
    } else if id == "EditableVideo-9-16" {
      PortraitNames(s);
    } else {
      SquareNames(s);
    }
  }

  /** `t` has no colon and exactly one dash, at `k`. */
  predicate OneDash(t: string, k: nat) {
    ':' !in t && k < |t| && t[k] == '-' && forall i :: 0 <= i < |t| && i != k ==> t[i] != '-'
  }

  /** A registered EditableVideo id from its suffix: `t` has no colon and a
      single dash, at `k`, and `named` is `t` with that dash a colon. */
  lemma NamesOf(s: string, t: string, k: nat, named: string)
    requires EditableId(s) == "EditableVideo-" + t
    requires OneDash(t, k) && t[k := ':'] == named
    ensures s == named || s == t
  {
    SuffixPreimage(s, t, k);
  }

  /** The two aspect values spelled by a suffix with one dash map to it. */
  lemma IdsOf(t: string, k: nat, named: string)
    requires OneDash(t, k) && t[k := ':'] == named
    ensures EditableId(named) == "EditableVideo-" + t && EditableId(t) == "EditableVideo-" + t
  {
    var j := IndexOf(named, ':');
    assert named[k] == ':';
    assert forall i :: 0 <= i < |named| && i != k ==> named[i] == t[i] && named[i] != ':';
    assert j == k;
    assert named[..k] + ['-'] + named[k + 1..] == t;
  }

  lemma LandscapeNames(s: string)
    requires EditableId(s) == "EditableVideo-16-9"
    ensures s == "16:9" || s == "16-9"
  {
    LandscapeSpelling();
    NamesOf(s, "16-9", 2, "16:9");
  }

  lemma LandscapeSpelling()
    ensures "EditableVideo-16-9" == "EditableVideo-" + "16-9"
    ensures "16-9"[2 := ':'] == "16:9"
    ensures OneDash("16-9", 2)
  {
  }

  lemma PortraitNames(s: string)
    requires EditableId(s) == "EditableVideo-9-16"
    ensures s == "9:16" || s == "9-16"
  {
    PortraitSpelling();
    NamesOf(s, "9-16", 1, "9:16");
  }

  lemma PortraitSpelling()
    ensures "EditableVideo-9-16" == "EditableVideo-" + "9-16"
    ensures "9-16"[1 := ':'] == "9:16"
    ensures OneDash("9-16", 1)
  {
  }

  lemma SquareNames(s: string)
    requires EditableId(s) == "EditableVideo-1-1"
    ensures s == "1:1" || s == "1-1"
  {
    SquareSpelling();
    NamesOf(s, "1-1", 1, "1:1");
  }

  lemma SquareSpelling()
    ensures "EditableVideo-1-1" == "EditableVideo-" + "1-1"
    ensures "1-1"[1 := ':'] == "1:1"
    ensures OneDash("1-1", 1)
  {
  }

  lemma SixRender(s: string)
    requires RenderName(s)
    ensures EditableId(s) == "EditableVideo-16-9" || EditableId(s) == "EditableVideo-9-16"
            || EditableId(s) == "EditableVideo-1-1"
  {
    if s == "16:9" || s == "16-9" {
      LandscapeSpelling();
      IdsOf("16-9", 2, "16:9");
    } else if s == "9:16" || s == "9-16" {
      PortraitSpelling();
      IdsOf("9-16", 1, "9:16");
    } else {
      SquareSpelling();
      IdsOf("1-1", 1, "1:1");
    }
  }

}

=== FILE: editable_video.dfy ===
/** What the EditableVideo composition (remotion/compositions/EditableVideo.tsx)
    puts on a frame: where the video goes in the canvas, whether a placeholder
    stands in for it, whether the title overlay shows, and which captions are
    active. Drawing, styling and animation are not modelled. */
module EditableVideo {
  import opened JsValues
  import opened Seqs
  import opened VideoEditor

  /** A caption as the composition receives it: the editor's entry without its id. */
  datatype Cue = Cue(start: real, end: real, text: string)

  /** `captions.map(({ id, ...rest }) => rest)`: the props the editor hands to the player. */
  function PropsCaptions(cs: seq<Caption>): (cues: seq<Cue>)
    ensures |cues| == |cs|
    ensures forall i :: 0 <= i < |cs| ==>
              cues[i].start == cs[i].start && cues[i].end == cs[i].end && cues[i].text == cs[i].text
  {
    seq(|cs|, i requires 0 <= i < |cs| => Cue(cs[i].start, cs[i].end, cs[i].text))
  }

  /** The props of the composition; `captions` and `title` may be missing. */
  datatype Props = Props(videoSrc: string, aspectRatio: string, captions: Option<seq<Cue>>, title: Option<string>)

  /** The frame rate and canvas size of the composition being rendered. */
  datatype Config = Config(fps: real, width: real, height: real)

  /** Where the video sits in the canvas. */
  datatype Box = Box(top: real, left: real, width: real, height: real)

  /** `getVideoDimensions()` and the centring style: "1:1" makes a square of
      the shorter side, every other value keeps the canvas size; the video is
      centred, so it lies inside a canvas of non-negative size and touches two
      opposite sides of it. */
  function VideoBox(aspectRatio: string, width: real, height: real): (b: Box)
    ensures aspectRatio == "1:1" ==> b.width == b.height == Min(width, height)
    ensures aspectRatio != "1:1" ==> b.width == width && b.height == height
    ensures b.top + b.height + b.top == height && b.left + b.width + b.left == width
    ensures width >= 0.0 && height >= 0.0 ==>
              0.0 <= b.top && 0.0 <= b.left && (b.top == 0.0 || b.left == 0.0)
  {
    var w := if aspectRatio == "1:1" then Min(width, height) else width;
    var h := if aspectRatio == "1:1" then Min(width, height) else height;
    Box((height - h) / 2.0, (width - w) / 2.0, w, h)
  }

  function ActiveAt(t: real): Cue -> bool {
    (c: Cue) => t >= c.start && t <= c.end
  }

  /** The caption filter: at frame `frame` (time `frame / fps`), the captions
      whose interval contains the time, both ends included, in their order.
      Every composition of the project has a positive frame rate. */
  function ActiveCues(cues: seq<Cue>, frame: nat, fps: real): (r: seq<Cue>)
    requires fps > 0.0
    ensures forall i :: 0 <= i < |r| ==> r[i] in cues && r[i].start <= frame as real / fps <= r[i].end
    ensures forall i :: 0 <= i < |cues| && cues[i].start <= frame as real / fps <= cues[i].end ==> cues[i] in r
    ensures SubsequenceOf(r, cues)
    ensures forall c :: multiset(r)[c] == if c.start <= frame as real / fps <= c.end then multiset(cues)[c] else 0
  {
    FilterCounts(cues, ActiveAt(frame as real / fps));
    Filter(cues, ActiveAt(frame as real / fps))
  }

  /** The title overlay: only for a non-empty title, during the first 60
      frames (two seconds at 30 frames per second). */
  predicate ShowsTitle(title: Option<string>, frame: nat) {
    Truthy(title) && frame < 60
  }

  /** What one frame shows. */
  datatype Scene = Scene(video: Box, placeholder: bool, title: Option<string>, captions: seq<Cue>)

  /** The composition at a frame. A missing caption list is empty. */
  function Compose(p: Props, frame: nat, cfg: Config): (s: Scene)
    requires cfg.fps > 0.0
    ensures s.video == VideoBox(p.aspectRatio, cfg.width, cfg.height)
    ensures s.placeholder <==> p.videoSrc == ""
    ensures s.title.Some? <==> p.title.Some? && p.title.value != "" && frame < 60
    ensures s.title.Some? ==> s.title == p.title
    ensures p.captions.None? ==> s.captions == []
    ensures p.captions.Some? ==> s.captions == ActiveCues(p.captions.value, frame, cfg.fps)
  {
    Scene(VideoBox(p.aspectRatio, cfg.width, cfg.height),
          p.videoSrc == "",
          if ShowsTitle(p.title, frame) then p.title else None,
          ActiveCues(p.captions.GetOr([]), frame, cfg.fps))
  }

  /** Seeking the editor's player to the start of a caption shows that
      caption, as long as it does not end before it starts and the seek lands
      on a whole frame. */
  lemma SeekShowsCaption(cs: seq<Caption>, i: nat, frame: nat)
    requires i < |cs| && cs[i].start <= cs[i].end
    requires frame as real == SeekFrame(cs[i].start)
    ensures Cue(cs[i].start, cs[i].end, cs[i].text) in ActiveCues(PropsCaptions(cs), frame, EditorFps)
  {
    var cues := PropsCaptions(cs);
    assert cues[i] == Cue(cs[i].start, cs[i].end, cs[i].text);
  }

  /** Since both ends are included, the automatic captions overlap: at three
      seconds (frame 90) the first two are shown together. */
  lemma AutoCaptionsOverlap(duration: real)
    ensures var cues := PropsCaptions(AutoCaptions(duration));
            cues[0] in ActiveCues(cues, 90, EditorFps) && cues[1] in ActiveCues(cues, 90, EditorFps)
  {
  }
}

=== FILE: fake_generation.dfy ===
/** The simulated generation service (source/fakeVideoGeneration.ts): jobs kept
    in a map by id, walked through four timed phases to a fixed local video, and
    swept out ten minutes after creation once completed. Time is an explicit
    clock in milliseconds; the random job id is an input. */
module FakeGeneration {
  import opened JsValues

  datatype Status = Queued | Generating | Processing | Completed | Error

  datatype FakeJob = FakeJob(id: string, status: Status, progress: real, prompt: string,
                             videoUrl: Option<string>, createdAt: int)

  /** `FAKE_JOBS` */
  type Store = map<string, FakeJob>

  datatype Phase = Phase(status: Status, duration: nat, message: string)

  /** `GENERATION_PHASES`: the statuses in order with how long each lasts. */
  const Phases: seq<Phase> := [
    Phase(Queued, 1000, "Queued for processing..."),
    Phase(Generating, 8000, "AI agents creating script..."),
    Phase(Processing, 4000, "Rendering video..."),
    Phase(Completed, 0, "Video ready!")
  ]

  const ResultVideo: string := "/Shrek_Dancing_Video_Generated.mp4"

  /** Ten minutes: how long a completed job is kept after its creation. */
  const RetentionMs: int := 10 * 60 * 1000

  /** Five minutes: the period of the sweep. */
  const SweepPeriodMs: nat := 5 * 60 * 1000

  /** The place of a status in the walk; `Error` is never reached by it. */
  function Rank(s: Status): nat {
    match s
    case Queued => 0
    case Generating => 1
    case Processing => 2
    case Completed => 3
    case Error => 4
  }

  /** The body of the simulation's loop for phase `i`. */
  function ApplyPhase(job: FakeJob, i: nat): (j: FakeJob)
    requires i < |Phases|
    ensures j.id == job.id && j.prompt == job.prompt && j.createdAt == job.createdAt
    ensures j.status == Phases[i].status
    ensures j.status == Completed ==> j.progress == 100.0 && j.videoUrl == Some(ResultVideo)
    ensures j.status != Completed ==> j.progress == i as real * 100.0 / 3.0 && j.videoUrl == job.videoUrl
  {
    var j := job.(status := Phases[i].status, progress := (i as real / (|Phases| - 1) as real) * 100.0);
    if Phases[i].status == Completed then j.(videoUrl := Some(ResultVideo), progress := 100.0) else j
  }

  /** The job after the first `k` iterations of the loop. */
  function Walk(job: FakeJob, k: nat): FakeJob
    requires k <= |Phases|
  {
    if k == 0 then job else ApplyPhase(Walk(job, k - 1), k - 1)
  }

  /** The number of iterations that have run `elapsed` ms after the start: the
      first runs at once, and each later one after the previous phase's wait. */
  function PhasesRun(elapsed: nat): (k: nat)
    ensures 1 <= k <= |Phases|
  {
    if elapsed < 1000 then 1 else if elapsed < 9000 then 2 else if elapsed < 13000 then 3 else 4
  }

  /** When iteration `i` runs, in ms after the start: the sum of the earlier waits. */
  function PhaseStart(i: nat): nat
    requires i < |Phases|
  {
    if i == 0 then 0 else PhaseStart(i - 1) + Phases[i - 1].duration
  }

  /** `PhasesRun` counts exactly the iterations whose start time has come. */
  lemma PhasesRunMatchesStarts(elapsed: nat, i: nat)
    requires i < |Phases|
    ensures i < PhasesRun(elapsed) <==> PhaseStart(i) <= elapsed
  {
    assert PhaseStart(1) == 1000 && PhaseStart(2) == 9000 && PhaseStart(3) == 13000;
  }

  /** A job as the store holds it `elapsed` ms after `startFakeGeneration`. */
  function JobAt(job: FakeJob, elapsed: nat): FakeJob {
    Walk(job, PhasesRun(elapsed))
  }

  /** After `k >= 1` iterations the job is what the last one made of it. */
  lemma {:induction false} WalkLast(job: FakeJob, k: nat)
    requires 1 <= k <= |Phases| && job.videoUrl.None?
    ensures Walk(job, k).status == Phases[k - 1].status
    ensures Walk(job, k).id == job.id && Walk(job, k).prompt == job.prompt
            && Walk(job, k).createdAt == job.createdAt
    ensures Walk(job, k).videoUrl.Some? <==> k == |Phases|
    ensures Walk(job, k).progress == (k - 1) as real * 100.0 / 3.0
  {
    if k > 1 {
      WalkLast(job, k - 1);
    }
  }

  /** The status a job shows over time: queued for the first second, generating
      until 9 s, processing until 13 s, and completed from then on; never `Error`. */
  lemma StatusTimeline(job: FakeJob, elapsed: nat)
    requires job.videoUrl.None?
    ensures JobAt(job, elapsed).status ==
              if elapsed < 1000 then Queued else if elapsed < 9000 then Generating
              else if elapsed < 13000 then Processing else Completed
    ensures JobAt(job, elapsed).status != Error
  {
    WalkLast(job, PhasesRun(elapsed));
  }

  /** Status and progress never go backwards, progress stays within 0..100, and
      it is 100 exactly when the job is completed, which is exactly when it has
      the result video. */
  lemma ProgressMonotone(job: FakeJob, e1: nat, e2: nat)
    requires job.videoUrl.None? && e1 <= e2
    ensures Rank(JobAt(job, e1).status) <= Rank(JobAt(job, e2).status)
    ensures JobAt(job, e1).progress <= JobAt(job, e2).progress
    ensures 0.0 <= JobAt(job, e2).progress <= 100.0
    ensures JobAt(job, e2).progress == 100.0 <==> JobAt(job, e2).status == Completed
    ensures JobAt(job, e2).videoUrl.Some? <==> JobAt(job, e2).status == Completed
    ensures JobAt(job, e2).videoUrl.Some? ==> JobAt(job, e2).videoUrl.value == ResultVideo
  {
    WalkLast(job, PhasesRun(e1));
    WalkLast(job, PhasesRun(e2));
    StatusTimeline(job, e2);
  }

  /** `startFakeGeneration(prompt)` with `id` as the random UUID and `now` as the
      clock: the job is stored with the first iteration already applied (it runs
      before the first wait), and the id is returned. */
  function StartFakeGeneration(store: Store, id: string, prompt: string, now: int): (r: (Store, string))
    ensures r.1 == id && r.0.Keys == store.Keys + {id}
    ensures r.0[id] == FakeJob(id, Queued, 0.0, prompt, None, now)
    ensures forall k :: k in store && k != id ==> r.0[k] == store[k]
  {
    var job := FakeJob(id, Queued, 0.0, prompt, None, now);
    (store[id := ApplyPhase(job, 0)], id)
  }

  /** The store `elapsed` ms after the job `id` was started, nothing else
      having happened: only that job moves along its phases. */
  function Simulate(store: Store, id: string, elapsed: nat): (r: Store)
    ensures r.Keys == store.Keys
    ensures forall k :: k in store && k != id ==> r[k] == store[k]
    ensures id in store ==> r[id] == JobAt(store[id], elapsed)
  {
    if id !in store then store else store[id := JobAt(store[id], elapsed)]
  }

  /** `getFakeJob(id)`: the stored job, or null when the id is unknown. */
  function GetFakeJob(store: Store, id: string): (r: Option<FakeJob>)
    ensures r.Some? <==> id in store
    ensures r.Some? ==> r.value == store[id] && r.value.id == store[id].id
  {
    if id in store then Some(store[id]) else None
  }

  /** The id returned by a start names a job that reports its prompt and walks to
      the result video 13 s later. */
  lemma StartThenGet(store: Store, id: string, prompt: string, now: int, elapsed: nat)
    ensures var s := StartFakeGeneration(store, id, prompt, now).0;
            var j := GetFakeJob(Simulate(s, id, elapsed), id);
            j.Some? && j.value.prompt == prompt && j.value.id == id
            && (elapsed >= 13000 ==> j.value.status == Completed && j.value.videoUrl == Some(ResultVideo))
            && (elapsed < 13000 ==> j.value.progress < 100.0 && j.value.videoUrl.None?)
  {
    var s := StartFakeGeneration(store, id, prompt, now).0;
    var job0 := FakeJob(id, Queued, 0.0, prompt, None, now);
    assert s[id] == Walk(job0, 1);
    WalkLast(job0, PhasesRun(elapsed));
    WalkAgain(job0, PhasesRun(elapsed));
    ProgressMonotone(job0, elapsed, elapsed);
  }

  /** Walking from the once-walked job is walking from the fresh one: the first
      iteration is applied again with the same result. */
  lemma {:induction false} WalkAgain(job: FakeJob, k: nat)
    requires 1 <= k <= |Phases| && job.videoUrl.None?
    ensures Walk(Walk(job, 1), k) == Walk(job, k)
  {
    if k > 1 {
      WalkAgain(job, k - 1);
    }
  }

  /** Whether a sweep at time `now` removes the job. */
  predicate Expired(job: FakeJob, now: int) {
    job.status == Completed && job.createdAt < now - RetentionMs
  }

  /** `clearCompletedJobs()` at time `now`: the jobs that are completed and were
      created more than ten minutes ago are deleted; all others stay as they are. */
  function ClearCompletedJobs(store: Store, now: int): (r: Store)
    ensures forall k :: k in r <==> k in store && !Expired(store[k], now)
    ensures forall k :: k in r ==> r[k] == store[k]
    ensures forall k :: k in store && store[k].status != Completed ==> k in r
  {
    map k | k in store && !Expired(store[k], now) :: store[k]
  }

  /** A second sweep at the same time removes nothing more, and a later sweep
      removes at least as much as an earlier one. */
  lemma ClearIdempotent(store: Store, now: int, later: int)
    requires now <= later
    ensures ClearCompletedJobs(ClearCompletedJobs(store, now), now) == ClearCompletedJobs(store, now)
    ensures ClearCompletedJobs(store, later).Keys <= ClearCompletedJobs(store, now).Keys
  {
  }

  /** The time of sweep `k` (from 0): `setInterval` first runs the sweep one
      period after the module is loaded at `start`, then every period. */
  function SweepTime(start: int, k: nat): int {
    start + (k + 1) * SweepPeriodMs
  }

  /** The store after the first `n` sweeps, with no other change in between. */
  function Swept(store: Store, start: int, n: nat): Store
    decreases n
  {
    if n == 0 then store else ClearCompletedJobs(Swept(store, start, n - 1), SweepTime(start, n - 1))
  }

  /** The sweep that removes a completed job created at `createdAt`: the first
      one more than ten minutes after its creation, which comes at most
      fifteen minutes after it. */
  function RemovingSweep(createdAt: int, start: int): (k: nat)
    requires start <= createdAt
    ensures createdAt + RetentionMs < SweepTime(start, k) <= createdAt + RetentionMs + SweepPeriodMs
    ensures SweepTime(start, k) <= createdAt + 15 * 60 * 1000
    ensures forall j: nat :: j < k ==> SweepTime(start, j) <= createdAt + RetentionMs
  {
    var d := createdAt + RetentionMs - start;
    var k := d / SweepPeriodMs;
    assert k * SweepPeriodMs <= d < (k + 1) * SweepPeriodMs;
    k
  }

  /** With the five-minute sweeps, a completed job created after the module
      was loaded survives every sweep before its removing sweep, and that
      sweep removes it: it lives more than ten and at most fifteen minutes. */
  lemma SweptWithinFifteenMinutes(store: Store, id: string, start: int)
    requires id in store && store[id].status == Completed && start <= store[id].createdAt
    ensures var k := RemovingSweep(store[id].createdAt, start);
            id in Swept(store, start, k) && id !in Swept(store, start, k + 1)
  {
    var k := RemovingSweep(store[id].createdAt, start);
    Survives(store, id, start, k);
  }

  /** Up to its removing sweep, the job stays in the store unchanged. */
  lemma {:induction false} Survives(store: Store, id: string, start: int, j: nat)
    requires id in store && store[id].status == Completed && start <= store[id].createdAt
    requires j <= RemovingSweep(store[id].createdAt, start)
    ensures id in Swept(store, start, j) && Swept(store, start, j)[id] == store[id]
    decreases j
  {
    if j > 0 {
      Survives(store, id, start, j - 1);
      assert !Expired(store[id], SweepTime(start, j - 1));
    }
  }

  /** A sweep never cuts a simulation short: the job being walked is not removed
      until it is completed, so it is only ever removed once the walk is over. */
  lemma SweepSparesRunningJob(job: FakeJob, elapsed: nat, now: int)
    requires job.videoUrl.None? && elapsed < 13000
    ensures !Expired(JobAt(job, elapsed), now)
  {
    StatusTimeline(job, elapsed);
  }
}

=== FILE: generation_api.dfy ===
/** The client of the remote generation backend (source/api.ts): the request
    sanitiser, job submission, and the polling loop that waits for a job to finish.
    The HTTP exchanges are inputs: the reply to the submission, and one `Poll` per
    loop iteration (whether the caller's signal was aborted by then, and the status
    reply the query would get). Resolving a relative result URL against the
    configured base is the WHATWG URL parser's job and is passed in as `resolve`. */
module GenerationApi {
  import opened JsValues
  import opened Strings
  import opened Aspects
  import UriComponent

  /** The body a caller passes to `startJob`; every field but the prompt may be
      missing, and a number may be NaN or infinite. */
  datatype GenerateReq = GenerateReq(prompt: string, seconds: Num, steps: Num,
                                     width: Num, height: Num, aspect: Option<string>)

  /** What `sanitize` sends to the backend. */
  datatype Payload = Payload(prompt: string, seconds: real, aspect: Aspect, steps: real,
                             width: Num, height: Num, frames: int)

  const DefaultFps: int := 12
  const MaxFrames: int := 48
  const DefaultSeconds: real := 6.0
  const DefaultSteps: real := 14.0
  const DefaultPollMs: nat := 3000

  /** `ASPECT_PRESETS`: small resolutions, each side a multiple of 64. */
  function Preset(a: Aspect): (wh: (nat, nat))
    ensures wh.0 % 64 == 0 && wh.1 % 64 == 0 && wh.0 >= 64 && wh.1 >= 64
    ensures a == Square <==> wh.0 == wh.1
    ensures a == Landscape <==> wh.0 > wh.1
  {
    match a
    case Landscape => (576, 320)
    case Square => (512, 512)
    case Portrait => (320, 576)
  }

  /** A size the backend accepts: a whole multiple of 64, at least 64. */
  predicate OnGrid(x: real) {
    x == x.Floor as real && x.Floor % 64 == 0 && x >= 64.0
  }

  /** The aspect used: the requested one when it names a preset, else "16:9". */
  function ChooseAspect(requested: Option<string>): (a: Aspect)
    ensures requested.Some? && Parse(requested.value).Some? ==> Name(a) == requested.value
    ensures requested.None? || Parse(requested.value).None? ==> a == Landscape
  {
    if requested.Some? && Parse(requested.value).Some? then Parse(requested.value).value
    else Landscape
  }

  /** `Math.max(64, Math.round(d / 64) * 64)` for a truthy custom dimension. */
  function Snap(d: Num): (r: Num)
    requires d.Truthy()
    ensures d.Finite? ==> r.Finite? && OnGrid(r.value)
    ensures d.PosInf? ==> r.PosInf?
    ensures d.NegInf? ==> r == Finite(64.0)
  {
    match d
    case Finite(v) =>
      var m := Round(v / 64.0);
      var r := Max(64.0, (m * 64) as real);
      assert r == (if m >= 1 then m * 64 else 64) as real;
      Finite(r)
    case PosInf => PosInf
    case NegInf => Finite(64.0)
  }

  function Dist(a: real, b: real): real {
    if a >= b then a - b else b - a
  }

  function GridPoint(k: int): real {
    64.0 * k as real
  }

  /** A snapped finite dimension is the multiple of 64 (at least 64) nearest to
      the requested value. */
  lemma SnapIsNearest(v: real, k: int)
    requires v != 0.0 && k >= 1
    ensures Dist(Snap(Finite(v)).value, v) <= Dist(GridPoint(k), v)
  {
    var m := Round(v / 64.0);
    var x := v / 64.0;
    assert v == 64.0 * x;
    if m >= 1 {
      assert Snap(Finite(v)).value == GridPoint(m);
      assert Dist(m as real, x) <= 0.5;
      if k != m {
        assert Dist(k as real, x) >= 0.5;
      }
      assert Dist(GridPoint(m), v) == 64.0 * Dist(m as real, x);
      assert Dist(GridPoint(k), v) == 64.0 * Dist(k as real, x);
    } else {
      assert x < 0.5;
      assert Snap(Finite(v)).value == 64.0;
    }
  }

  /** `sanitize`: chooses the aspect, snaps custom sizes or falls back to the
      preset, fills in seconds and steps, and derives the capped frame count. */
  function Sanitize(body: GenerateReq): (p: Payload)
    ensures p.prompt == body.prompt
    ensures p.aspect == ChooseAspect(body.aspect)
    ensures body.width.Truthy() && body.height.Truthy() ==>
              p.width == Snap(body.width) && p.height == Snap(body.height)
    ensures !(body.width.Truthy() && body.height.Truthy()) ==>
              p.width == Finite(Preset(p.aspect).0 as real) && p.height == Finite(Preset(p.aspect).1 as real)
    ensures body.seconds.Finite? ==> p.seconds == body.seconds.value
    ensures !body.seconds.Finite? ==> p.seconds == DefaultSeconds && p.frames == MaxFrames
    ensures p.frames <= MaxFrames
    ensures p.frames == if Round(p.seconds * 12.0) < MaxFrames then Round(p.seconds * 12.0) else MaxFrames
    ensures body.steps.Finite? ==> p.steps == body.steps.value
    ensures !body.steps.Finite? ==> p.steps == DefaultSteps
  {
    var aspect := ChooseAspect(body.aspect);
    var custom := body.width.Truthy() && body.height.Truthy();
    var width := if custom then Snap(body.width) else Finite(Preset(aspect).0 as real);
    var height := if custom then Snap(body.height) else Finite(Preset(aspect).1 as real);
    var seconds := if body.seconds.Finite? then body.seconds.value else DefaultSeconds;
    var rounded := Round(seconds * DefaultFps as real);
    var frames := if rounded < MaxFrames then rounded else MaxFrames;
    var steps := if body.steps.Finite? then body.steps.value else DefaultSteps;
    Payload(body.prompt, seconds, aspect, steps, width, height, frames)
  }

  /** Unless a custom dimension is infinite, both sent dimensions are whole
      multiples of 64 and at least 64. */
  lemma SanitizedSizeOnGrid(body: GenerateReq)
    requires !body.width.PosInf? && !body.height.PosInf?
    ensures Sanitize(body).width.Finite? && OnGrid(Sanitize(body).width.value)
    ensures Sanitize(body).height.Finite? && OnGrid(Sanitize(body).height.value)
  {
    var p := Sanitize(body);
    assert OnGrid(Preset(p.aspect).0 as real) && OnGrid(Preset(p.aspect).1 as real);
  }

  /** The frame count has no lower bound: zero or negative seconds give zero or
      negative frames. */
  lemma NoLowerFrameBound()
    ensures Sanitize(GenerateReq("", Finite(0.0), Undefined, Undefined, Undefined, None)).frames == 0
    ensures Sanitize(GenerateReq("", Finite(-1.0), Undefined, Undefined, Undefined, None)).frames == -12
  {
  }

  /** Prompt "test", aspect "9:16", ten seconds: the portrait preset and 48 frames
      (120 before the cap). */
  lemma PortraitTenSeconds()
    ensures var p := Sanitize(GenerateReq("test", Finite(10.0), Undefined, Undefined, Undefined, Some("9:16")));
            p.width == Finite(320.0) && p.height == Finite(576.0) && p.frames == 48 && p.aspect == Portrait
  {
  }

  /** The backend's reply to `POST /generate`, or the Error that rejected the
      request: a fetch that fails, or a body that is not JSON. */
  datatype GenerateResponse = GenerateResponse(ok: bool, status: nat, jobId: Option<string>)
                            | GenerateFailed(message: string)

  /** `startJob`: the payload it posts, and the job id or the error it throws. */
  function StartJob(body: GenerateReq, reply: GenerateResponse): (r: (Payload, Result<string>))
    ensures r.0 == Sanitize(body)
    ensures reply.GenerateFailed? ==> r.1 == Err(reply.message)
    ensures reply.GenerateResponse? && !reply.ok ==> r.1 == Err("startJob failed: " + NatToString(reply.status))
    ensures reply.GenerateResponse? && reply.ok && !Truthy(reply.jobId) ==> r.1 == Err("No job_id in response")
    ensures r.1.Ok? <==> reply.GenerateResponse? && reply.ok && Truthy(reply.jobId)
    ensures r.1.Ok? ==> r.1.value == reply.jobId.value && r.1.value != ""
  {
    var payload := Sanitize(body);
    if reply.GenerateFailed? then (payload, Err(reply.message))
    else if !reply.ok then (payload, Err("startJob failed: " + NatToString(reply.status)))
    else if !Truthy(reply.jobId) then (payload, Err("No job_id in response"))
    else (payload, Ok(reply.jobId.value))
  }

  /** The URL a status query fetches: the id, escaped with
      `encodeURIComponent`, stays one path segment, and the server reads the
      same id back out of it. */
  function JobUrl(apiBase: string, id: string): (u: string)
    ensures StartsWith(u, apiBase + "/jobs/")
    ensures u[|apiBase| + 6..] == UriComponent.Encode(id)
    ensures '/' !in u[|apiBase| + 6..]
    ensures UriComponent.Decode(u[|apiBase| + 6..]) == Some(id)
  {
    var seg := UriComponent.Encode(id);
    assert forall i :: 0 <= i < |seg| ==> seg[i] != '/';
    assert (apiBase + "/jobs/" + seg)[|apiBase| + 6..] == seg;
    UriComponent.DecodeEncode(id);
    apiBase + "/jobs/" + seg
  }

  /** A reply to `GET /jobs/{id}`: the Error that rejected the request (a
      fetch that fails, or a body that is not JSON), a non-OK HTTP status, or
      the job's JSON. */
  datatype JobReply = QueryFailed(message: string)
                    | HttpFailure(code: nat)
                    | JobJson(status: string, url: Option<string>, error: Option<string>)

  /** `getJob`: a rejected request or a non-OK reply throws; otherwise the
      job's JSON is returned. */
  function GetJob(reply: JobReply): (r: Result<JobReply>)
    ensures r.Ok? <==> reply.JobJson?
    ensures r.Ok? ==> r.value == reply
    ensures reply.QueryFailed? ==> r == Err(reply.message)
    ensures reply.HttpFailure? ==> r == Err("getJob failed: " + NatToString(reply.code))
  {
    match reply
    case QueryFailed(m) => Err(m)
    case HttpFailure(code) => Err("getJob failed: " + NatToString(code))
    case JobJson(_, _, _) => Ok(reply)
  }

  /** One iteration of the loop: whether the signal was aborted at its top, and
      the reply the status query gets. */
  datatype Poll = Poll(aborted: bool, reply: JobReply)

  /** What an iteration decides: keep waiting, or settle the promise. */
  datatype Verdict = Waiting | Resolved(url: string) | Rejected(message: string)

  /** `/^https?:\/\//i`: the URL starts with "http://" or "https://", in any case. */
  predicate IsAbsoluteHttp(url: string) {
    StartsWith(Lower(url), "http://") || StartsWith(Lower(url), "https://")
  }

  /** The decision of one iteration. Cancellation is checked before the query;
      "done" settles with the URL, made absolute; "error" rejects with the
      upstream text or "Job failed"; every other status keeps waiting. */
  function Judge(p: Poll, resolve: Option<string> -> Result<string>): (v: Verdict)
    ensures p.aborted ==> v == Rejected("Cancelled")
    ensures v.Waiting? <==> !p.aborted && p.reply.JobJson? && p.reply.status != "done" && p.reply.status != "error"
    ensures v.Resolved? ==> !p.aborted && p.reply.JobJson? && p.reply.status == "done"
    ensures (!p.aborted && p.reply.JobJson? && p.reply.status == "done" && p.reply.url.Some?
             && IsAbsoluteHttp(p.reply.url.value)) ==> v == Resolved(p.reply.url.value)
    ensures (!p.aborted && p.reply.JobJson? && p.reply.status == "done"
             && !(p.reply.url.Some? && IsAbsoluteHttp(p.reply.url.value))) ==>
              v == (if resolve(p.reply.url).Ok? then Resolved(resolve(p.reply.url).value)
                    else Rejected(resolve(p.reply.url).message))
    ensures !p.aborted && p.reply.HttpFailure? ==> v == Rejected("getJob failed: " + NatToString(p.reply.code))
    ensures !p.aborted && p.reply.QueryFailed? ==> v == Rejected(p.reply.message)
    ensures !p.aborted && p.reply.JobJson? && p.reply.status == "error" ==>
              v == Rejected(if Truthy(p.reply.error) then p.reply.error.value else "Job failed")
  {
    if p.aborted then Rejected("Cancelled")
    else match GetJob(p.reply)
      case Err(m) => Rejected(m)
      case Ok(j) =>
        if j.status == "done" then
          if j.url.Some? && IsAbsoluteHttp(j.url.value) then Resolved(j.url.value)
          else match resolve(j.url)
            case Ok(u) => Resolved(u)
            case Err(m) => Rejected(m)
        else if j.status == "error" then
          Rejected(if Truthy(j.error) then j.error.value else "Job failed")
        else Waiting
  }

  /** `pollUntilDone` over the iterations the environment provides: it settles at
      the first iteration that does not keep waiting, having queried once per
      earlier iteration (plus once in that iteration unless it was cancelled) and
      slept `ms` (`DefaultPollMs` when not given) after each waiting one; with
      no settling iteration it is still waiting after querying every time,
      since the loop has no timeout. */
  method PollUntilDone(polls: seq<Poll>, ms: Option<nat>, resolve: Option<string> -> Result<string>)
    returns (v: Verdict, queries: nat, slept: nat)
    ensures queries <= |polls|
    ensures v == FirstVerdict(polls, resolve)
    ensures v.Waiting? <==> forall i :: 0 <= i < |polls| ==> Judge(polls[i], resolve).Waiting?
    ensures v.Waiting? ==> queries == |polls| && slept == ms.GetOr(DefaultPollMs) * |polls|
    ensures !v.Waiting? ==>
              exists k :: 0 <= k < |polls| && v == Judge(polls[k], resolve)
                && (forall i :: 0 <= i < k ==> Judge(polls[i], resolve).Waiting?)
                && queries == (if polls[k].aborted then k else k + 1) && slept == ms.GetOr(DefaultPollMs) * k
  {
    var i := 0;
    while i < |polls|
      invariant 0 <= i <= |polls|
      invariant forall j :: 0 <= j < i ==> Judge(polls[j], resolve).Waiting?
      invariant FirstVerdict(polls, resolve) == FirstVerdict(polls[i..], resolve)
    {
      var verdict := Judge(polls[i], resolve);
      if !verdict.Waiting? {
        v := verdict;
        queries := if polls[i].aborted then i else i + 1;
        slept := ms.GetOr(DefaultPollMs) * i;
        return;
      }
      assert polls[i..][1..] == polls[i + 1..];
      i := i + 1;
    }
    v, queries, slept := Waiting, |polls|, ms.GetOr(DefaultPollMs) * |polls|;
  }

  /** Once an iteration has settled, what follows it is never looked at. */
  lemma {:induction false} PollIgnoresLaterReplies(polls: seq<Poll>, later: seq<Poll>, k: nat,
                                                   resolve: Option<string> -> Result<string>)
    requires k < |polls| && !Judge(polls[k], resolve).Waiting?
    ensures FirstVerdict(polls, resolve) == FirstVerdict(polls[..k + 1] + later, resolve)
    decreases k
  {
    if k > 0 && Judge(polls[0], resolve).Waiting? {
      assert (polls[..k + 1] + later)[1..] == polls[1..][..k] + later;
      PollIgnoresLaterReplies(polls[1..], later, k - 1, resolve);
    }
  }

  /** The verdict of the first settling iteration, as a recursive definition. */
  function FirstVerdict(polls: seq<Poll>, resolve: Option<string> -> Result<string>): (v: Verdict)
    ensures v.Waiting? <==> forall i :: 0 <= i < |polls| ==> Judge(polls[i], resolve).Waiting?
  {
    if |polls| == 0 then Waiting
    else
      var v := Judge(polls[0], resolve);
      if v.Waiting? then
        var rest := FirstVerdict(polls[1..], resolve);
        assert forall i :: 1 <= i < |polls| ==> polls[i] == polls[1..][i - 1];
        rest
      else v
  }
}

=== FILE: http.dfy ===
/** JSON response bodies and the replies the Express and Vercel handlers send. */
module Http {
  import opened JsValues

  datatype Json = JNull | JBool(b: bool) | JNum(n: real) | JStr(s: string)
                | JArr(items: seq<Json>) | JObj(fields: map<string, Json>)

  /** A reply: its status code, the headers the handler set, and the fields of its
      JSON body. `JSON.stringify` drops a field whose value is `undefined`, so such
      a field is absent from `body`. `res.json(...)` without `res.status(...)` is 200. */
  datatype Reply = Reply(status: nat, headers: map<string, string>, body: map<string, Json>)

  /** `res.status(status).json({ error: message })` */
  function ErrorReply(status: nat, message: string): (r: Reply)
    ensures r.status == status && r.body.Keys == {"error"} && r.body["error"] == JStr(message)
    ensures r.headers == map[]
  {
    Reply(status, map[], map["error" := JStr(message)])
  }

  /** A body field holding an optional string: absent when the value is `undefined`. */
  function OptField(key: string, value: Option<string>): (m: map<string, Json>)
    ensures value.None? ==> m == map[]
    ensures value.Some? ==> m == map[key := JStr(value.value)]
  {
    if value.Some? then map[key := JStr(value.value)] else map[]
  }

  /** A JSON array of strings. */
  function Strs(xs: seq<string>): (j: Json)
    ensures j.JArr? && |j.items| == |xs|
    ensures forall i :: 0 <= i < |xs| ==> j.items[i] == JStr(xs[i])
  {
    JArr(seq(|xs|, i requires 0 <= i < |xs| => JStr(xs[i])))
  }
}

=== FILE: js_values.dfy ===
/** Values as the TypeScript sources see them at run time: fields that may be
    `undefined`, the truthiness that `||` and `if (!x)` test, numbers that may be
    NaN or infinite, and computations that throw an Error carrying a message. */
module JsValues {

  /** An optional value; `None` stands for `undefined`. */
  datatype Option<+T> = None | Some(value: T) {
    function GetOr(default: T): (r: T)
      ensures Some? ==> r == value
      ensures None? ==> r == default
    {
      if Some? then value else default
    }
  }

  /** The outcome of a computation that either returns a value or throws an
      Error whose `message` is kept. */
  datatype Result<+T> = Ok(value: T) | Err(message: string)

  /** A JavaScript number, or `undefined` where a number was expected. */
  datatype Num = Undefined | NaN | PosInf | NegInf | Finite(value: real) {

    /** `Number.isFinite(x)`: false for undefined, NaN and the infinities. */
    predicate IsFinite() {
      Finite?
    }

    /** `typeof x === 'number'`: true for NaN and the infinities too. */
    predicate IsNumber() {
      !Undefined?
    }

    /** Truthiness: 0, NaN and undefined are falsy; every other number is truthy. */
    predicate Truthy() {
      (Finite? && value != 0.0) || PosInf? || NegInf?
    }
  }

  /** A value a `try` block may catch: an `Error` with its message, or
      anything else that was thrown. */
  datatype Thrown = ErrorObject(message: string) | OtherValue

  /** The outcome of an awaited call: its value, or what it threw. */
  datatype Attempt<+T> = Done(value: T) | Threw(thrown: Thrown)

  /** A byte of a buffer. */
  type byte = x: int | 0 <= x < 256

  /** Truthiness of an optional string: undefined and "" are falsy. */
  predicate Truthy(s: Option<string>) {
    s.Some? && s.value != ""
  }

  /** `a || b` on optional strings: the first operand when it is truthy, else the second. */
  function Or(a: Option<string>, b: Option<string>): (r: Option<string>)
    ensures Truthy(r) <==> Truthy(a) || Truthy(b)
    ensures Truthy(a) ==> r == a
    ensures !Truthy(a) ==> r == b
  {
    if Truthy(a) then a else b
  }

  /** `String(x)` of an optional string: `undefined` prints as "undefined". */
  function Show(s: Option<string>): (r: string)
    ensures s.Some? ==> r == s.value
    ensures s.None? ==> r == "undefined"
  {
    if s.Some? then s.value else "undefined"
  }

  /** `Math.round(x)`: the nearest integer, a half rounded towards +infinity. */
  function Round(x: real): (r: int)
    ensures x - 0.5 < r as real <= x + 0.5
  {
    (x + 0.5).Floor
  }

  function Min(a: real, b: real): (r: real)
    ensures r <= a && r <= b && (r == a || r == b)
  {
    if a <= b then a else b
  }

  function Max(a: real, b: real): (r: real)
    ensures r >= a && r >= b && (r == a || r == b)
  {
    if a >= b then a else b
  }

  /** `Math.min(a, b)` on JavaScript numbers, NaN propagating. */
  function NumMin(a: Num, b: Num): (r: Num)
    requires a.IsNumber() && b.IsNumber()
    ensures a.Finite? && b.Finite? ==> r == Finite(Min(a.value, b.value))
    ensures (a.NaN? || b.NaN?) <==> r.NaN?
  {
    if a.NaN? || b.NaN? then NaN
    else if a.NegInf? || b.NegInf? then NegInf
    else if a.PosInf? then b
    else if b.PosInf? then a
    else Finite(Min(a.value, b.value))
  }

  /** `Math.max(a, b)` on JavaScript numbers, NaN propagating. */
  function NumMax(a: Num, b: Num): (r: Num)
    requires a.IsNumber() && b.IsNumber()
    ensures a.Finite? && b.Finite? ==> r == Finite(Max(a.value, b.value))
    ensures (a.NaN? || b.NaN?) <==> r.NaN?
  {
    if a.NaN? || b.NaN? then NaN
    else if a.PosInf? || b.PosInf? then PosInf
    else if a.NegInf? then b
    else if b.NegInf? then a
    else Finite(Max(a.value, b.value))
  }
}

=== FILE: merge_audio.dfy ===
/** The audio-merge endpoint (server/routes/merge-audio.ts): it downloads a video
    and optionally an audio track, has ffmpeg mux them (or a generated tone or
    silence) into a new MP4, and answers with the result as a `data:` URL
    (RFC 2397) whose payload is base 64 text (section 4 of RFC 4648).
    Everything outside the process is an input in `Env`: the temporary
    directory `mkdtemp` creates, the two downloads, how ffmpeg exits and the
    bytes it writes. What the handler does to the outside world is returned as
    a trace of `Effect`s. */
module MergeAudio {
  import opened JsValues
  import opened Strings
  import opened Http
  import Base64

  /** The JSON body; every field may be absent. */
  datatype MergeBody = MergeBody(videoUrl: Option<string>, audioUrl: Option<string>,
                                 audioChoice: Option<string>, volume: Num)

  /** `req.body || {}`: a missing body reads as one with every field absent. */
  function Fields(body: Option<MergeBody>): (b: MergeBody)
    ensures body.Some? ==> b == body.value
    ensures body.None? ==> b.videoUrl.None? && b.audioUrl.None? && b.audioChoice.None? && b.volume.Undefined?
  {
    if body.Some? then body.value else MergeBody(None, None, None, Undefined)
  }

  const TmpPrefix: string := "merge-audio-"
  const DefaultChoice: string := "beep"
  const SilenceSource: string := "anullsrc=channel_layout=stereo:sample_rate=44100"
  const ToneSource: string := "sine=frequency=440:sample_rate=44100"
  const MaxVolume: real := 5.0

  /** `path.join(dir, name)` for a directory without a trailing separator. */
  function PathJoin(dir: string, name: string): (p: string)
    ensures |p| > |dir| && p[|dir|] == '/' && p[|dir| + 1..] == name
  {
    dir + "/" + name
  }

  /** The extension given to the downloaded audio: the content type is checked for
      "mpeg", then "ogg", then "wav", and ".mp3" is the fallback. */
  function AudioExtension(contentType: Option<string>): (ext: string)
    ensures ext in {".mp3", ".ogg", ".wav"}
    ensures ext == ".ogg" <==> !Contains(contentType.GetOr(""), "mpeg") && Contains(contentType.GetOr(""), "ogg")
    ensures ext == ".wav" <==> !Contains(contentType.GetOr(""), "mpeg") && !Contains(contentType.GetOr(""), "ogg")
                               && Contains(contentType.GetOr(""), "wav")
  {
    var ct := contentType.GetOr("");
    if Contains(ct, "mpeg") then ".mp3"
    else if Contains(ct, "ogg") then ".ogg"
    else if Contains(ct, "wav") then ".wav"
    else ".mp3"
  }

  /** The registered media type of each extension. */
  function MediaTypeOf(ext: string): string {
    if ext == ".ogg" then "audio/ogg" else if ext == ".wav" then "audio/wav" else "audio/mpeg"
  }

  /** The media type of each extension leads back to that extension; a missing
      content type gives ".mp3". */
  lemma ExtensionOfMediaType(ext: string)
    requires ext in {".mp3", ".ogg", ".wav"}
    ensures AudioExtension(Some(MediaTypeOf(ext))) == ext
    ensures AudioExtension(None) == ".mp3"
  {
    var mt := MediaTypeOf(ext);
    var name := mt[6..];
    assert mt == "audio/" + name + "";
    ContainsMiddle("audio/", name, "");
    if ext != ".mp3" {
      assert forall i :: 0 <= i < |mt| ==> mt[i] != 'm';
      MissingChar(mt, "mpeg", 0);
    }
    if ext == ".wav" {
      assert forall i :: 0 <= i < |mt| ==> mt[i] != 'g';
      MissingChar(mt, "ogg", 1);
    }
  }

  /** `Math.max(0, Math.min(volume, 5))` for a volume that is a number. */
  function ClampVolume(v: Num): (r: Num)
    requires v.IsNumber()
    ensures r.NaN? <==> v.NaN?
    ensures !v.NaN? ==> r.Finite? && 0.0 <= r.value <= MaxVolume
    ensures v.Finite? && 0.0 <= v.value <= MaxVolume ==> r == v
    ensures (v.Finite? && v.value > MaxVolume) || v.PosInf? ==> r == Finite(MaxVolume)
    ensures (v.Finite? && v.value < 0.0) || v.NegInf? ==> r == Finite(0.0)
  {
    NumMax(Finite(0.0), NumMin(v, Finite(MaxVolume)))
  }

  /** `${x}` for a number: NaN and the infinities by name, integers in decimal;
      the shortest round-trip digits of a fraction are left to `show`. */
  function NumText(n: Num, show: real -> string): (s: string)
    ensures n.Finite? && n.value == n.value.Floor as real ==> s == IntToString(n.value.Floor)
    ensures n.NaN? ==> s == "NaN"
  {
    match n
    case Undefined => "undefined"
    case NaN => "NaN"
    case PosInf => "Infinity"
    case NegInf => "-Infinity"
    case Finite(v) => if v == v.Floor as real then IntToString(v.Floor) else show(v)
  }

  /** The generated audio used when no audio URL is given: silence when asked
      for, the 440 Hz tone for anything else. */
  function LavfiSource(choice: string): (src: string)
    ensures src == SilenceSource <==> choice == "silence"
    ensures src != SilenceSource ==> src == ToneSource
  {
    if choice == "silence" then SilenceSource else ToneSource
  }

  /** The second input of the ffmpeg command line. */
  datatype AudioInput = AudioFile(path: string) | Generated(src: string)

  function InputArgs(audio: AudioInput): seq<string> {
    match audio
    case AudioFile(p) => ["-i", p]
    case Generated(src) => ["-f", "lavfi", "-t", "600", "-i", src]
  }

  function VolumeArgs(volume: Num, show: real -> string): (r: seq<string>)
    ensures |r| == 0 || |r| == 2
    ensures r != [] <==> volume.IsNumber()
  {
    if volume.IsNumber() then ["-filter:a", "volume=" + NumText(ClampVolume(volume), show)] else []
  }

  const OutputOptions: seq<string> :=
    ["-c:v", "copy", "-c:a", "aac", "-shortest", "-map", "0:v:0", "-map", "1:a:0"]

  /** Both argument lists of the handler: overwrite, the video input, the audio
      input, the optional volume filter, copy the video stream, encode the audio
      as AAC, stop at the shorter stream, take video from input 0 and audio from
      input 1, and write the output file. */
  function FfmpegArgs(videoPath: string, audio: AudioInput, volume: Num, show: real -> string,
                      outputPath: string): (args: seq<string>)
    ensures |args| >= 15 && args[..3] == ["-y", "-i", videoPath] && args[|args| - 1] == outputPath
  {
    ["-y", "-i", videoPath] + InputArgs(audio) + VolumeArgs(volume, show) + OutputOptions + [outputPath]
  }

  /** An input as ffmpeg reads it: the format and duration options given before
      its `-i`, and its path. */
  datatype FfInput = FfInput(format: Option<string>, limit: Option<string>, path: string)

  /** A command line as ffmpeg reads it. */
  datatype FfCall = FfCall(overwrite: bool, inputs: seq<FfInput>, options: seq<(string, string)>,
                           shortest: bool, outputs: seq<string>)

  const NoCall: FfCall := FfCall(false, [], [], false, [])

  /** How ffmpeg reads an argument list: `-y` and `-shortest` stand alone, `-f`
      and `-t` apply to the next `-i`, every other option takes the following
      argument as its value, and a non-option is an output file. */
  function ReadArgs(args: seq<string>, acc: FfCall, format: Option<string>, limit: Option<string>): Option<FfCall>
    decreases |args|
  {
    if |args| == 0 then Some(acc)
    else
      var a := args[0];
      if a == "-y" then ReadArgs(args[1..], acc.(overwrite := true), format, limit)
      else if a == "-shortest" then ReadArgs(args[1..], acc.(shortest := true), format, limit)
      else if |a| > 0 && a[0] == '-' then
        if |args| < 2 then None
        else if a == "-i" then ReadArgs(args[2..], acc.(inputs := acc.inputs + [FfInput(format, limit, args[1])]), None, None)
        else if a == "-f" then ReadArgs(args[2..], acc, Some(args[1]), limit)
        else if a == "-t" then ReadArgs(args[2..], acc, format, Some(args[1]))
        else ReadArgs(args[2..], acc.(options := acc.options + [(a, args[1])]), format, limit)
      else ReadArgs(args[1..], acc.(outputs := acc.outputs + [a]), format, limit)
  }

  /** A path ffmpeg cannot mistake for an option. */
  predicate PlainPath(p: string) {
    |p| > 0 && p[0] != '-'
  }

  function ReadInput(audio: AudioInput): FfInput {
    match audio
    case AudioFile(p) => FfInput(None, None, p)
    case Generated(src) => FfInput(Some("lavfi"), Some("600"), src)
  }

  function VolumeOptions(volume: Num, show: real -> string): seq<(string, string)> {
    if volume.IsNumber() then [("-filter:a", "volume=" + NumText(ClampVolume(volume), show))] else []
  }

  const CodecAndMapOptions: seq<(string, string)> :=
    [("-c:v", "copy"), ("-c:a", "aac"), ("-map", "0:v:0"), ("-map", "1:a:0")]

  /** An option that takes the next argument as its value. */
  predicate ValuedOption(a: string) {
    |a| > 0 && a[0] == '-' && a !in {"-y", "-shortest", "-i", "-f", "-t"}
  }

  lemma ReadValued(a: string, v: string, rest: seq<string>, acc: FfCall, f: Option<string>, l: Option<string>)
    requires ValuedOption(a)
    ensures ReadArgs([a, v] + rest, acc, f, l) == ReadArgs(rest, acc.(options := acc.options + [(a, v)]), f, l)
  {
    assert ([a, v] + rest)[2..] == rest;
  }

  lemma ReadSwitch(a: string, rest: seq<string>, acc: FfCall, f: Option<string>, l: Option<string>)
    requires a in {"-y", "-shortest"}
    ensures a == "-y" ==> ReadArgs([a] + rest, acc, f, l) == ReadArgs(rest, acc.(overwrite := true), f, l)
    ensures a == "-shortest" ==> ReadArgs([a] + rest, acc, f, l) == ReadArgs(rest, acc.(shortest := true), f, l)
  {
    assert ([a] + rest)[1..] == rest;
  }

  lemma ReadPair(a: string, v: string, rest: seq<string>, acc: FfCall, f: Option<string>, l: Option<string>)
    requires a in {"-i", "-f", "-t"}
    ensures a == "-i" ==> ReadArgs([a, v] + rest, acc, f, l)
                          == ReadArgs(rest, acc.(inputs := acc.inputs + [FfInput(f, l, v)]), None, None)
    ensures a == "-f" ==> ReadArgs([a, v] + rest, acc, f, l) == ReadArgs(rest, acc, Some(v), l)
    ensures a == "-t" ==> ReadArgs([a, v] + rest, acc, f, l) == ReadArgs(rest, acc, f, Some(v))
  {
    assert ([a, v] + rest)[2..] == rest;
  }

  lemma ReadInputArgs(audio: AudioInput, rest: seq<string>, acc: FfCall)
    requires audio.AudioFile? ==> PlainPath(audio.path)
    requires audio.Generated? ==> PlainPath(audio.src)
    ensures ReadArgs(InputArgs(audio) + rest, acc, None, None)
            == ReadArgs(rest, acc.(inputs := acc.inputs + [ReadInput(audio)]), None, None)
  {
    match audio
    case AudioFile(p) =>
      ReadPair("-i", p, rest, acc, None, None);
    case Generated(src) =>
      assert InputArgs(audio) + rest == ["-f", "lavfi"] + (["-t", "600"] + (["-i", src] + rest));
      ReadPair("-f", "lavfi", ["-t", "600"] + (["-i", src] + rest), acc, None, None);
      ReadPair("-t", "600", ["-i", src] + rest, acc, Some("lavfi"), None);
      ReadPair("-i", src, rest, acc, Some("lavfi"), Some("600"));
  }

  lemma ReadVolumeArgs(volume: Num, show: real -> string, rest: seq<string>, acc: FfCall)
    ensures ReadArgs(VolumeArgs(volume, show) + rest, acc, None, None)
            == ReadArgs(rest, acc.(options := acc.options + VolumeOptions(volume, show)), None, None)
  {
    if volume.IsNumber() {
      ReadValued("-filter:a", "volume=" + NumText(ClampVolume(volume), show), rest, acc, None, None);
    } else {
      assert VolumeArgs(volume, show) + rest == rest;
      assert acc.options + VolumeOptions(volume, show) == acc.options;
    }
  }

  lemma ReadOutputOptions(out: string, acc: FfCall)
    requires PlainPath(out)
    ensures ReadArgs(OutputOptions + [out], acc, None, None)
            == Some(acc.(options := acc.options + CodecAndMapOptions, shortest := true,
                         outputs := acc.outputs + [out]))
  {
    var t3 := ["-map", "1:a:0"] + [out];
    var t2 := ["-map", "0:v:0"] + t3;
    var t1 := ["-shortest"] + t2;
    var t0 := ["-c:a", "aac"] + t1;
    assert OutputOptions + [out] == ["-c:v", "copy"] + t0;
    var o1 := acc.options + [("-c:v", "copy")];
    var o2 := o1 + [("-c:a", "aac")];
    var o3 := o2 + [("-map", "0:v:0")];
    var o4 := o3 + [("-map", "1:a:0")];
    ReadValued("-c:v", "copy", t0, acc, None, None);
    ReadValued("-c:a", "aac", t1, acc.(options := o1), None, None);
    ReadSwitch("-shortest", t2, acc.(options := o2), None, None);
    ReadValued("-map", "0:v:0", t3, acc.(options := o2, shortest := true), None, None);
    ReadValued("-map", "1:a:0", [out], acc.(options := o3, shortest := true), None, None);
    ReadOutput(out, acc.(options := o4, shortest := true));
    CodecAndMapAppend(acc.options);
  }

  lemma ReadOutput(out: string, acc: FfCall)
    requires PlainPath(out)
    ensures ReadArgs([out], acc, None, None) == Some(acc.(outputs := acc.outputs + [out]))
  {
  }

  lemma CodecAndMapAppend(o: seq<(string, string)>)
    ensures o + [("-c:v", "copy")] + [("-c:a", "aac")] + [("-map", "0:v:0")] + [("-map", "1:a:0")]
            == o + CodecAndMapOptions
  {
  }

  /** ffmpeg reads either argument list as: overwrite, the video and then the
      audio input (the generated one with format lavfi and a 600 s limit), the
      volume filter exactly when a numeric volume was given, copy/AAC/map
      options, stop at the shortest stream, and the one output file. */
  lemma ArgsAsRead(videoPath: string, audio: AudioInput, volume: Num, show: real -> string, outputPath: string)
    requires PlainPath(videoPath) && PlainPath(outputPath)
    requires audio.AudioFile? ==> PlainPath(audio.path)
    requires audio.Generated? ==> PlainPath(audio.src)
    ensures ReadArgs(FfmpegArgs(videoPath, audio, volume, show, outputPath), NoCall, None, None)
            == Some(FfCall(true, [FfInput(None, None, videoPath), ReadInput(audio)],
                           VolumeOptions(volume, show) + CodecAndMapOptions, true, [outputPath]))
  {
    var tail := OutputOptions + [outputPath];
    var afterVideo := InputArgs(audio) + (VolumeArgs(volume, show) + tail);
    var c1 := NoCall.(overwrite := true, inputs := [FfInput(None, None, videoPath)]);
    assert FfmpegArgs(videoPath, audio, volume, show, outputPath) == ["-y", "-i", videoPath] + afterVideo;
    ReadVideoPrefix(videoPath, afterVideo);
    ReadAudioAndOptions(videoPath, audio, volume, show, outputPath, c1);
  }

  lemma ReadVideoPrefix(videoPath: string, rest: seq<string>)
    ensures ReadArgs(["-y", "-i", videoPath] + rest, NoCall, None, None)
            == ReadArgs(rest, NoCall.(overwrite := true, inputs := [FfInput(None, None, videoPath)]), None, None)
  {
    var c0 := NoCall.(overwrite := true);
    assert ["-y", "-i", videoPath] + rest == ["-y"] + (["-i", videoPath] + rest);
    ReadSwitch("-y", ["-i", videoPath] + rest, NoCall, None, None);
    ReadPair("-i", videoPath, rest, c0, None, None);
    assert c0.(inputs := c0.inputs + [FfInput(None, None, videoPath)])
           == NoCall.(overwrite := true, inputs := [FfInput(None, None, videoPath)]);
  }

  lemma ReadAudioAndOptions(videoPath: string, audio: AudioInput, volume: Num, show: real -> string,
                            outputPath: string, c1: FfCall)
    requires PlainPath(outputPath)
    requires audio.AudioFile? ==> PlainPath(audio.path)
    requires audio.Generated? ==> PlainPath(audio.src)
    requires c1 == NoCall.(overwrite := true, inputs := [FfInput(None, None, videoPath)])
    ensures ReadArgs(InputArgs(audio) + (VolumeArgs(volume, show) + (OutputOptions + [outputPath])), c1, None, None)
            == Some(FfCall(true, [FfInput(None, None, videoPath), ReadInput(audio)],
                           VolumeOptions(volume, show) + CodecAndMapOptions, true, [outputPath]))
  {
    var tail := OutputOptions + [outputPath];
    var c2 := c1.(inputs := c1.inputs + [ReadInput(audio)]);
    var c3 := c2.(options := c2.options + VolumeOptions(volume, show));
    ReadInputArgs(audio, VolumeArgs(volume, show) + tail, c1);
    ReadVolumeArgs(volume, show, tail, c2);
    ReadOutputOptions(outputPath, c3);
    assert c3.options == VolumeOptions(volume, show) && c3.outputs == [];
    assert c3.inputs == [FfInput(None, None, videoPath), ReadInput(audio)];
    assert c3.(options := c3.options + CodecAndMapOptions, shortest := true, outputs := c3.outputs + [outputPath])
           == FfCall(true, [FfInput(None, None, videoPath), ReadInput(audio)],
                     VolumeOptions(volume, show) + CodecAndMapOptions, true, [outputPath]);
  }

  /** How the spawned process ended: closed with an exit code (null when killed
      by a signal), or failed to start. */
  datatype Exit = Closed(code: Option<int>) | SpawnFailed(message: string)

  /** `runCommand`: resolves exactly on exit code 0; otherwise rejects with a
      message naming the command line and the code. */
  function RunCommand(command: string, args: seq<string>, exit: Exit): (r: Result<()>)
    ensures r.Ok? <==> exit == Closed(Some(0))
    ensures exit.SpawnFailed? ==> r == Err(exit.message)
    ensures exit.Closed? && exit.code.Some? && exit.code.value != 0 ==>
              r.Err? && StartsWith(r.message, "Command failed: " + command + " ")
              && Contains(r.message, "(code " + IntToString(exit.code.value) + ")")
    ensures exit == Closed(None) ==> r.Err? && Contains(r.message, "(code null)")
  {
    match exit
    case SpawnFailed(m) => Err(m)
    case Closed(code) =>
      if code == Some(0) then Ok(())
      else
        var codeText := if code.Some? then IntToString(code.value) else "null";
        var head := "Command failed: " + command + " " + Join(args, " ") + " ";
        var tail := "(code " + codeText + ")";
        ContainsMiddle(head, tail, "");
        assert head + tail + "" == head + tail;
        assert "(code " + "null" + ")" == "(code null)";
        assert (head + tail)[..|"Command failed: " + command + " "|] == "Command failed: " + command + " ";
        Err(head + tail)
  }

  const DataUrlPrefix: string := "data:video/mp4;base64,"

  /** The response payload: an MP4 `data:` URL with the bytes in base 64. */
  function DataUrl(bytes: seq<byte>): (u: string)
    ensures StartsWith(u, DataUrlPrefix)
  {
    DataUrlPrefix + Base64.Encode(bytes)
  }

  /** Reading a `data:` URL as RFC 2397 defines it: "data:", the media type,
      ";base64", a comma, and the base 64 text. URLs with percent-encoded data
      are not read here. */
  function ParseDataUrl(u: string): (r: Option<(string, seq<byte>)>) {
    if !StartsWith(u, "data:") then None
    else
      var rest := u[5..];
      var k := IndexOf(rest, ',');
      if k < 0 then None
      else
        var header := rest[..k];
        if |header| < 7 || header[|header| - 7..] != ";base64" then None
        else match Base64.Decode(rest[k + 1..])
          case None => None
          case Some(bs) => Some((header[..|header| - 7], bs))
  }

  /** The first comma after a comma-free header is the one that ends it. */
  lemma FirstComma(header: string, data: string)
    requires ',' !in header
    ensures IndexOf(header + [','] + data, ',') == |header|
  {
    var s := header + [','] + data;
    assert s[|header|] == ',';
    assert s[..|header|] == header;
  }

  /** A base 64 `data:` URL reads as its media type and the decoded text. */
  lemma ReadBase64Url(media: string, data: string)
    requires ',' !in media
    ensures ParseDataUrl("data:" + media + ";base64," + data)
            == (match Base64.Decode(data) case None => None case Some(bs) => Some((media, bs)))
  {
    var header := media + ";base64";
    var u := "data:" + media + ";base64," + data;
    assert u[5..] == header + [','] + data;
    assert ',' !in header by {
      assert forall i :: 0 <= i < |header| ==> header[i] == (if i < |media| then media[i] else ";base64"[i - |media|]);
    }
    FirstComma(header, data);
    assert (header + [','] + data)[..|header|] == header;
    assert header[|header| - 7..] == ";base64" && header[..|header| - 7] == media;
    assert (header + [','] + data)[|header| + 1..] == data;
  }

  /** The URL the handler answers with carries the output file's bytes unchanged,
      labelled video/mp4. */
  lemma DataUrlRoundTrip(bytes: seq<byte>)
    ensures ParseDataUrl(DataUrl(bytes)) == Some(("video/mp4", bytes))
  {
    assert DataUrl(bytes) == "data:" + "video/mp4" + ";base64," + Base64.Encode(bytes);
    ReadBase64Url("video/mp4", Base64.Encode(bytes));
    Base64.DecodeEncode(bytes);
  }

  /** One download as the handler sees it. */
  datatype Fetched = Fetched(ok: bool, status: nat, statusText: string, contentType: Option<string>,
                             bytes: seq<byte>)

  /** The outside world: the directory `mkdtemp` returns, the ffmpeg binary, the
      two downloads (`Err` when `fetch` itself throws), how ffmpeg ends, and what
      reading the output file gives: its bytes, or the message `readFile`
      rejects with. */
  datatype Env = Env(tmpRoot: string, ffmpeg: string, video: Result<Fetched>, audio: Result<Fetched>,
                     exit: Exit, output: Result<seq<byte>>)

  /** What the handler does outside the process, in order. */
  datatype Effect = MakeTempDir(prefix: string) | Fetch(url: string) | WriteFile(path: string)
                  | Spawn(command: string, args: seq<string>) | ReadFile(path: string) | RemoveDir(path: string)

  /** The catch block: 500 with the error's message, or "merge-audio failed" when it is empty. */
  function Failure(message: string): (r: Reply)
    ensures r.status == 500 && r.body.Keys == {"error"}
    ensures message != "" ==> r == ErrorReply(500, message)
    ensures message == "" ==> r == ErrorReply(500, "merge-audio failed")
  {
    ErrorReply(500, if message != "" then message else "merge-audio failed")
  }

  /** The URLs the handler downloads, in order. */
  function Downloads(trace: seq<Effect>): (urls: seq<string>)
    ensures |urls| <= |trace|
  {
    if |trace| == 0 then []
    else (if trace[0].Fetch? then [trace[0].url] else []) + Downloads(trace[1..])
  }

  lemma {:induction false} DownloadsAppend(a: seq<Effect>, b: seq<Effect>)
    ensures Downloads(a + b) == Downloads(a) + Downloads(b)
    decreases |a|
  {
    if |a| > 0 {
      assert (a + b)[0] == a[0] && (a + b)[1..] == a[1..] + b;
      DownloadsAppend(a[1..], b);
      var h := if a[0].Fetch? then [a[0].url] else [];
      assert Downloads(a + b) == h + (Downloads(a[1..]) + Downloads(b));
      assert h + (Downloads(a[1..]) + Downloads(b)) == (h + Downloads(a[1..])) + Downloads(b);
    } else {
      assert a + b == b;
    }
  }

  /** A trace without a `Fetch` downloads nothing. */
  lemma {:induction false} NoDownloads(trace: seq<Effect>)
    requires forall i :: 0 <= i < |trace| ==> !trace[i].Fetch?
    ensures Downloads(trace) == []
    decreases |trace|
  {
    if |trace| > 0 {
      NoDownloads(trace[1..]);
    }
  }

  /** The temporary directory is removed somewhere in the trace. */
  predicate CleansUp(trace: seq<Effect>, dir: string) {
    exists i :: 0 <= i < |trace| && trace[i] == RemoveDir(dir)
  }

  /** No step of the trace removes anything. */
  predicate NoRemoval(trace: seq<Effect>) {
    forall i :: 0 <= i < |trace| ==> !trace[i].RemoveDir?
  }

  /** Where the trace after a removal-free prefix removes nothing, no step
      removes anything; where it ends in the removal, it cleans up. */
  lemma RemovalSplit(prefix: seq<Effect>, trace: seq<Effect>, dir: string)
    requires |trace| >= |prefix| && trace[..|prefix|] == prefix && NoRemoval(prefix)
    ensures NoRemoval(trace[|prefix|..]) ==> !CleansUp(trace, dir)
    ensures |trace| > 0 && trace[|trace| - 1] == RemoveDir(dir) ==> CleansUp(trace, dir)
  {
    if NoRemoval(trace[|prefix|..]) {
      forall i | 0 <= i < |trace| ensures !trace[i].RemoveDir? {
        if i >= |prefix| {
          assert trace[i] == trace[|prefix|..][i - |prefix|];
        } else {
          assert trace[i] == prefix[i];
        }
      }
    }
  }

  /** Running ffmpeg and answering: on exit code 0 the output is read; when
      that succeeds the temporary directory is removed and the data URL sent,
      and when it rejects the catch block answers. */
  function Finish(env: Env, trace: seq<Effect>, args: seq<string>, outputPath: string): (out: (Reply, seq<Effect>))
    ensures out.0.status == 200 <==> env.exit == Closed(Some(0)) && env.output.Ok?
    ensures out.0.status == 200 ==>
              out.0.body == map["dataUrl" := JStr(DataUrl(env.output.value))]
              && out.1 == trace + [ReadFile(outputPath), RemoveDir(env.tmpRoot)]
    ensures out.0.status != 200 ==> out.0.status == 500
    ensures RunCommand(env.ffmpeg, args, env.exit).Err? ==>
              out == (Failure(RunCommand(env.ffmpeg, args, env.exit).message), trace)
    ensures env.exit == Closed(Some(0)) && env.output.Err? ==>
              out == (Failure(env.output.message), trace + [ReadFile(outputPath)])
  {
    match RunCommand(env.ffmpeg, args, env.exit)
    case Err(m) => (Failure(m), trace)
    case Ok(_) =>
      match env.output
      case Err(m) => (Failure(m), trace + [ReadFile(outputPath)])
      case Ok(bytes) =>
        (Reply(200, map[], map["dataUrl" := JStr(DataUrl(bytes))]),
         trace + [ReadFile(outputPath), RemoveDir(env.tmpRoot)])
  }

  function VideoPath(env: Env): string { PathJoin(env.tmpRoot, "input-video.mp4") }
  function OutputPath(env: Env): string { PathJoin(env.tmpRoot, "output.mp4") }

  /** What a trace that ends in a successful run of ffmpeg looks like. */
  predicate EndsInCleanup(trace: seq<Effect>, dir: string) {
    |trace| >= 2 && trace[|trace| - 1] == RemoveDir(dir) && NoRemoval(trace[..|trace| - 1])
  }

  /** `Finish` after a removal-free, download-free trace. */
  lemma FinishTrace(env: Env, trace: seq<Effect>, args: seq<string>, outputPath: string)
    requires NoRemoval(trace) && |trace| > 0
    ensures var out := Finish(env, trace, args, outputPath);
            (out.0.status == 200 ==> EndsInCleanup(out.1, env.tmpRoot)
                                     && Downloads(out.1) == Downloads(trace))
            && (out.0.status != 200 ==> NoRemoval(out.1) && Downloads(out.1) == Downloads(trace))
  {
    if RunCommand(env.ffmpeg, args, env.exit).Err? {
    } else if env.output.Err? {
      QuietTail(trace, [ReadFile(outputPath)]);
    } else {
      CleanupTail(trace, outputPath, env.tmpRoot);
    }
  }

  /** Reading the output and removing the directory after a removal-free trace
      ends in the cleanup and downloads nothing more. */
  lemma CleanupTail(trace: seq<Effect>, outputPath: string, dir: string)
    requires NoRemoval(trace) && |trace| > 0
    ensures EndsInCleanup(trace + [ReadFile(outputPath), RemoveDir(dir)], dir)
    ensures Downloads(trace + [ReadFile(outputPath), RemoveDir(dir)]) == Downloads(trace)
  {
    var tail := [ReadFile(outputPath), RemoveDir(dir)];
    var full := trace + tail;
    var init := trace + [ReadFile(outputPath)];
    assert full[..|full| - 1] == init;
    QuietTail(trace, [ReadFile(outputPath)]);
    NoDownloads(tail);
    DownloadsAppend(trace, tail);
  }

  /** Reading files after a removal-free trace removes and downloads nothing. */
  lemma QuietTail(trace: seq<Effect>, tail: seq<Effect>)
    requires NoRemoval(trace)
    requires forall i :: 0 <= i < |tail| ==> tail[i].ReadFile?
    ensures NoRemoval(trace + tail) && Downloads(trace + tail) == Downloads(trace)
  {
    forall i | 0 <= i < |trace + tail| ensures !(trace + tail)[i].RemoveDir? {
      if i < |trace| {
        assert (trace + tail)[i] == trace[i];
      } else {
        assert (trace + tail)[i] == tail[i - |trace|];
      }
    }
    NoDownloads(tail);
    DownloadsAppend(trace, tail);
    assert Downloads(trace) + [] == Downloads(trace);
  }

  /** Everything after a successful video download: the optional audio download,
      ffmpeg, and the answer, with the effects from then on. */
  function Mux(b: MergeBody, env: Env, show: real -> string): (out: (Reply, seq<Effect>))
    ensures out.0.status in {200, 400, 500}
    ensures Downloads(out.1) == (if Truthy(b.audioUrl) then [b.audioUrl.value] else [])
    ensures out.0.status == 200 ==>
              env.output.Ok? && out.0.body == map["dataUrl" := JStr(DataUrl(env.output.value))]
              && env.exit == Closed(Some(0))
              && EndsInCleanup(out.1, env.tmpRoot)
    ensures out.0.status != 200 ==> NoRemoval(out.1)
  {
    if Truthy(b.audioUrl) then MuxFile(b, env, show)
    else
      var src := LavfiSource(b.audioChoice.GetOr(DefaultChoice));
      var args := FfmpegArgs(VideoPath(env), Generated(src), b.volume, show, OutputPath(env));
      var trace := [Spawn(env.ffmpeg, args)];
      NoDownloads(trace);
      FinishTrace(env, trace, args, OutputPath(env));
      Finish(env, trace, args, OutputPath(env))
  }

  /** The branch with an audio URL: download it, then mux the file. */
  function MuxFile(b: MergeBody, env: Env, show: real -> string): (out: (Reply, seq<Effect>))
    requires Truthy(b.audioUrl)
    ensures out.0.status in {200, 400, 500}
    ensures Downloads(out.1) == [b.audioUrl.value]
    ensures out.0.status == 200 ==>
              env.output.Ok? && out.0.body == map["dataUrl" := JStr(DataUrl(env.output.value))]
              && env.exit == Closed(Some(0))
              && EndsInCleanup(out.1, env.tmpRoot)
    ensures out.0.status != 200 ==> NoRemoval(out.1)
    ensures env.audio.Err? ==> out == (Failure(env.audio.message), [Fetch(b.audioUrl.value)])
    ensures env.audio.Ok? && !env.audio.value.ok ==>
              out == (ErrorReply(400, "Failed to download audio: " + NatToString(env.audio.value.status) + " "
                                      + env.audio.value.statusText), [Fetch(b.audioUrl.value)])
  {
    var fetched := [Fetch(b.audioUrl.value)];
    assert Downloads(fetched) == [b.audioUrl.value] by {
      assert fetched[1..] == [];
    }
    match env.audio
    case Err(m) => (Failure(m), fetched)
    case Ok(a) =>
      if !a.ok then
        (ErrorReply(400, "Failed to download audio: " + NatToString(a.status) + " " + a.statusText), fetched)
      else
        var audioPath := PathJoin(env.tmpRoot, "input-audio") + AudioExtension(a.contentType);
        var args := FfmpegArgs(VideoPath(env), AudioFile(audioPath), b.volume, show, OutputPath(env));
        var rest := [WriteFile(audioPath), Spawn(env.ffmpeg, args)];
        NoDownloads(rest);
        DownloadsAppend(fetched, rest);
        FinishTrace(env, fetched + rest, args, OutputPath(env));
        Finish(env, fetched + rest, args, OutputPath(env))
  }

  /** `mergeAudio`: the reply and the effects, in order. A missing video URL is
      rejected before anything happens; the temporary directory is removed
      exactly when the answer is the data URL; only the video and, when given,
      the audio URL are downloaded. */
  function Merge(body: Option<MergeBody>, env: Env, show: real -> string): (out: (Reply, seq<Effect>))
    ensures !Truthy(Fields(body).videoUrl) <==> out == (ErrorReply(400, "videoUrl is required"), [])
    ensures out.0.status in {200, 400, 500}
    ensures out.1 != [] ==> |out.1| >= 2 && out.1[..2] == [MakeTempDir(TmpPrefix), Fetch(Fields(body).videoUrl.value)]
    ensures out.0.status == 200 <==> CleansUp(out.1, env.tmpRoot)
    ensures out.0.status == 200 ==>
              env.output.Ok? && out.0.body == map["dataUrl" := JStr(DataUrl(env.output.value))]
              && env.exit == Closed(Some(0))
              && out.1[|out.1| - 1] == RemoveDir(env.tmpRoot)
    ensures !Truthy(Fields(body).audioUrl) && out.1 != [] ==> Downloads(out.1) == [Fields(body).videoUrl.value]
    ensures Truthy(Fields(body).videoUrl) && env.video.Ok? && !env.video.value.ok ==>
              out.0 == ErrorReply(400, "Failed to download video: " + NatToString(env.video.value.status)
                                       + " " + env.video.value.statusText)
  {
    var b := Fields(body);
    if !Truthy(b.videoUrl) then (ErrorReply(400, "videoUrl is required"), [])
    else
      var setup := [MakeTempDir(TmpPrefix), Fetch(b.videoUrl.value)];
      assert Downloads(setup) == [b.videoUrl.value] by {
        assert setup[1..][1..] == [];
      }
      assert setup[..2] == setup;
      match env.video
      case Err(m) =>
        assert !CleansUp(setup, env.tmpRoot);
        (Failure(m), setup)
      case Ok(v) =>
        if !v.ok then
          assert !CleansUp(setup, env.tmpRoot);
          (ErrorReply(400, "Failed to download video: " + NatToString(v.status) + " " + v.statusText), setup)
        else AfterDownload(b, env, show)
  }

  /** Everything after a successful video download: the video is written and muxed. */
  function AfterDownload(b: MergeBody, env: Env, show: real -> string): (out: (Reply, seq<Effect>))
    requires Truthy(b.videoUrl) && env.video.Ok? && env.video.value.ok
    ensures out.0.status in {200, 400, 500}
    ensures |out.1| >= 2 && out.1[..2] == [MakeTempDir(TmpPrefix), Fetch(b.videoUrl.value)]
    ensures out.0.status == 200 <==> CleansUp(out.1, env.tmpRoot)
    ensures out.0.status == 200 ==>
              env.output.Ok? && out.0.body == map["dataUrl" := JStr(DataUrl(env.output.value))]
              && env.exit == Closed(Some(0))
              && out.1[|out.1| - 1] == RemoveDir(env.tmpRoot)
    ensures !Truthy(b.audioUrl) ==> Downloads(out.1) == [b.videoUrl.value]
  {
    var rest := Mux(b, env, show);
    Prepended(b, env, rest);
    (rest.0, [MakeTempDir(TmpPrefix), Fetch(b.videoUrl.value), WriteFile(VideoPath(env))] + rest.1)
  }

  /** The trace of `Mux` behind the directory, the video download and its file. */
  lemma Prepended(b: MergeBody, env: Env, rest: (Reply, seq<Effect>))
    requires Truthy(b.videoUrl)
    requires Downloads(rest.1) == (if Truthy(b.audioUrl) then [b.audioUrl.value] else [])
    requires rest.0.status == 200 ==> EndsInCleanup(rest.1, env.tmpRoot)
    requires rest.0.status != 200 ==> NoRemoval(rest.1)
    ensures var trace := [MakeTempDir(TmpPrefix), Fetch(b.videoUrl.value), WriteFile(VideoPath(env))] + rest.1;
            |trace| >= 2 && trace[..2] == [MakeTempDir(TmpPrefix), Fetch(b.videoUrl.value)]
            && (rest.0.status == 200 <==> CleansUp(trace, env.tmpRoot))
            && (rest.0.status == 200 ==> trace[|trace| - 1] == RemoveDir(env.tmpRoot))
            && (!Truthy(b.audioUrl) ==> Downloads(trace) == [b.videoUrl.value])
  {
    var setup := [MakeTempDir(TmpPrefix), Fetch(b.videoUrl.value)];
    assert Downloads(setup) == [b.videoUrl.value] by {
      assert setup[1..][1..] == [];
    }
    var wrote := setup + [WriteFile(VideoPath(env))];
    assert wrote[..2] == setup;
    assert wrote == [MakeTempDir(TmpPrefix), Fetch(b.videoUrl.value), WriteFile(VideoPath(env))];
    Joined(wrote, rest.1, env.tmpRoot, rest.0.status == 200);
  }

  /** The facts `Merge` needs about the trace before `Mux` and the one after it. */
  lemma Joined(wrote: seq<Effect>, rest: seq<Effect>, dir: string, ok: bool)
    requires |wrote| == 3 && NoRemoval(wrote) && wrote[2].WriteFile?
    requires ok ==> EndsInCleanup(rest, dir)
    requires !ok ==> NoRemoval(rest)
    ensures (wrote + rest)[..2] == wrote[..2]
    ensures ok <==> CleansUp(wrote + rest, dir)
    ensures ok ==> (wrote + rest)[|wrote + rest| - 1] == RemoveDir(dir)
    ensures Downloads(wrote + rest) == Downloads(wrote) + Downloads(rest)
    ensures Downloads(wrote) == Downloads(wrote[..2])
  {
    DownloadsAppend(wrote, rest);
    DownloadsAppend(wrote[..2], [wrote[2]]);
    assert wrote == wrote[..2] + [wrote[2]];
    NoDownloads([wrote[2]]);
    RemovalSplit(wrote, wrote + rest, dir);
    assert (wrote + rest)[|wrote|..] == rest;
    if !ok {
      assert NoRemoval((wrote + rest)[|wrote|..]);
    }
  }

  /** Without an audio URL, the handler spawns ffmpeg with the generated source:
      silence exactly when "silence" was chosen, the tone otherwise (also when no
      choice was given). */
  lemma GeneratedAudioChoice(body: MergeBody, env: Env, show: real -> string)
    requires Truthy(body.videoUrl) && !Truthy(body.audioUrl) && env.video.Ok? && env.video.value.ok
    ensures var trace := Merge(Some(body), env, show).1;
            |trace| >= 4 && trace[3].Spawn?
            && trace[3].args == FfmpegArgs(VideoPath(env), Generated(LavfiSource(body.audioChoice.GetOr("beep"))),
                                           body.volume, show, OutputPath(env))
            && (LavfiSource(body.audioChoice.GetOr("beep")) == SilenceSource <==> body.audioChoice == Some("silence"))
  {
  }
}

=== FILE: prompt_enhancer.dfy ===
/** The prompt enhancer (source/geminiPromptEnhancer.ts): the request it
    sends to the language model, the extraction of a JSON object from the
    model's free-text answer, the defaults and the fallback used when no
    usable object is found, and the one error it reports. The model and
    `JSON.parse` are inputs. */
module PromptEnhancer {
  import opened JsValues
  import opened Strings
  import opened Http

  /** Reference prompt 1. */
  const Sample1: string :=
    "Fluffy Characters Stop Motion: Inside a brightly colored, cozy kitchen made of felt and yarn. "
    + "Professor Nibbles, a plump, fluffy hamster with oversized glasses, nervously stirs a bubbling "
    + "pot on a miniature stove, muttering, \"Just a little more... 'essence of savory,' as the recipe "
    + "calls for.\" The camera is a mid-shot, capturing his frantic stirring. Suddenly, the pot emits "
    + "a loud \"POP!\" followed by a comical \"whoosh\" sound, and a geyser of iridescent green slime "
    + "erupts, covering the entire kitchen."

  /** Reference prompt 2. */
  const Sample2: string :=
    "A fast-tracking POV shot through a grimy, neon-lit cyberpunk alleyway at night. Rain slicks the "
    + "pavement, reflecting the glow of holographic advertisements. The sound of rapid, pounding "
    + "footsteps and heavy breathing dominates the audio. Suddenly, the camera whips around to a "
    + "lateral tracking shot following a nimble protagonist (a woman in a hooded jacket) as she leaps "
    + "over discarded crates, pursued by two heavily armored security drones."

  /** Reference prompt 3. */
  const Sample3: string :=
    "A gentle close-up on two small, brown macaque monkeys perched on a moss-covered branch in a "
    + "vibrant, misty rainforest. One monkey tenderly grooms the other's fur, making soft "
    + "\"chittering\" and \"purring\" sounds. The camera slowly zooms in further as they lean in and "
    + "gaze at each other, followed by a soft, content \"coo\" from one of them."

  /** Reference prompt 4. */
  const Sample4: string :=
    "A dramatic Low-Angle Tracking Shot pulls back slowly from a Black vocalist, bathed in warm, "
    + "intimate stage lights in a smoky jazz club at night. Their eyes are closed in serene focus as "
    + "they sing a powerful, uplifting note, microphone held close. The camera recedes, giving them "
    + "space to fill the frame with their voice."

  /** The instructions before the reference prompts. */
  const Head: string :=
    "You are an expert AI video generation prompt engineer specializing in Google's VEO-3 "
    + "text-to-video model.\n"
    + "\n"
    + "Your task is to transform basic user prompts into cinematic, detailed VEO-3 prompts that will "
    + "generate high-quality videos.\n"
    + "\n"
    + "REFERENCE EXAMPLES OF EXCELLENT VEO-3 PROMPTS:\n"

  /** The list of prompt elements, up to the label of the user's prompt. */
  const Middle: string :=
    "\n"
    + "\n"
    + "KEY VEO-3 PROMPT ELEMENTS TO INCLUDE:\n"
    + "1. **Camera Work**: Specific shot types (close-up, wide shot, tracking shot, POV, etc.)\n"
    + "2. **Visual Style**: Cinematography, lighting, color grading, atmosphere\n"
    + "3. **Audio Design**: Specific sounds, dialogue, music, ambient audio\n"
    + "4. **Movement & Action**: Detailed character movements and scene dynamics\n"
    + "5. **Environment**: Rich, detailed scene descriptions with textures and mood\n"
    + "6. **Technical Specs**: Frame composition, depth of field, visual effects\n"
    + "\n"
    + "ORIGINAL USER PROMPT: "

  /** After the quoted user's prompt: the answer format. */
  const Tail: string :=
    "\n"
    + "\n"
    + "Please enhance this prompt following VEO-3 best practices. Respond in this exact JSON format:\n"
    + "\n"
    + "{\n"
    + "  \"enhancedPrompt\": \"Your detailed VEO-3 optimized prompt here\",\n"
    + "  \"reasoning\": \"Brief explanation of why these enhancements work for video generation\",\n"
    + "  \"improvements\": [\"Improvement 1\", \"Improvement 2\", \"Improvement 3\"]\n"
    + "}\n"
    + "\n"
    + "Make the enhanced prompt cinematic, detailed, and optimized for VEO-3's video generation "
    + "capabilities. Max 8 seconds, be specific with content per second."

  /** `VEO_SAMPLE_PROMPTS` */
  const Samples: seq<string> := [Sample1, Sample2, Sample3, Sample4]

  /** `buildEnhancementPrompt`: the instructions, the reference prompts
      separated by blank lines, and the user's prompt in double quotes. */
  function BuildPrompt(original: string): (p: string)
    ensures Contains(p, "\"" + original + "\"")
    ensures forall i :: 0 <= i < |Samples| ==> Contains(p, Samples[i])
  {
    PromptContains(Head, Samples, Middle, original, Tail);
    Head + Join(Samples, "\n\n") + (Middle + ("\"" + original + "\"") + Tail)
  }

  /** A prompt of this layout contains the quoted user's prompt and every
      reference prompt. */
  lemma PromptContains(head: string, samples: seq<string>, middle: string, original: string, tail: string)
    ensures var p := head + Join(samples, "\n\n") + (middle + ("\"" + original + "\"") + tail);
            Contains(p, "\"" + original + "\"") && forall i :: 0 <= i < |samples| ==> Contains(p, samples[i])
  {
    var rest := middle + ("\"" + original + "\"") + tail;
    ContainsMiddle(middle, "\"" + original + "\"", tail);
    ContainsAfter(head + Join(samples, "\n\n"), rest, "\"" + original + "\"");
    forall i | 0 <= i < |samples| ensures Contains(head + Join(samples, "\n\n") + rest, samples[i]) {
      SampleContained(head, samples, rest, i);
    }
  }

  /** Whatever is put in front of a string, what it contains is still contained. */
  lemma {:induction false} ContainsAfter(a: string, s: string, x: string)
    requires Contains(s, x)
    ensures Contains(a + s, x)
    decreases |a|
  {
    if |a| > 0 {
      ContainsAfter(a[1..], s, x);
      assert (a + s)[1..] == a[1..] + s;
    } else {
      assert a + s == s;
    }
  }

  lemma SampleContained(head: string, samples: seq<string>, rest: string, i: nat)
    requires i < |samples|
    ensures Contains(head + Join(samples, "\n\n") + rest, samples[i])
  {
    var refs := Join(samples, "\n\n");
    var p := head + refs + rest;
    var k := JoinHasPart(samples, "\n\n", i);
    assert p[|head| + k..|head| + k + |samples[i]|] == refs[k..k + |samples[i]|];
    ContainsAt(p, samples[i], |head| + k);
  }

  /** Each part occurs in a join, at some position. */
  lemma {:induction false} JoinHasPart(parts: seq<string>, sep: string, i: nat) returns (k: nat)
    requires i < |parts|
    ensures k + |parts[i]| <= |Join(parts, sep)| && Join(parts, sep)[k..k + |parts[i]|] == parts[i]
    decreases |parts|
  {
    var j := Join(parts, sep);
    if |parts| == 1 {
      k := 0;
    } else if i == 0 {
      assert j == parts[0] + (sep + Join(parts[1..], sep));
      k := 0;
    } else {
      var k' := JoinHasPart(parts[1..], sep, i - 1);
      var pre := parts[0] + sep;
      assert j == pre + Join(parts[1..], sep);
      k := |pre| + k';
      assert j[k..k + |parts[i]|] == Join(parts[1..], sep)[k'..k' + |parts[i]|];
    }
  }

  /** `s.lastIndexOf(c)`: the last position of `c`, or -1. */
  function LastIndexOf(s: string, c: char): (k: int)
    ensures -1 <= k < |s|
    ensures k == -1 <==> c !in s
    ensures k >= 0 ==> s[k] == c && c !in s[k + 1..]
  {
    if |s| == 0 then -1
    else if s[|s| - 1] == c then |s| - 1
    else
      var k := LastIndexOf(s[..|s| - 1], c);
      if k == -1 then
        assert s == s[..|s| - 1] + [s[|s| - 1]];
        -1
      else
        assert s[k + 1..] == s[..|s| - 1][k + 1..] + [s[|s| - 1]];
        k
  }

  /** Where the match of `/\{[\s\S]*\}/` lies: from an opening brace to a
      closing brace, both included. */
  datatype Span = Span(start: nat, end: nat)

  /** The leftmost, greedy match: it starts at the first `{` and ends at the
      last `}`, and there is one exactly when some `{` comes before some `}`. */
  function JsonSpan(text: string): (r: Option<Span>)
    ensures r.Some? <==> exists i, j :: 0 <= i < j < |text| && text[i] == '{' && text[j] == '}'
    ensures r.Some? ==> r.value.start < r.value.end < |text| && text[r.value.start] == '{'
                        && text[r.value.end] == '}' && '{' !in text[..r.value.start]
                        && '}' !in text[r.value.end + 1..]
  {
    var f := IndexOf(text, '{');
    var l := LastIndexOf(text, '}');
    if f >= 0 && l > f then Some(Span(f, l))
    else
      NoSpan(text, f, l);
      None
  }

  /** Without a `{` before the last `}` there is no `{` before any `}`. */
  lemma NoSpan(text: string, f: int, l: int)
    requires f == IndexOf(text, '{') && l == LastIndexOf(text, '}')
    requires !(f >= 0 && l > f)
    ensures !exists i, j :: 0 <= i < j < |text| && text[i] == '{' && text[j] == '}'
  {
  }

  /** The text of the match. */
  function SpanText(text: string): (r: Option<string>)
    ensures r.Some? ==> |r.value| >= 2 && r.value[0] == '{' && r.value[|r.value| - 1] == '}'
  {
    match JsonSpan(text)
    case None => None
    case Some(sp) => Some(text[sp.start..sp.end + 1])
  }

  /** Text around a braced object is skipped, as long as none of it could
      extend the match: no `{` before it and no `}` after it. */
  lemma SpanSkipsChatter(before: string, obj: string, after: string)
    requires |obj| >= 2 && obj[0] == '{' && obj[|obj| - 1] == '}'
    requires '{' !in before && '}' !in after
    ensures SpanText(before + obj + after) == Some(obj)
  {
    var text := before + obj + after;
    var f := |before|;
    var l := |before| + |obj| - 1;
    assert text[f] == '{' && text[l] == '}';
    assert text[..f] == before && text[l + 1..] == after;
    assert text[f..l + 1] == obj;
  }

  /** What `parseResponse` returns. Its fields hold whatever the parsed
      object held when that was truthy. */
  datatype Enhancement = Enhancement(enhancedPrompt: Json, reasoning: Json, improvements: Json)

  /** JavaScript truthiness of a parsed JSON value. */
  predicate JsonTruthy(j: Json) {
    match j
    case JNull => false
    case JBool(b) => b
    case JNum(n) => n != 0.0
    case JStr(s) => s != ""
    case _ => true
  }

  /** `parsed.key || fallback` */
  function FieldOr(obj: map<string, Json>, key: string, fallback: Json): (v: Json)
    ensures key in obj && JsonTruthy(obj[key]) ==> v == obj[key]
    ensures !(key in obj && JsonTruthy(obj[key])) ==> v == fallback
  {
    if key in obj && JsonTruthy(obj[key]) then obj[key] else fallback
  }

  /** The answer used when no JSON object can be read from the model's text. */
  function Fallback(text: string): (e: Enhancement)
    ensures e.enhancedPrompt == JStr(text)
    ensures e.reasoning == JStr("Enhanced with AI-powered improvements")
    ensures e.improvements == JArr([JStr("Improved visual composition"), JStr("Enhanced cinematography"),
                                    JStr("Added technical details")])
  {
    Enhancement(JStr(text), JStr("Enhanced with AI-powered improvements"),
                JArr([JStr("Improved visual composition"), JStr("Enhanced cinematography"),
                      JStr("Added technical details")]))
  }

  /** `parseResponse`. A text that starts with `{` parses, if at all, to an
      object, so `parse` yields the object's members or fails. */
  function ParseResponse(text: string, parse: string -> Option<map<string, Json>>): (e: Enhancement)
    ensures SpanText(text).None? ==> e == Fallback(text)
    ensures SpanText(text).Some? && parse(SpanText(text).value).None? ==> e == Fallback(text)
    ensures SpanText(text).Some? && parse(SpanText(text).value).Some? ==>
              var obj := parse(SpanText(text).value).value;
              e.enhancedPrompt == FieldOr(obj, "enhancedPrompt", JStr(""))
              && e.reasoning == FieldOr(obj, "reasoning", JStr(""))
              && e.improvements == FieldOr(obj, "improvements", JArr([]))
  {
    match SpanText(text)
    case None => Fallback(text)
    case Some(s) =>
      match parse(s)
      case None => Fallback(text)
      case Some(obj) =>
        Enhancement(FieldOr(obj, "enhancedPrompt", JStr("")), FieldOr(obj, "reasoning", JStr("")),
                    FieldOr(obj, "improvements", JArr([])))
  }

  /** A model answer without braces on both sides always falls back, keeping
      the whole answer as the enhanced prompt. */
  lemma NoBracesFallback(text: string, parse: string -> Option<map<string, Json>>)
    requires '{' !in text || '}' !in text
    ensures ParseResponse(text, parse) == Fallback(text)
  {
  }

  /** `enhancePrompt`: the built prompt goes to the model; any failure of the
      model becomes one fixed Error, and the answer is parsed, which never
      fails. */
  function Enhance(original: string, model: string -> Attempt<string>,
                   parse: string -> Option<map<string, Json>>): (r: Attempt<Enhancement>)
    ensures model(BuildPrompt(original)).Threw? <==> r.Threw?
    ensures r.Threw? ==> r.thrown == ErrorObject("Failed to enhance prompt with AI")
    ensures r.Done? ==> r.value == ParseResponse(model(BuildPrompt(original)).value, parse)
  {
    match model(BuildPrompt(original))
    case Threw(_) => Threw(ErrorObject("Failed to enhance prompt with AI"))
    case Done(text) => Done(ParseResponse(text, parse))
  }
}

=== FILE: publish_youtube.dfy ===
/** Publishing a stored video to YouTube (server/routes/publish-to-youtube.ts,
    its demo stand-in publish-to-youtube-mock.ts, and the choice between them in
    server/server.ts and api/publish-to-youtube.ts). The download, the YouTube
    Data API call, the clock, the timers and `Math.random` are inputs. */
module PublishYouTube {
  import opened JsValues
  import opened Strings
  import opened Http
  import opened Base64

  /** The request body; a field the client left out is `None`. */
  datatype PublishBody = PublishBody(videoUrl: Option<string>, title: Option<string>,
                                     description: Option<string>, tags: Option<seq<string>>)

  const DefaultTitle: string := "AI Generated Video"
  const DefaultDescription: string := "Created with Veo-3 AI"
  const DefaultTags: seq<string> := ["AI", "video", "generated"]

  /** People & Blogs. */
  const CategoryId: string := "22"
  const WatchPrefix: string := "https://www.youtube.com/watch?v="

  /** What destructuring `req.body` throws when there is no body. */
  const NoBodyMessage: string := "Cannot destructure property 'videoUrl' of 'req.body' as it is undefined."

  /** The fields after destructuring with defaults: a default replaces only a
      missing field, not an empty one. */
  datatype Fields = Fields(videoUrl: Option<string>, title: string, description: string, tags: seq<string>)

  function Destructure(b: PublishBody): (f: Fields)
    ensures f.videoUrl == b.videoUrl
    ensures b.title.Some? ==> f.title == b.title.value
    ensures b.title.None? ==> f.title == DefaultTitle
    ensures b.description.Some? ==> f.description == b.description.value
    ensures b.description.None? ==> f.description == DefaultDescription
    ensures b.tags.Some? ==> f.tags == b.tags.value
    ensures b.tags.None? ==> f.tags == DefaultTags
  {
    Fields(b.videoUrl, b.title.GetOr(DefaultTitle), b.description.GetOr(DefaultDescription),
           b.tags.GetOr(DefaultTags))
  }

  /** The `requestBody` of `youtube.videos.insert`. */
  datatype Upload = Upload(title: string, description: string, tags: seq<string>, categoryId: string,
                           privacyStatus: string, madeForKids: bool)

  function UploadFor(f: Fields): (u: Upload)
    ensures u.title == f.title && u.description == f.description && u.tags == f.tags
    ensures u.categoryId == "22" && u.privacyStatus == "unlisted" && !u.madeForKids
  {
    Upload(f.title, f.description, f.tags, CategoryId, "unlisted", false)
  }

  /** The watch page of a video id. */
  function WatchUrl(id: string): (u: string)
    ensures StartsWith(u, WatchPrefix) && |u| == |WatchPrefix| + |id|
  {
    WatchPrefix + id
  }

  /** The `v` parameter read back from a watch page URL. */
  function WatchedId(u: string): (r: Option<string>)
    ensures r.Some? <==> StartsWith(u, WatchPrefix)
  {
    if StartsWith(u, WatchPrefix) then Some(u[|WatchPrefix|..]) else None
  }

  /** The id can be read back from the URL built for it. */
  lemma WatchUrlRoundTrip(id: string)
    ensures WatchedId(WatchUrl(id)) == Some(id)
  {
    assert WatchUrl(id)[|WatchPrefix|..] == id;
  }

  /** The answer to the download of the stored video. */
  datatype Download = Download(ok: bool, statusText: string)

  /** The parts of `uploadResponse.data` the handler reads; each may be missing. */
  datatype Inserted = Inserted(id: Option<string>, channelId: Option<string>, title: Option<string>,
                               description: Option<string>, privacyStatus: Option<string>)

  /** The outside world of the real handler: the download, the insert call and
      `new Date().toISOString()`. */
  datatype Account = Account(download: Attempt<Download>, insert: Attempt<Inserted>, now: string)

  /** What the real handler does outside the process, in order. */
  datatype Call = Fetch(url: string) | Insert(upload: Upload)

  /** The catch block of the real handler. */
  function RealFailure(t: Thrown): (r: Reply)
    ensures r.status == 500
    ensures t.ErrorObject? ==> r.body == map["error" := JStr("Failed to publish to YouTube"),
                                                "details" := JStr(t.message)]
    ensures t.OtherValue? ==> r == ErrorReply(500, "Unknown error occurred during YouTube upload")
  {
    match t
    case ErrorObject(m) =>
      Reply(500, map[], map["error" := JStr("Failed to publish to YouTube"), "details" := JStr(m)])
    case OtherValue => ErrorReply(500, "Unknown error occurred during YouTube upload")
  }

  /** The reply after a successful insert; fields YouTube left undefined are
      absent, and title and description fall back with `||`. */
  function Published(f: Fields, d: Inserted, now: string): (r: Reply)
    ensures r.status == 200
    ensures r.body.Keys == {"success", "youtubeUrl", "title", "description", "uploadTime", "message", "demoMode"}
                           + (if d.id.Some? then {"videoId"} else {})
                           + (if d.channelId.Some? then {"channelId"} else {})
                           + (if d.privacyStatus.Some? then {"privacy"} else {})
    ensures r.body["youtubeUrl"] == JStr(WatchUrl(Show(d.id)))
    ensures d.id.Some? ==> r.body["videoId"] == JStr(d.id.value)
    ensures r.body["title"] == JStr(Or(d.title, Some(f.title)).value)
    ensures r.body["description"] == JStr(Or(d.description, Some(f.description)).value)
    ensures d.channelId.Some? ==> r.body["channelId"] == JStr(d.channelId.value)
    ensures d.privacyStatus.Some? ==> r.body["privacy"] == JStr(d.privacyStatus.value)
    ensures r.body["uploadTime"] == JStr(now) && r.body["message"] == JStr(PublishedMessage)
    ensures r.body["demoMode"] == JBool(false) && r.body["success"] == JBool(true)
  {
    var body := AddIf(AddIf(AddIf(PublishedFields(f, d, now), "videoId", d.id), "channelId", d.channelId),
                      "privacy", d.privacyStatus);
    Reply(200, map[], body)
  }

  /** The field `key` added when YouTube gave a value for it; nothing else changes. */
  function AddIf(m: map<string, Json>, key: string, v: Option<string>): (r: map<string, Json>)
    ensures r.Keys == m.Keys + (if v.Some? then {key} else {})
    ensures forall k :: k in m && k != key ==> k in r && r[k] == m[k]
    ensures v.Some? ==> r[key] == JStr(v.value)
  {
    if v.Some? then m[key := JStr(v.value)] else m
  }

  const PublishedMessage: string := "\U{1F3AC} Video successfully published to YouTube!"

  /** The fields every successful reply has. */
  function PublishedFields(f: Fields, d: Inserted, now: string): (m: map<string, Json>)
    ensures m.Keys == {"success", "youtubeUrl", "title", "description", "uploadTime", "message", "demoMode"}
    ensures m["youtubeUrl"] == JStr(WatchUrl(Show(d.id)))
    ensures m["title"] == JStr(Or(d.title, Some(f.title)).value)
    ensures m["description"] == JStr(Or(d.description, Some(f.description)).value)
    ensures m["demoMode"] == JBool(false) && m["success"] == JBool(true)
    ensures m["uploadTime"] == JStr(now) && m["message"] == JStr(PublishedMessage)
  {
    map["success" := JBool(true), "youtubeUrl" := JStr(WatchUrl(Show(d.id))),
        "title" := JStr(Or(d.title, Some(f.title)).value),
        "description" := JStr(Or(d.description, Some(f.description)).value),
        "uploadTime" := JStr(now),
        "message" := JStr(PublishedMessage),
        "demoMode" := JBool(false)]
  }

  /** `publishToYouTube`: the reply and the calls made. */
  function Publish(body: Option<PublishBody>, acct: Account): (out: (Reply, seq<Call>))
    ensures body.None? ==> out == (RealFailure(ErrorObject(NoBodyMessage)), [])
    ensures body.Some? && !Truthy(body.value.videoUrl) <==> out == (ErrorReply(400, "Video URL is required"), [])
    ensures out.0.status in {200, 400, 500}
    ensures out.0.status == 200 <==>
              body.Some? && Truthy(body.value.videoUrl) && acct.download.Done? && acct.download.value.ok
              && acct.insert.Done?
    ensures out.1 != [] ==> out.1[0] == Fetch(body.value.videoUrl.value)
    ensures |out.1| == 2 ==> out.1[1] == Insert(UploadFor(Destructure(body.value)))
    ensures |out.1| <= 2 && (|out.1| == 2 <==> out.0.status != 400 && body.Some? && acct.download.Done? && acct.download.value.ok)
    ensures body.Some? && Truthy(body.value.videoUrl) && acct.download.Done? && !acct.download.value.ok ==>
              out.0 == RealFailure(ErrorObject("Failed to download video: " + acct.download.value.statusText))
    ensures body.Some? && Truthy(body.value.videoUrl) && acct.download.Threw? ==>
              out.0 == RealFailure(acct.download.thrown)
    ensures body.Some? && Truthy(body.value.videoUrl) && acct.download.Done? && acct.download.value.ok
              && acct.insert.Threw? ==>
              out.0 == RealFailure(acct.insert.thrown)
    ensures out.0.status == 200 ==> out.0 == Published(Destructure(body.value), acct.insert.value, acct.now)
  {
    if body.None? then (RealFailure(ErrorObject(NoBodyMessage)), [])
    else
      var f := Destructure(body.value);
      if !Truthy(f.videoUrl) then (ErrorReply(400, "Video URL is required"), [])
      else
        var fetched := [Fetch(f.videoUrl.value)];
        match acct.download
        case Threw(t) =>
          assert RealFailure(t).status == 500;
          (RealFailure(t), fetched)
        case Done(d) =>
          if !d.ok then (RealFailure(ErrorObject("Failed to download video: " + d.statusText)), fetched)
          else
            var calls := fetched + [Insert(UploadFor(f))];
            match acct.insert
            case Threw(t) =>
              assert RealFailure(t).status == 500;
              (RealFailure(t), calls)
            case Done(d) => (Published(f, d, acct.now), calls)
  }

  /** The number of characters of a generated id. */
  const IdLength: nat := 11

  /** The characters ids are drawn from: `A`-`Z`, `a`-`z`, `0`-`9`, `-` and
      `_`, which is the URL- and filename-safe alphabet of section 5 of
      RFC 4648, in value order. */
  const IdChars: string := Alphabet(UrlSafe)

  /** `Math.floor(Math.random() * chars.length)` for a draw in [0, 1). */
  function Pick(r: real): (n: nat)
    requires 0.0 <= r < 1.0
    ensures n < 64 && n as real <= r * 64.0 < n as real + 1.0
  {
    (r * 64.0).Floor
  }

  /** Draws that `Math.random` may return. */
  predicate Draws(draws: seq<real>) {
    forall i :: 0 <= i < |draws| ==> 0.0 <= draws[i] < 1.0
  }

  /** The id made from a sequence of draws, one character per draw. */
  function IdFrom(draws: seq<real>): (id: string)
    requires Draws(draws)
    ensures |id| == |draws|
    ensures forall i :: 0 <= i < |id| ==> SextetOf(id[i], UrlSafe) == Some(Pick(draws[i]))
  {
    var id := seq(|draws|, i requires 0 <= i < |draws| => IdChars[Pick(draws[i])]);
    assert forall i :: 0 <= i < |id| ==> id[i] == SextetChar(Pick(draws[i]), UrlSafe);
    id
  }

  /** `generateVideoId()`: eleven draws, each choosing a character. */
  method GenerateVideoId(draws: seq<real>) returns (id: string)
    requires |draws| == IdLength && Draws(draws)
    ensures id == IdFrom(draws)
    ensures |id| == IdLength
  {
    id := "";
    var i := 0;
    while i < IdLength
      invariant 0 <= i <= IdLength
      invariant |id| == i
      invariant forall k :: 0 <= k < i ==> id[k] == IdChars[Pick(draws[k])]
    {
      id := id + [IdChars[Pick(draws[i])]];
      i := i + 1;
    }
  }

  /** Every string of eleven alphabet characters is the id of some draws: the
      generator can produce every id YouTube's format allows. */
  lemma EveryIdReachable(id: string)
    requires |id| == IdLength
    requires forall i :: 0 <= i < |id| ==> SextetOf(id[i], UrlSafe).Some?
    ensures var draws := seq(|id|, i requires 0 <= i < |id| => SextetOf(id[i], UrlSafe).value as real / 64.0);
            Draws(draws) && IdFrom(draws) == id
  {
    var draws := seq(|id|, i requires 0 <= i < |id| => SextetOf(id[i], UrlSafe).value as real / 64.0);
    forall i | 0 <= i < |id|
      ensures 0.0 <= draws[i] < 1.0 && IdFrom(draws)[i] == id[i]
    {
      var n := SextetOf(id[i], UrlSafe).value;
      assert draws[i] * 64.0 == n as real;
      assert Pick(draws[i]) == n;
    }
  }

  /** What the demo handler does instead of downloading and uploading: it waits. */
  datatype Effect = Sleep(ms: nat)

  const DemoNote: string :=
    "This is a simulation for demo purposes. To publish real videos, configure YouTube OAuth credentials."

  /** `publishToYouTubeMock`: waits one and then two seconds, and answers with a
      made-up id; nothing is downloaded or uploaded. */
  function PublishMock(body: Option<PublishBody>, draws: seq<real>): (out: (Reply, seq<Effect>))
    requires |draws| == IdLength && Draws(draws)
    ensures body.None? ==> out.0 == Reply(500, map[], map["error" := JStr("Demo YouTube upload simulation failed"),
                                                          "details" := JStr(NoBodyMessage),
                                                          "demoMode" := JBool(true)])
    ensures body.Some? && !Truthy(body.value.videoUrl) <==> out == (ErrorReply(400, "Video URL is required"), [])
    ensures out.0.status == 200 <==> body.Some? && Truthy(body.value.videoUrl)
    ensures out.0.status == 200 ==>
              out.1 == [Sleep(1000), Sleep(2000)]
              && {"videoId", "youtubeUrl", "title", "demoMode"} <= out.0.body.Keys
              && out.0.body["videoId"] == JStr(IdFrom(draws))
              && out.0.body["youtubeUrl"] == JStr(WatchUrl(IdFrom(draws)))
              && out.0.body["title"] == JStr(Destructure(body.value).title)
              && out.0.body["demoMode"] == JBool(true)
  {
    if body.None? then
      (Reply(500, map[], map["error" := JStr("Demo YouTube upload simulation failed"),
                             "details" := JStr(NoBodyMessage), "demoMode" := JBool(true)]), [])
    else
      var f := Destructure(body.value);
      if !Truthy(f.videoUrl) then (ErrorReply(400, "Video URL is required"), [])
      else
        var id := IdFrom(draws);
        (Reply(200, map[], map["success" := JBool(true), "videoId" := JStr(id),
                               "youtubeUrl" := JStr(WatchUrl(id)), "title" := JStr(f.title),
                               "message" := JStr("\U{1F3AC} [DEMO MODE] Video successfully \"published\" to YouTube!"),
                               "demoMode" := JBool(true), "note" := JStr(DemoNote)]),
         [Sleep(1000), Sleep(2000)])
  }

  /** The two handlers answer a good request with differently shaped bodies:
      the demo one has a note but no channel, description, privacy or upload
      time, even when YouTube reports all of them. */
  lemma ResponsesDiffer(body: PublishBody, acct: Account, draws: seq<real>)
    requires Truthy(body.videoUrl) && |draws| == IdLength && Draws(draws)
    requires acct.download.Done? && acct.download.value.ok && acct.insert.Done?
    requires var d := acct.insert.value; d.id.Some? && d.channelId.Some? && d.privacyStatus.Some?
    ensures Publish(Some(body), acct).0.body.Keys ==
              {"success", "videoId", "youtubeUrl", "channelId", "title", "description", "privacy",
               "uploadTime", "message", "demoMode"}
    ensures PublishMock(Some(body), draws).0.body.Keys ==
              {"success", "videoId", "youtubeUrl", "title", "message", "demoMode", "note"}
  {
  }

  /** The YouTube settings read from the environment. */
  datatype Credentials = Credentials(accessToken: Option<string>, clientId: Option<string>,
                                     clientSecret: Option<string>)

  /** `hasYouTubeCredentials`: all three are set and not blank after trimming,
      and neither the token nor the client id still holds a "your-" placeholder. */
  predicate HasYouTubeCredentials(c: Credentials) {
    Truthy(c.accessToken) && Truthy(c.clientId) && Truthy(c.clientSecret)
    && Trim(c.accessToken.value) != "" && Trim(c.clientId.value) != "" && Trim(c.clientSecret.value) != ""
    && !Contains(c.accessToken.value, "your-") && !Contains(c.clientId.value, "your-")
  }

  /** A setting that is present and holds something other than white space. */
  predicate Filled(s: Option<string>) {
    s.Some? && exists i :: 0 <= i < |s.value| && !IsSpace(s.value[i])
  }

  /** What the check amounts to: each setting has a non-space character, and
      the token and client id are not placeholders. The secret may be one. */
  lemma CredentialsMeaning(c: Credentials)
    ensures HasYouTubeCredentials(c) <==>
              Filled(c.accessToken) && Filled(c.clientId) && Filled(c.clientSecret)
              && !Contains(c.accessToken.value, "your-") && !Contains(c.clientId.value, "your-")
  {
    if c.accessToken.Some? { FilledNotBlank(c.accessToken.value); }
    if c.clientId.Some? { FilledNotBlank(c.clientId.value); }
    if c.clientSecret.Some? { FilledNotBlank(c.clientSecret.value); }
  }

  lemma FilledNotBlank(s: string)
    ensures Filled(Some(s)) <==> s != "" && Trim(s) != ""
  {
    if Filled(Some(s)) {
      var i :| 0 <= i < |s| && !IsSpace(s[i]);
      assert !IsBlank(s);
    }
  }

  /** Which handler answers `POST /api/publish-to-youtube`. */
  datatype Mode = RealMode | DemoMode

  /** The choice made once at server start, and per request by the Vercel function. */
  function ModeFor(c: Credentials): (m: Mode)
    ensures m == RealMode <==> HasYouTubeCredentials(c)
  {
    if HasYouTubeCredentials(c) then RealMode else DemoMode
  }

  /** The Vercel function: only POST is allowed; then the handler the
      credentials select runs. */
  function ApiPublish(httpMethod: string, c: Credentials, body: Option<PublishBody>, acct: Account,
                      draws: seq<real>): (r: Reply)
    requires |draws| == IdLength && Draws(draws)
    ensures httpMethod != "POST" ==> r == ErrorReply(405, "Method not allowed")
    ensures httpMethod == "POST" && HasYouTubeCredentials(c) ==> r == Publish(body, acct).0
    ensures httpMethod == "POST" && !HasYouTubeCredentials(c) ==> r == PublishMock(body, draws).0
  {
    if httpMethod != "POST" then ErrorReply(405, "Method not allowed")
    else match ModeFor(c)
      case RealMode => Publish(body, acct).0
      case DemoMode => PublishMock(body, draws).0
  }

  /** A placeholder client id sends every request to the demo handler, however
      good the token and secret are. */
  lemma PlaceholderMeansDemo(token: string, secret: string, body: Option<PublishBody>, acct: Account,
                             draws: seq<real>)
    requires |draws| == IdLength && Draws(draws)
    ensures var c := Credentials(Some(token), Some("your-client-id"), Some(secret));
            ModeFor(c) == DemoMode && ApiPublish("POST", c, body, acct, draws) == PublishMock(body, draws).0
  {
    var id := "your-client-id";
    assert id[0..5] == "your-";
    ContainsAt(id, "your-", 0);
  }
}

=== FILE: remotion_render.dfy ===
/** The server-side render route (api/remotion-render.ts): bundle the Remotion
    project, select the EditableVideo composition of the requested aspect
    ratio, render it into `public/temp`, and answer with the file's public
    path. Bundling, rendering, the directory and the UUID are inputs. */
module RemotionRender {
  import opened JsValues
  import opened Strings
  import opened Http
  import opened Compositions

  /** The request fields the route reads; the others are handed to the
      composition untouched. `aspectRatio` may be missing. */
  datatype RenderBody = RenderBody(aspectRatio: Option<string>)

  /** The outcomes of the calls the route awaits. `notFound` is what
      `selectComposition` throws for an id that is not registered; `select` is
      what it throws, if anything, for a registered one (the composition's
      metadata or the bundle can fail to load). */
  datatype Renderer = Renderer(bundle: Attempt<string>, notFound: Thrown, select: Option<Thrown>,
                               uuid: string, mkdir: Option<Thrown>, render: Option<Thrown>)

  /** What the route asks of the renderer, in order. */
  datatype Call = Bundle | Select(id: string) | MakeDir | Render(id: string, output: string)

  /** What V8 throws when `.replace` is read off `undefined`. */
  const NoAspectMessage: string := "Cannot read properties of undefined (reading 'replace')"

  /** `edited-video-<uuid>.mp4` */
  function OutputName(uuid: string): (name: string)
    ensures |name| == |uuid| + 17 && StartsWith(name, "edited-video-")
    ensures name[13..|name| - 4] == uuid && name[|name| - 4..] == ".mp4"
  {
    "edited-video-" + uuid + ".mp4"
  }

  /** The public path of a rendered file; the file name is read back from it. */
  function PublicPath(uuid: string): (p: string)
    ensures StartsWith(p, "/temp/") && p[6..] == OutputName(uuid)
  {
    "/temp/" + OutputName(uuid)
  }

  /** The catch block: the message of an Error, else "Unknown error". */
  function RenderFailure(t: Thrown): (r: Reply)
    ensures r.status == 500 && r.body.Keys == {"error", "details"}
    ensures r.body["error"] == JStr("Failed to render video")
    ensures r.body["details"] == JStr(if t.ErrorObject? then t.message else "Unknown error")
  {
    Reply(500, map[], map["error" := JStr("Failed to render video"),
                          "details" := JStr(if t.ErrorObject? then t.message else "Unknown error")])
  }

  /** `renderRemotionVideo` */
  function RenderVideo(httpMethod: string, body: RenderBody, rr: Renderer): (out: (Reply, seq<Call>))
    ensures httpMethod != "POST" <==> out == (ErrorReply(405, "Method not allowed"), [])
    ensures out.0.status in {200, 405, 500}
    ensures out.0.status == 200 <==>
              httpMethod == "POST" && rr.bundle.Done? && body.aspectRatio.Some?
              && Lookup(EditableId(body.aspectRatio.value)).Some? && rr.select.None?
              && rr.mkdir.None? && rr.render.None?
    ensures out.0.status == 200 ==>
              out.0.body == map["success" := JBool(true), "videoUrl" := JStr(PublicPath(rr.uuid)),
                                "message" := JStr("Video rendered successfully")]
              && out.1 == [Bundle, Select(EditableId(body.aspectRatio.value)), MakeDir,
                           Render(EditableId(body.aspectRatio.value), OutputName(rr.uuid))]
    ensures out.0.status == 500 ==> "error" in out.0.body && out.0.body["error"] == JStr("Failed to render video")
    ensures httpMethod == "POST" && rr.bundle.Done? && body.aspectRatio.None? ==>
              out == (RenderFailure(ErrorObject(NoAspectMessage)), [Bundle])
    ensures httpMethod == "POST" && rr.bundle.Done? && body.aspectRatio.Some?
            && Lookup(EditableId(body.aspectRatio.value)).Some? && rr.select.Some? ==>
              out == (RenderFailure(rr.select.value), [Bundle, Select(EditableId(body.aspectRatio.value))])
    ensures forall i :: 0 <= i < |out.1| && out.1[i].Render? ==> Lookup(out.1[i].id).Some?
  {
    if httpMethod != "POST" then (ErrorReply(405, "Method not allowed"), [])
    else
      match rr.bundle
      case Threw(t) => (RenderFailure(t), [Bundle])
      case Done(_) =>
        match body.aspectRatio
        case None => (RenderFailure(ErrorObject(NoAspectMessage)), [Bundle])
        case Some(a) =>
          var id := EditableId(a);
          if Lookup(id).None? then (RenderFailure(rr.notFound), [Bundle, Select(id)])
          else if rr.select.Some? then (RenderFailure(rr.select.value), [Bundle, Select(id)])
          else if rr.mkdir.Some? then (RenderFailure(rr.mkdir.value), [Bundle, Select(id), MakeDir])
          else
            var calls := [Bundle, Select(id), MakeDir, Render(id, OutputName(rr.uuid))];
            if rr.render.Some? then (RenderFailure(rr.render.value), calls)
            else
              (Reply(200, map[], map["success" := JBool(true), "videoUrl" := JStr(PublicPath(rr.uuid)),
                                     "message" := JStr("Video rendered successfully")]), calls)
  }

  /** Every aspect ratio the editor offers renders when the renderer does not
      fail, and only the six accepted values ever reach the renderer. */
  lemma EditorAspectsRender(httpMethod: string, body: RenderBody, rr: Renderer)
    requires httpMethod == "POST" && rr.bundle.Done? && rr.select.None? && rr.mkdir.None? && rr.render.None?
    ensures body.aspectRatio.Some? && body.aspectRatio.value in {"16:9", "9:16", "1:1"} ==>
              RenderVideo(httpMethod, body, rr).0.status == 200
    ensures RenderVideo(httpMethod, body, rr).0.status == 200 ==> RenderName(body.aspectRatio.value)
  {
    if body.aspectRatio.Some? {
      RenderableAspects(body.aspectRatio.value);
    }
  }
}

=== FILE: seqs.dfy ===
/** Order-preserving selection from lists, the shape of every `filter` and
    `slice` in the sources. */
module Seqs {

  /** `xs` can be obtained from `ys` by deleting elements. */
  predicate SubsequenceOf<T(==)>(xs: seq<T>, ys: seq<T>)
    decreases |ys|
  {
    |xs| == 0 || (|ys| > 0 && ((xs[0] == ys[0] && SubsequenceOf(xs[1..], ys[1..])) || SubsequenceOf(xs, ys[1..])))
  }

  lemma {:induction false} SubsequenceOfSelf<T>(xs: seq<T>)
    ensures SubsequenceOf(xs, xs)
    decreases |xs|
  {
    if |xs| > 0 {
      SubsequenceOfSelf(xs[1..]);
    }
  }

  /** `xs.filter(p)`: the elements satisfying `p`, in their original order,
      each as often as it occurs in `xs`. */
  function Filter<T(==)>(xs: seq<T>, p: T -> bool): (r: seq<T>)
    ensures |r| <= |xs|
    ensures forall i :: 0 <= i < |r| ==> p(r[i])
    ensures forall i :: 0 <= i < |r| ==> r[i] in xs
    ensures forall i :: 0 <= i < |xs| && p(xs[i]) ==> xs[i] in r
    ensures SubsequenceOf(r, xs)
    decreases |xs|
  {
    if |xs| == 0 then []
    else
      var rest := Filter(xs[1..], p);
      if p(xs[0]) then
        var r := [xs[0]] + rest;
        assert r[1..] == rest;
        r
      else rest
  }

  /** A filter keeps every element that passes as often as it occurs, and
      none that fails. */
  lemma {:induction false} FilterCounts<T>(xs: seq<T>, p: T -> bool)
    ensures forall x :: multiset(Filter(xs, p))[x] == if p(x) then multiset(xs)[x] else 0
    decreases |xs|
  {
    if |xs| > 0 {
      FilterCounts(xs[1..], p);
      assert xs == [xs[0]] + xs[1..];
      FilterCons(xs[0], xs[1..], p);
    }
  }

  /** Filtering a concatenation filters each part. */
  lemma {:induction false} FilterAppend<T>(a: seq<T>, b: seq<T>, p: T -> bool)
    ensures Filter(a + b, p) == Filter(a, p) + Filter(b, p)
    decreases |a|
  {
    if |a| == 0 {
      assert a + b == b;
    } else {
      assert (a + b)[0] == a[0] && (a + b)[1..] == a[1..] + b;
      FilterAppend(a[1..], b, p);
    }
  }

  /** Filtering a list with a first element. */
  lemma FilterCons<T>(x: T, xs: seq<T>, p: T -> bool)
    ensures Filter([x] + xs, p) == (if p(x) then [x] else []) + Filter(xs, p)
  {
    assert ([x] + xs)[0] == x && ([x] + xs)[1..] == xs;
  }

  /** Two predicates that agree on every element filter alike. */
  lemma {:induction false} FilterAgree<T>(xs: seq<T>, p: T -> bool, q: T -> bool)
    requires forall i :: 0 <= i < |xs| ==> p(xs[i]) == q(xs[i])
    ensures Filter(xs, p) == Filter(xs, q)
    decreases |xs|
  {
    if |xs| > 0 {
      assert forall i :: 0 <= i < |xs[1..]| ==> xs[1..][i] == xs[i + 1];
      FilterAgree(xs[1..], p, q);
    }
  }

  /** Filtering keeps everything exactly when everything satisfies the predicate. */
  lemma {:induction false} FilterKeepsAll<T>(xs: seq<T>, p: T -> bool)
    ensures Filter(xs, p) == xs <==> forall i :: 0 <= i < |xs| ==> p(xs[i])
    decreases |xs|
  {
    if |xs| > 0 {
      FilterKeepsAll(xs[1..], p);
      if !p(xs[0]) {
        assert |Filter(xs, p)| < |xs| by {
          assert Filter(xs, p) == Filter(xs[1..], p);
        }
      } else {
        assert (forall i :: 0 <= i < |xs| ==> p(xs[i])) <==> (forall i :: 0 <= i < |xs[1..]| ==> p(xs[1..][i])) by {
          forall i | 0 <= i < |xs[1..]| ensures xs[1..][i] == xs[i + 1] { }
        }
        assert [xs[0]] + xs[1..] == xs;
      }
    }
  }

  /** `xs.slice(0, n)`. */
  function Take<T>(xs: seq<T>, n: nat): (r: seq<T>)
    ensures |r| == if n < |xs| then n else |xs|
    ensures forall i :: 0 <= i < |r| ==> r[i] == xs[i]
  {
    if n < |xs| then xs[..n] else xs
  }

  /** `xs.map(f)` */
  function Map<A, B>(xs: seq<A>, f: A -> B): (r: seq<B>)
    ensures |r| == |xs| && forall i :: 0 <= i < |xs| ==> r[i] == f(xs[i])
  {
    seq(|xs|, i requires 0 <= i < |xs| => f(xs[i]))
  }

  /** Mapping a non-empty list maps its head, then its tail. */
  lemma MapCons<A, B>(xs: seq<A>, f: A -> B)
    requires |xs| > 0
    ensures Map(xs, f) == [f(xs[0])] + Map(xs[1..], f)
  {
    var r := [f(xs[0])] + Map(xs[1..], f);
    forall i | 0 <= i < |xs| ensures r[i] == Map(xs, f)[i] {
      if i > 0 {
        assert r[i] == Map(xs[1..], f)[i - 1] && xs[1..][i - 1] == xs[i];
      }
    }
  }

  /** A longer prefix is the shorter one and the next element. */
  lemma PrefixSnoc<T>(xs: seq<T>, i: nat)
    requires i < |xs|
    ensures xs[..i + 1] == xs[..i] + [xs[i]]
  {
  }

  /** A prefix is a subsequence. */
  lemma TakeSubsequence<T>(xs: seq<T>, n: nat)
    ensures SubsequenceOf(Take(xs, n), xs)
  {
    PrefixSubsequence(Take(xs, n), xs);
  }

  lemma {:induction false} PrefixSubsequence<T>(xs: seq<T>, ys: seq<T>)
    requires |xs| <= |ys| && xs == ys[..|xs|]
    ensures SubsequenceOf(xs, ys)
    decreases |ys|
  {
    if |xs| > 0 {
      PrefixSubsequence(xs[1..], ys[1..]);
    }
  }

  /** A subsequence is no longer than the sequence, and its elements come
      from it. */
  lemma {:induction false} SubsequenceElements<T>(xs: seq<T>, ys: seq<T>)
    requires SubsequenceOf(xs, ys)
    ensures |xs| <= |ys|
    ensures forall i :: 0 <= i < |xs| ==> xs[i] in ys
    decreases |ys|
  {
    if |xs| > 0 {
      if xs[0] == ys[0] && SubsequenceOf(xs[1..], ys[1..]) {
        SubsequenceElements(xs[1..], ys[1..]);
        assert forall i :: 1 <= i < |xs| ==> xs[i] == xs[1..][i - 1];
      } else {
        SubsequenceElements(xs, ys[1..]);
      }
      assert forall y :: y in ys[1..] ==> y in ys;
    }
  }

  /** Subsequences compose. */
  lemma {:induction false} SubsequenceTrans<T>(xs: seq<T>, ys: seq<T>, zs: seq<T>)
    requires SubsequenceOf(xs, ys) && SubsequenceOf(ys, zs)
    ensures SubsequenceOf(xs, zs)
    decreases |zs|, |ys|
  {
    if |xs| > 0 {
      if |zs| > 0 && ys[0] == zs[0] && SubsequenceOf(ys[1..], zs[1..]) {
        if xs[0] == ys[0] && SubsequenceOf(xs[1..], ys[1..]) {
          SubsequenceTrans(xs[1..], ys[1..], zs[1..]);
        } else {
          SubsequenceTrans(xs, ys[1..], zs[1..]);
        }
      } else {
        SubsequenceTrans(xs, ys, zs[1..]);
      }
    }
  }
}

=== FILE: strings.dfy ===
/** The string operations the sources call: `startsWith`, `includes`, `trim`,
    `split` on a one-character separator, `join`, ASCII case mapping, decimal
    printing of integers and `padStart`. Strings are sequences of Unicode scalar
    values. */
module Strings {

  predicate StartsWith(s: string, prefix: string) {
    |prefix| <= |s| && s[..|prefix|] == prefix
  }

  /** `s.includes(sub)`: `sub` occurs at some position of `s`. */
  predicate Contains(s: string, sub: string)
    decreases |s|
  {
    StartsWith(s, sub) || (|s| > 0 && Contains(s[1..], sub))
  }

  /** An occurrence at a given position is found by `Contains`. */
  lemma {:induction false} ContainsAt(s: string, sub: string, i: nat)
    requires i + |sub| <= |s| && s[i..i + |sub|] == sub
    ensures Contains(s, sub)
    decreases i
  {
    if i == 0 {
      assert s[..|sub|] == sub;
    } else {
      assert s[1..][i - 1..i - 1 + |sub|] == s[i..i + |sub|];
      ContainsAt(s[1..], sub, i - 1);
    }
  }

  /** Whatever is concatenated around a string, the result contains it. */
  lemma ContainsMiddle(a: string, b: string, c: string)
    ensures Contains(a + b + c, b)
  {
    var s := a + b + c;
    assert s[|a|..|a| + |b|] == b;
    ContainsAt(s, b, |a|);
  }

  /** Every character of a contained string occurs in the containing one. */
  lemma {:induction false} ContainedChars(s: string, sub: string)
    requires Contains(s, sub)
    ensures forall i :: 0 <= i < |sub| ==> sub[i] in s
    decreases |s|
  {
    if StartsWith(s, sub) {
      assert forall i :: 0 <= i < |sub| ==> sub[i] == s[i];
    } else {
      ContainedChars(s[1..], sub);
      assert forall c :: c in s[1..] ==> c in s;
    }
  }

  /** A string with a character that `s` lacks is not contained in `s`. */
  lemma MissingChar(s: string, sub: string, j: nat)
    requires j < |sub| && sub[j] !in s
    ensures !Contains(s, sub)
  {
    if Contains(s, sub) {
      ContainedChars(s, sub);
    }
  }

  /** The characters that `String.prototype.trim` removes: the ECMAScript
      WhiteSpace and LineTerminator code points. */
  predicate IsSpace(c: char) {
    var n := c as int;
    (0x09 <= n <= 0x0D) || n == 0x20 || n == 0xA0 || n == 0x1680
    || (0x2000 <= n <= 0x200A) || n == 0x2028 || n == 0x2029 || n == 0x202F
    || n == 0x205F || n == 0x3000 || n == 0xFEFF
  }

  /** Every character is white space (the empty string included). */
  predicate IsBlank(s: string) {
    forall i :: 0 <= i < |s| ==> IsSpace(s[i])
  }

  function TrimStart(s: string): (r: string)
    ensures |r| <= |s| && r == s[|s| - |r|..]
    ensures IsBlank(s[..|s| - |r|])
    ensures r == "" || !IsSpace(r[0])
  {
    if |s| > 0 && IsSpace(s[0]) then
      var r := TrimStart(s[1..]);
      assert s[..|s| - |r|] == [s[0]] + s[1..][..|s[1..]| - |r|];
      r
    else s
  }

  function TrimEnd(s: string): (r: string)
    ensures |r| <= |s| && r == s[..|r|]
    ensures IsBlank(s[|r|..])
    ensures r == "" || !IsSpace(r[|r| - 1])
  {
    if |s| > 0 && IsSpace(s[|s| - 1]) then
      var r := TrimEnd(s[..|s| - 1]);
      assert s[|r|..] == s[..|s| - 1][|r|..] + [s[|s| - 1]];
      r
    else s
  }

  /** The number of white-space characters `trim` removes from the front. */
  function Leading(s: string): (k: nat)
    ensures k <= |s|
  {
    |s| - |TrimStart(s)|
  }

  /** `s.trim()`: the longest slice of `s` that neither starts nor ends with
      white space; everything cut off on either side is white space. */
  function Trim(s: string): (r: string)
    ensures |r| <= |s| - Leading(s)
    ensures r == s[Leading(s)..Leading(s) + |r|]
    ensures IsBlank(s[..Leading(s)]) && IsBlank(s[Leading(s) + |r|..])
    ensures r == "" || (!IsSpace(r[0]) && !IsSpace(r[|r| - 1]))
    ensures r == "" <==> IsBlank(s)
  {
    var t := TrimStart(s);
    var r := TrimEnd(t);
    TrimSlices(s, t, r, Leading(s));
    r
  }

  lemma TrimSlices(s: string, t: string, r: string, k: nat)
    requires k <= |s| && t == s[k..] && IsBlank(s[..k])
    requires |r| <= |t| && r == t[..|r|] && IsBlank(t[|r|..])
    requires r == "" || !IsSpace(r[0])
    ensures r == s[k..k + |r|]
    ensures IsBlank(s[k + |r|..])
    ensures r == "" <==> IsBlank(s)
  {
    assert s[k + |r|..] == t[|r|..];
    if r == "" {
      assert s == s[..k] + s[k..];
      forall i | 0 <= i < |s| ensures IsSpace(s[i]) {
        if i < k { assert s[i] == s[..k][i]; } else { assert s[i] == t[i - k]; }
      }
    } else {
      assert s[k] == r[0];
    }
  }

  /** Trimming twice is trimming once. */
  lemma TrimIdempotent(s: string)
    ensures Trim(Trim(s)) == Trim(s)
  {
    var r := Trim(s);
    assert TrimStart(r) == r;
    assert TrimEnd(r) == r;
  }

  /** `parts.join(sep)` */
  function Join(parts: seq<string>, sep: string): (r: string)
    ensures |parts| == 1 ==> r == parts[0]
    decreases |parts|
  {
    if |parts| == 0 then ""
    else if |parts| == 1 then parts[0]
    else parts[0] + sep + Join(parts[1..], sep)
  }

  /** Joining two non-empty lists is joining each and putting the separator
      between them. */
  lemma {:induction false} JoinAppend(a: seq<string>, b: seq<string>, sep: string)
    requires |a| >= 1 && |b| >= 1
    ensures Join(a + b, sep) == Join(a, sep) + sep + Join(b, sep)
    decreases |a|
  {
    if |a| == 1 {
      assert (a + b)[1..] == b;
    } else {
      JoinAppend(a[1..], b, sep);
      assert (a + b)[1..] == a[1..] + b;
    }
  }

  /** The number of occurrences of `c` in `s`. */
  function CountFrom(s: string, c: char): (n: nat)
    ensures n <= |s|
    ensures n == 0 <==> c !in s
  {
    if |s| == 0 then 0
    else (if s[0] == c then 1 else 0) + CountFrom(s[1..], c)
  }

  /** `s.split(sep)` for a one-character separator: the maximal runs between
      occurrences of `sep`, one more piece than there are separators; joining
      them back with `sep` gives `s` again. */
  function Split(s: string, sep: char): (r: seq<string>)
    ensures |r| == CountFrom(s, sep) + 1
    ensures Join(r, [sep]) == s
    decreases |s|
  {
    if |s| == 0 then [""]
    else
      var rest := Split(s[1..], sep);
      assert s == [s[0]] + s[1..];
      if s[0] == sep then
        JoinEmptyFirst(rest, sep);
        [""] + rest
      else
        JoinGlue(s[0], rest, sep);
        [[s[0]] + rest[0]] + rest[1..]
  }

  /** No piece of a split contains the separator. */
  lemma {:induction false} SplitPieces(s: string, sep: char)
    ensures forall i :: 0 <= i < |Split(s, sep)| ==> sep !in Split(s, sep)[i]
    decreases |s|
  {
    if |s| > 0 {
      SplitPieces(s[1..], sep);
      var rest := Split(s[1..], sep);
      var r := Split(s, sep);
      forall i | 0 <= i < |r| ensures sep !in r[i] {
        if s[0] == sep {
          if i > 0 {
            assert r[i] == rest[i - 1];
          }
        } else if i > 0 {
          assert r[i] == rest[i];
        } else {
          assert r[0] == [s[0]] + rest[0];
        }
      }
    }
  }

  /** An empty first part puts a separator in front of the rest. */
  lemma JoinEmptyFirst(parts: seq<string>, sep: char)
    requires |parts| >= 1
    ensures Join([""] + parts, [sep]) == [sep] + Join(parts, [sep])
  {
    assert ([""] + parts)[1..] == parts;
  }

  /** A character glued to the front of the first part comes first in the join. */
  lemma JoinGlue(c: char, parts: seq<string>, sep: char)
    requires |parts| >= 1
    ensures Join([[c] + parts[0]] + parts[1..], [sep]) == [c] + Join(parts, [sep])
  {
    var r := [[c] + parts[0]] + parts[1..];
    assert |r| == |parts| && r[0] == [c] + parts[0];
    if |parts| == 1 {
      assert Join(r, [sep]) == r[0];
    } else {
      assert r[1..] == parts[1..];
      var rest := Join(parts[1..], [sep]);
      assert Join(r, [sep]) == [c] + parts[0] + [sep] + rest;
      assert Join(parts, [sep]) == parts[0] + [sep] + rest;
      Regroup([c], parts[0], [sep], rest);
    }
  }

  lemma Regroup(a: string, b: string, c: string, d: string)
    ensures a + b + c + d == a + (b + c + d)
  {
  }

  /** Splitting undoes joining when no part contains the separator. */
  lemma {:induction false} SplitJoin(parts: seq<string>, sep: char)
    requires |parts| >= 1
    requires forall i :: 0 <= i < |parts| ==> sep !in parts[i]
    ensures Split(Join(parts, [sep]), sep) == parts
    decreases |parts|, |parts[0]|
  {
    var p := parts[0];
    if |p| > 0 {
      var parts' := [p[1..]] + parts[1..];
      assert forall i :: 0 <= i < |parts'| ==> sep !in parts'[i] by {
        assert parts'[0] == p[1..] && parts'[1..] == parts[1..];
      }
      assert [p[0]] + p[1..] == p;
      assert [[p[0]] + parts'[0]] + parts'[1..] == parts;
      JoinGlue(p[0], parts', sep);
      SplitJoin(parts', sep);
    } else if |parts| > 1 {
      assert [""] + parts[1..] == parts;
      JoinEmptyFirst(parts[1..], sep);
      SplitJoin(parts[1..], sep);
    }
  }

  function LowerChar(c: char): (r: char)
    ensures 'A' <= c <= 'Z' ==> r as int == c as int + 32
    ensures !('A' <= c <= 'Z') ==> r == c
  {
    if 'A' <= c <= 'Z' then (c as int + 32) as char else c
  }

  function UpperChar(c: char): (r: char)
    ensures 'a' <= c <= 'z' ==> r as int == c as int - 32
    ensures !('a' <= c <= 'z') ==> r == c
  {
    if 'a' <= c <= 'z' then (c as int - 32) as char else c
  }

  /** `s.toLowerCase()`, on the ASCII letters. */
  function Lower(s: string): (r: string)
    ensures |r| == |s| && forall i :: 0 <= i < |s| ==> r[i] == LowerChar(s[i])
  {
    seq(|s|, i requires 0 <= i < |s| => LowerChar(s[i]))
  }

  /** `s.toUpperCase()`, on the ASCII letters. */
  function Upper(s: string): (r: string)
    ensures |r| == |s| && forall i :: 0 <= i < |s| ==> r[i] == UpperChar(s[i])
  {
    seq(|s|, i requires 0 <= i < |s| => UpperChar(s[i]))
  }

  predicate IsDigit(c: char) {
    '0' <= c <= '9'
  }

  function DigitChar(d: nat): (c: char)
    requires d < 10
    ensures IsDigit(c) && c as int - '0' as int == d
  {
    ('0' as int + d) as char
  }

  /** The value of a string of decimal digits. */
  function DigitsValue(s: string): nat
    requires forall i :: 0 <= i < |s| ==> IsDigit(s[i])
  {
    if |s| == 0 then 0
    else
      assert IsDigit(s[|s| - 1]);
      DigitsValue(s[..|s| - 1]) * 10 + (s[|s| - 1] as int - '0' as int)
  }

  /** `String(n)` for a natural number: its shortest decimal representation,
      which reads back as `n`. */
  function NatToString(n: nat): (r: string)
    ensures |r| >= 1
    ensures forall i :: 0 <= i < |r| ==> IsDigit(r[i])
    ensures DigitsValue(r) == n
    ensures r[0] == '0' ==> n == 0 && r == "0"
  {
    if n < 10 then [DigitChar(n)]
    else
      var r := NatToString(n / 10) + [DigitChar(n % 10)];
      assert r[..|r| - 1] == NatToString(n / 10);
      r
  }

  /** `String(i)` for an integer. */
  function IntToString(i: int): (r: string)
    ensures i >= 0 ==> r == NatToString(i)
    ensures i < 0 ==> r == "-" + NatToString(-i)
  {
    if i >= 0 then NatToString(i) else "-" + NatToString(-i)
  }

  /** `s.padStart(width, fill)` with a one-character fill. */
  function PadStart(s: string, width: nat, fill: char): (r: string)
    ensures |s| >= width ==> r == s
    ensures |s| < width ==>
              (|r| == width && r[width - |s|..] == s && forall i :: 0 <= i < width - |s| ==> r[i] == fill)
  {
    if |s| >= width then s else seq(width - |s|, _ => fill) + s
  }

  /** `s.length`: JavaScript counts UTF-16 code units, so a character outside
      the Basic Multilingual Plane counts twice. */
  function Utf16Length(s: string): (n: nat)
    ensures |s| <= n <= 2 * |s|
    ensures (forall i :: 0 <= i < |s| ==> s[i] as int < 0x10000) ==> n == |s|
  {
    if |s| == 0 then 0 else (if s[0] as int < 0x10000 then 1 else 2) + Utf16Length(s[1..])
  }

  /** `s.indexOf(c)`: the first position of `c`, or -1. */
  function IndexOf(s: string, c: char): (k: int)
    ensures -1 <= k < |s|
    ensures k == -1 <==> c !in s
    ensures k >= 0 ==> s[k] == c && c !in s[..k]
  {
    if |s| == 0 then -1
    else if s[0] == c then 0
    else
      var k := IndexOf(s[1..], c);
      if k == -1 then -1
      else
        assert s[..k + 1] == [s[0]] + s[1..][..k];
        k + 1
  }

  /** `s.replace(from, to)` with one-character strings: only the first
      occurrence is replaced, and a string without it is returned unchanged. */
  function ReplaceFirst(s: string, from: char, to: char): (r: string)
    ensures |r| == |s|
    ensures from !in s ==> r == s
    ensures from in s ==> r == s[..IndexOf(s, from)] + [to] + s[IndexOf(s, from) + 1..]
  {
    var k := IndexOf(s, from);
    if k == -1 then s else s[..k] + [to] + s[k + 1..]
  }
}

=== FILE: trending_library.dfy ===
/** The built-in trending-sounds picker (components/AppleMusicTrendingSounds.tsx):
    a fixed list of five songs, filtered by a genre button and a search box. */
module SoundLibrary {
  import opened Strings
  import opened Seqs

  datatype Sound = Sound(id: string, name: string, artist: string, duration: string, audioUrl: string,
                         genre: string)

  /** `TRENDING_SOUNDS` */
  const Library: seq<Sound> := [
    Sound("1", "Flowers", "Miley Cyrus", "3:20", "/audio/flowers.mp3", "Pop"),
    Sound("2", "As It Was", "Harry Styles", "2:47", "/audio/as-it-was.mp3", "Pop"),
    Sound("3", "Anti-Hero", "Taylor Swift", "3:20", "/audio/anti-hero.mp3", "Pop"),
    Sound("4", "Bad Habit", "Steve Lacy", "3:52", "/audio/bad-habit.mp3", "Alternative"),
    Sound("5", "Running Up That Hill", "Kate Bush", "5:03", "/audio/running-up-that-hill.mp3", "Alternative")
  ]

  /** The genre buttons, "All" first. */
  const Genres: seq<string> := ["All", "Pop", "Alternative", "Hip-Hop", "Electronic"]

  /** The search matches when it is empty or, ignoring case, occurs in the
      song's name or artist. */
  predicate MatchesSearch(query: string, s: Sound) {
    query == "" || Contains(Lower(s.name), Lower(query)) || Contains(Lower(s.artist), Lower(query))
  }

  function Matches(genre: string, query: string): Sound -> bool {
    (s: Sound) => (genre == "All" || s.genre == genre) && MatchesSearch(query, s)
  }

  /** `filteredSounds`: the songs of the chosen genre ("All" for every genre)
      that match the search, in the list's order. */
  function Filtered(genre: string, query: string): (r: seq<Sound>)
    ensures forall i :: 0 <= i < |r| ==>
              r[i] in Library && (genre == "All" || r[i].genre == genre) && MatchesSearch(query, r[i])
    ensures forall i :: (0 <= i < |Library| && (genre == "All" || Library[i].genre == genre)
                         && MatchesSearch(query, Library[i])) ==> Library[i] in r
    ensures SubsequenceOf(r, Library)
  {
    Filter(Library, Matches(genre, query))
  }

  /** With "All" and an empty search every song is listed. */
  lemma EverythingUnfiltered()
    ensures Filtered("All", "") == Library
  {
    FilterKeepsAll(Library, Matches("All", ""));
  }

  /** Two of the genre buttons can never list anything: no song has those genres. */
  lemma EmptyGenres(query: string)
    ensures Filtered("Hip-Hop", query) == [] && Filtered("Electronic", query) == []
  {
    GenreWithoutSongs("Hip-Hop", query);
    GenreWithoutSongs("Electronic", query);
  }

  lemma GenreWithoutSongs(genre: string, query: string)
    requires genre != "All" && forall i :: 0 <= i < |Library| ==> Library[i].genre != genre
    ensures Filtered(genre, query) == []
  {
  }

  /** The "No songs found" message: shown exactly when no song of the list
      passes both filters. */
  predicate ShowsEmptyState(genre: string, query: string) {
    |Filtered(genre, query)| == 0
  }

  lemma EmptyStateMeaning(genre: string, query: string)
    ensures ShowsEmptyState(genre, query) <==>
              forall i :: 0 <= i < |Library| ==>
                !((genre == "All" || Library[i].genre == genre) && MatchesSearch(query, Library[i]))
  {
    var r := Filtered(genre, query);
    if |r| > 0 {
      assert r[0] in Library;
    }
  }

  /** The search ignores case: a query and its lower-case form list the same songs. */
  lemma SearchIgnoresCase(genre: string, query: string)
    ensures Filtered(genre, Lower(query)) == Filtered(genre, query)
  {
    assert Lower(Lower(query)) == Lower(query);
    FilterAgree(Library, Matches(genre, Lower(query)), Matches(genre, query));
  }
}

=== FILE: trending_sounds.dfy ===
/** The trending-sounds endpoint (server/routes/trending-sounds.ts): a curated
    list by default, the Deezer chart or the Apple Music most-played feed on
    request, each turned into the same `Sound` records. The HTTP calls are
    inputs keyed by the URL the handler builds. */
module TrendingSounds {
  import opened JsValues
  import opened Strings
  import opened Http
  import opened Seqs
  import UriComponent

  datatype Sound = Sound(id: string, title: string, artist: string, durationSec: real,
                         audioUrl: string, source: string, cover: Option<string>)

  /** A sound as the response body lists it; an undefined cover is left out. */
  function SoundJson(s: Sound): (j: Json)
    ensures j.JObj? && ("cover" in j.fields <==> s.cover.Some?)
    ensures j.JObj? && "audioUrl" in j.fields && j.fields["audioUrl"] == JStr(s.audioUrl)
  {
    JObj(map["id" := JStr(s.id), "title" := JStr(s.title), "artist" := JStr(s.artist),
             "durationSec" := JNum(s.durationSec), "audioUrl" := JStr(s.audioUrl),
             "source" := JStr(s.source)] + OptField("cover", s.cover))
  }

  function SoundsBody(sounds: seq<Sound>): (body: map<string, Json>)
    ensures body.Keys == {"sounds"} && body["sounds"].JArr? && |body["sounds"].items| == |sounds|
  {
    map["sounds" := JArr(seq(|sounds|, i requires 0 <= i < |sounds| => SoundJson(sounds[i])))]
  }

  const CuratedSource: string := "curated-demo"

  /** `SOUNDS`: the fixed fallback list. */
  const Curated: seq<Sound> := [
    Sound("sample-1", "original sound - tna.music", "TNAe", 54.0,
          "https://sf16-ies-music-va.tiktokcdn.com/obj/ies-music-ttp-dup-us/7516564887011740458.mp3", CuratedSource, None),
    Sound("sample-2", "Original sound - DJ ANyelo", "DJ Anyelo", 54.0,
          "https://sf77-ies-music-va.tiktokcdn.com/obj/musically-maliva-obj/7317428813843876614.mp3", CuratedSource, None),
    Sound("sample-3", "\U{0E1E}\U{0E35}\U{0E48}\U{0E0A}\U{0E2D}\U{0E1A}\U{0E2B}\U{0E19}\U{0E39}\U{0E17}\U{0E35}\U{0E48}\U{0E2A}\U{0E38}\U{0E14}\U{0E40}\U{0E25}\U{0E22} (Speed Up)",
          "Ponchet", 41.0,
          "https://sf16-ies-music-sg.tiktokcdn.com/obj/tos-alisg-ve-2774/oYIxjZBmdlVkEFy2eAuDTgKtQcBfC0XLpMK8EZ", CuratedSource, None),
    Sound("sample-4", "GRR", "Fantomel", 17.0,
          "https://sf16-music.tiktokcdn-eu.com/obj/ies-music-eu2-no/7508780725572356886.mp3", CuratedSource, None),
    Sound("sample-5", "The Great Gig In The Sky (2011 Remastered Version)", "Pink Floyd", 60.0,
          "https://sf16-music.tiktokcdn-eu.com/obj/ies-music-eu2-no/7508780725572356886.mp3", CuratedSource, None)
  ]

  /** The curated list: five demo sounds with distinct ids, none longer than a minute. */
  lemma CuratedShape()
    ensures |Curated| == 5
    ensures forall i, j :: 0 <= i < j < |Curated| ==> Curated[i].id != Curated[j].id
    ensures forall i :: 0 <= i < |Curated| ==> Curated[i].source == CuratedSource && Curated[i].durationSec <= 60.0
  {
  }

  // ----- Deezer -----

  /** A chart track as the Deezer API lists it (`String(t.id)` is its text). */
  datatype DeezerTrack = DeezerTrack(id: Option<string>, title: Option<string>, artistName: Option<string>,
                                     duration: Num, preview: Option<string>,
                                     coverSmall: Option<string>, cover: Option<string>)

  /** The chart request's outcome: `fetch` or `r.json()` rejected, a non-OK
      status, a `data` that is present but not a list, or the `data` list
      (empty when the body has none). */
  datatype ChartReply = ChartThrew | ChartNotOk | ChartNotList | ChartOk(tracks: seq<DeezerTrack>)

  /** The region path segment: "/" and the encoded region when a non-empty region
      of at most three UTF-16 code units is given, otherwise nothing (the global
      chart). */
  function RegionPath(region: Option<string>): (p: string)
    ensures p == "" <==> !(Truthy(region) && Utf16Length(region.value) <= 3)
    ensures p != "" ==> p == "/" + UriComponent.Encode(region.value) && '/' !in p[1..]
  {
    if Truthy(region) && Utf16Length(region.value) <= 3 then
      var e := UriComponent.Encode(region.value);
      assert ("/" + e)[1..] == e;
      assert forall i :: 0 <= i < |e| ==> e[i] != '/';
      "/" + e
    else ""
  }

  function ChartUrl(region: Option<string>): (u: string)
    ensures StartsWith(u, "https://api.deezer.com/chart")
  {
    "https://api.deezer.com/chart" + RegionPath(region) + "/tracks"
  }

  /** `fetchDeezerChart`, followed by the handler's `.filter` on its result: a
      non-OK answer is an empty list; a rejected request or body is passed on,
      and so is a `data` that is not a list, on which `.filter` throws. */
  function FetchDeezerChart(region: Option<string>, chart: string -> ChartReply): (r: Result<seq<DeezerTrack>>)
    ensures r.Err? <==> chart(ChartUrl(region)).ChartThrew? || chart(ChartUrl(region)).ChartNotList?
    ensures chart(ChartUrl(region)).ChartNotOk? ==> r == Ok([])
    ensures chart(ChartUrl(region)).ChartOk? ==> r == Ok(chart(ChartUrl(region)).tracks)
  {
    match chart(ChartUrl(region))
    case ChartThrew => Err("Deezer chart request failed")
    case ChartNotOk => Ok([])
    case ChartNotList => Err("tracks.filter is not a function")
    case ChartOk(tracks) => Ok(tracks)
  }

  predicate HasPreview(t: DeezerTrack) {
    Truthy(t.preview)
  }

  const MaxDeezer: nat := 25
  const ClipSeconds: real := 30.0

  /** The sound a Deezer track becomes. */
  function DeezerSound(t: DeezerTrack): (s: Sound)
    ensures s.durationSec <= ClipSeconds
    ensures t.duration.Finite? ==> s.durationSec == Min(ClipSeconds, t.duration.value)
    ensures !t.duration.Finite? ==> s.durationSec == ClipSeconds
    ensures s.id == Show(t.id) && s.title == Show(t.title)
    ensures Truthy(t.coverSmall) ==> s.cover == t.coverSmall
    ensures !Truthy(t.coverSmall) && Truthy(t.cover) ==> s.cover == t.cover
    ensures s.source == "deezer-chart" && s.audioUrl == Show(t.preview)
    ensures s.artist == (if Truthy(t.artistName) then t.artistName.value else "Unknown")
    ensures s.cover.Some? <==> Truthy(t.coverSmall) || Truthy(t.cover)
    ensures s.cover.Some? ==> s.cover.value != ""
  {
    Sound(Show(t.id), Show(t.title), Show(Or(t.artistName, Some("Unknown"))),
          if t.duration.Finite? then Min(ClipSeconds, t.duration.value) else ClipSeconds,
          Show(t.preview), "deezer-chart",
          if Truthy(t.coverSmall) then t.coverSmall else if Truthy(t.cover) then t.cover else None)
  }

  /** The tracks the Deezer branch keeps: those with a preview, the first 25. */
  function DeezerSelection(tracks: seq<DeezerTrack>): (r: seq<DeezerTrack>)
    ensures |r| <= MaxDeezer
    ensures var kept := Filter(tracks, HasPreview);
            |r| == (if |kept| <= MaxDeezer then |kept| else MaxDeezer) && r == kept[..|r|]
    ensures forall i :: 0 <= i < |r| ==> HasPreview(r[i])
    ensures SubsequenceOf(r, tracks)
    ensures |Filter(tracks, HasPreview)| <= MaxDeezer ==> r == Filter(tracks, HasPreview)
  {
    var kept := Filter(tracks, HasPreview);
    TakeSubsequence(kept, MaxDeezer);
    SubsequenceTrans(Take(kept, MaxDeezer), kept, tracks);
    Take(kept, MaxDeezer)
  }

  /** The Deezer branch's list: at most 25 sounds, each a clip of at most 30 s
      with a preview URL, in chart order. */
  function DeezerSounds(tracks: seq<DeezerTrack>): (r: seq<Sound>)
    ensures |r| == |DeezerSelection(tracks)| <= MaxDeezer
    ensures forall i :: 0 <= i < |r| ==> r[i] == DeezerSound(DeezerSelection(tracks)[i])
    ensures forall i :: 0 <= i < |r| ==> r[i].durationSec <= ClipSeconds && r[i].audioUrl != ""
  {
    var sel := DeezerSelection(tracks);
    seq(|sel|, i requires 0 <= i < |sel| => DeezerSound(sel[i]))
  }

  /** A chart whose every track has a preview and that has at most 25 tracks is
      passed through whole, one sound per track in the same order. */
  lemma DeezerKeepsShortFullChart(tracks: seq<DeezerTrack>)
    requires |tracks| <= MaxDeezer && forall i :: 0 <= i < |tracks| ==> HasPreview(tracks[i])
    ensures |DeezerSounds(tracks)| == |tracks|
    ensures forall i :: 0 <= i < |tracks| ==> DeezerSounds(tracks)[i] == DeezerSound(tracks[i])
  {
    FilterKeepsAll(tracks, HasPreview);
  }

  // ----- Apple Music / iTunes -----

  /** An entry of the most-played feed. */
  datatype RssItem = RssItem(id: Option<string>, name: Option<string>, artistName: Option<string>,
                             artworkUrl100: Option<string>)

  /** The first result of an iTunes search. */
  datatype Match = Match(trackId: Option<string>, trackName: Option<string>, artistName: Option<string>,
                         previewUrl: Option<string>, artworkUrl100: Option<string>)

  /** A search's outcome: it threw, it answered non-OK, or its first result (if any). */
  datatype Search = SearchThrew | SearchNotOk | SearchOk(first: Option<Match>)

  const MaxItunes: nat := 15

  /** The feed region: the requested one or "US", upper-cased. */
  function ItunesRegion(region: Option<string>): (r: string)
    ensures region.None? ==> r == "US"
    ensures |r| == |region.GetOr("US")|
    ensures forall i :: 0 <= i < |r| ==> r[i] == UpperChar(region.GetOr("US")[i])
    ensures forall i :: 0 <= i < |r| ==> !('a' <= r[i] <= 'z')
  {
    Upper(region.GetOr("US"))
  }

  function RssUrl(region: string): string {
    "https://rss.applemarketingtools.com/api/v2/" + UriComponent.Encode(region) + "/music/most-played/50/songs.json"
  }

  /** `${item.name} ${item.artistName}` */
  function SearchTerm(item: RssItem): string {
    Show(item.name) + " " + Show(item.artistName)
  }

  const SearchEndpoint: string := "https://itunes.apple.com/search?"

  /** The search for one feed item: its query string has exactly the four
      fields term, country, entity=song and limit=1, and the first two read
      back as the term and the region. */
  function SearchUrl(term: string, region: string): (u: string)
    ensures StartsWith(u, SearchEndpoint)
    ensures var f := Split(u[|SearchEndpoint|..], '&');
            |f| == 4 && f[2] == "entity=song" && f[3] == "limit=1"
            && StartsWith(f[0], "term=") && UriComponent.Decode(f[0][5..]) == Some(term)
            && StartsWith(f[1], "country=") && UriComponent.Decode(f[1][8..]) == Some(region)
  {
    var fields := SearchFields(term, region);
    QueryFields(term, region);
    assert (SearchEndpoint + Join(fields, "&"))[|SearchEndpoint|..] == Join(fields, "&");
    SearchEndpoint + Join(fields, "&")
  }

  /** `term=…&country=…&entity=song&limit=1`, field by field. */
  function SearchFields(term: string, region: string): seq<string> {
    ["term=" + UriComponent.Encode(term), "country=" + UriComponent.Encode(region), "entity=song", "limit=1"]
  }

  /** The query string splits at `&` back into its four fields, since no
      encoded value holds a `&`, and the values decode to what was encoded. */
  lemma QueryFields(term: string, region: string)
    ensures Split(Join(SearchFields(term, region), "&"), '&') == SearchFields(term, region)
    ensures SearchFields(term, region)[0][5..] == UriComponent.Encode(term)
    ensures SearchFields(term, region)[1][8..] == UriComponent.Encode(region)
    ensures UriComponent.Decode(UriComponent.Encode(term)) == Some(term)
    ensures UriComponent.Decode(UriComponent.Encode(region)) == Some(region)
  {
    var parts := SearchFields(term, region);
    NoAmpersand("term=", UriComponent.Encode(term));
    NoAmpersand("country=", UriComponent.Encode(region));
    assert forall i :: 0 <= i < |parts| ==> '&' !in parts[i];
    SplitJoin(parts, '&');
    UriComponent.DecodeEncode(term);
    UriComponent.DecodeEncode(region);
  }

  lemma NoAmpersand(name: string, value: string)
    requires '&' !in name
    requires forall i :: 0 <= i < |value| ==> UriComponent.Unreserved(value[i]) || value[i] == '%'
    ensures '&' !in name + value && (name + value)[|name|..] == value
  {
    assert forall i :: 0 <= i < |name + value| ==> (name + value)[i] != '&' by {
      forall i | 0 <= i < |name + value| ensures (name + value)[i] != '&' {
        if i >= |name| {
          assert (name + value)[i] == value[i - |name|];
        }
      }
    }
  }

  /** The sound a feed item becomes when its search found a preview: the
      platform's track id, else the item's id, else the search term; the feed's
      name and artist before the search result's. */
  function MatchedSound(item: RssItem, m: Match): (s: Sound)
    requires Truthy(m.previewUrl)
    ensures s.durationSec == ClipSeconds && s.source == "itunes-preview" && s.audioUrl == m.previewUrl.value
    ensures Truthy(m.trackId) ==> s.id == m.trackId.value
    ensures !Truthy(m.trackId) && Truthy(item.id) ==> s.id == item.id.value
    ensures !Truthy(m.trackId) && !Truthy(item.id) ==> s.id == SearchTerm(item)
    ensures Truthy(item.name) ==> s.title == item.name.value
    ensures !Truthy(item.name) ==> s.title == Show(m.trackName)
    ensures Truthy(item.artistName) ==> s.artist == item.artistName.value
    ensures !Truthy(item.artistName) && Truthy(m.artistName) ==> s.artist == m.artistName.value
    ensures !Truthy(item.artistName) && !Truthy(m.artistName) ==> s.artist == "Unknown"
    ensures s.cover == if Truthy(item.artworkUrl100) then item.artworkUrl100
                       else if Truthy(m.artworkUrl100) then m.artworkUrl100 else None
  {
    Sound(Show(Or(Or(m.trackId, item.id), Some(SearchTerm(item)))), Show(Or(item.name, m.trackName)),
          Show(Or(Or(item.artistName, m.artistName), Some("Unknown"))), ClipSeconds,
          m.previewUrl.value, "itunes-preview",
          if Truthy(Or(item.artworkUrl100, m.artworkUrl100)) then Or(item.artworkUrl100, m.artworkUrl100) else None)
  }

  /** The body of the loop for one feed item: a sound when the search answers
      with a first result that has a preview URL, nothing otherwise. */
  function ItunesSound(item: RssItem, region: string, search: string -> Search): (s: Option<Sound>)
    ensures s.Some? <==> var r := search(SearchUrl(SearchTerm(item), region));
                         r.SearchOk? && r.first.Some? && Truthy(r.first.value.previewUrl)
    ensures s.Some? ==> s.value.durationSec == ClipSeconds && s.value.source == "itunes-preview"
                        && s.value.audioUrl != ""
    ensures s.Some? && Truthy(item.name) ==> s.value.title == item.name.value
  {
    match search(SearchUrl(SearchTerm(item), region))
    case SearchOk(Some(m)) => if Truthy(m.previewUrl) then Some(MatchedSound(item, m)) else None
    case _ => None
  }

  /** The sounds collected from a list of feed items, in feed order. */
  function Collect(items: seq<RssItem>, region: string, search: string -> Search): (r: seq<Sound>)
    ensures |r| <= |items|
    ensures forall i :: 0 <= i < |r| ==> r[i].durationSec == ClipSeconds && r[i].source == "itunes-preview"
  {
    if |items| == 0 then []
    else
      var last := ItunesSound(items[|items| - 1], region, search);
      Collect(items[..|items| - 1], region, search) + (if last.Some? then [last.value] else [])
  }

  lemma CollectSnoc(items: seq<RssItem>, item: RssItem, region: string, search: string -> Search)
    ensures Collect(items + [item], region, search)
            == Collect(items, region, search)
               + (if ItunesSound(item, region, search).Some? then [ItunesSound(item, region, search).value] else [])
  {
    assert (items + [item])[..|items|] == items;
  }

  /** The `for ... of` loop over the first fifteen items, skipping the items
      whose search fails or has no preview. */
  method ItunesSounds(items: seq<RssItem>, region: string, search: string -> Search) returns (sounds: seq<Sound>)
    ensures sounds == Collect(Take(items, MaxItunes), region, search)
    ensures |sounds| <= MaxItunes
    ensures forall i :: 0 <= i < |sounds| ==> sounds[i].durationSec == ClipSeconds
                                              && sounds[i].source == "itunes-preview"
  {
    var top := Take(items, MaxItunes);
    sounds := [];
    var i: nat := 0;
    while i < |top|
      invariant i <= |top|
      invariant sounds == Collect(top[..i], region, search)
    {
      var s := ItunesSound(top[i], region, search);
      PrefixSnoc(top, i);
      CollectSnoc(top[..i], top[i], region, search);
      if s.Some? {
        sounds := sounds + [s.value];
      }
      i := i + 1;
    }
    assert top[..i] == top;
  }

  /** Every feed item whose search yields a preview contributes exactly one sound:
      collecting is counting the items that succeed. */
  lemma {:induction false} CollectCount(items: seq<RssItem>, region: string, search: string -> Search)
    ensures |Collect(items, region, search)| == |Filter(items, Succeeds(region, search))|
    decreases |items|
  {
    if |items| > 0 {
      var p := Succeeds(region, search);
      var init := items[..|items| - 1];
      var last := items[|items| - 1];
      PrefixSnoc(items, |items| - 1);
      assert items[..|items|] == items;
      CollectSnoc(init, last, region, search);
      CollectCount(init, region, search);
      FilterAppend(init, [last], p);
      FilterCons(last, [], p);
      assert [last] + [] == [last];
    }
  }

  /** The items whose search yields a preview. */
  function Succeeds(region: string, search: string -> Search): RssItem -> bool {
    (it: RssItem) => ItunesSound(it, region, search).Some?
  }

  // ----- The handler -----

  datatype Query = Query(provider: Option<string>, region: Option<string>)

  /** The three upstream services, keyed by the URL requested. The feed answer
      is `Err` for any failure before the loop: `fetch` throwing, a status that
      is not OK, or a body `rss.json()` rejects. Otherwise it holds
      `feed.results` (empty when absent). */
  datatype Upstream = Upstream(chart: string -> ChartReply, rss: string -> Result<seq<RssItem>>,
                               search: string -> Search)

  function Provider(q: Query): (p: string)
    ensures Truthy(q.provider) ==> p == q.provider.value
    ensures !Truthy(q.provider) ==> p == "curated"
  {
    Show(Or(q.provider, Some("curated")))
  }

  function Cached(maxAge: string, sounds: seq<Sound>): Reply {
    Reply(200, map["Cache-Control" := "public, max-age=" + maxAge], SoundsBody(sounds))
  }

  const Failed: Reply := ErrorReply(500, "Failed to load trending sounds")

  /** `trendingSounds`: dispatch on the provider, with the live lists cached for
      two minutes and the curated list for ten. */
  method Handle(q: Query, up: Upstream) returns (reply: Reply)
    ensures Provider(q) != "deezer" && Provider(q) != "itunes" ==> reply == Cached("600", Curated)
    ensures Provider(q) == "deezer" ==>
              match FetchDeezerChart(q.region, up.chart)
              case Err(_) => reply == Failed
              case Ok(tracks) => reply == Cached("120", DeezerSounds(tracks))
    ensures Provider(q) == "itunes" ==>
              var region := ItunesRegion(q.region);
              match up.rss(RssUrl(region))
              case Err(_) => reply == Failed
              case Ok(items) => reply == Cached("120", Collect(Take(items, MaxItunes), region, up.search))
    ensures reply.status == 200 || reply == Failed
  {
    var provider := Provider(q);
    if provider == "deezer" {
      var tracks := FetchDeezerChart(q.region, up.chart);
      if tracks.Err? {
        return Failed;
      }
      return Cached("120", DeezerSounds(tracks.value));
    }
    if provider == "itunes" {
      var region := ItunesRegion(q.region);
      var feed := up.rss(RssUrl(region));
      if feed.Err? {
        return Failed;
      }
      var sounds := ItunesSounds(feed.value, region, up.search);
      return Cached("120", sounds);
    }
    return Cached("600", Curated);
  }
}

=== FILE: upload_gcs.dfy ===
/** Uploading a video to Google Cloud Storage: the multipart parsing that
    server/server.ts configures (one file under the field `video`, only video
    media types, at most 100 MiB) and the handler of
    server/routes/upload-to-gcs.ts. The bucket, the stream's outcome and the
    UUID are inputs. */
module UploadGcs {
  import opened JsValues
  import opened Strings
  import opened Http

  /** A file part of the multipart request. */
  datatype Part = Part(field: string, originalName: string, mimetype: string, size: nat, buffer: seq<byte>)

  /** 100 MiB. */
  const MaxFileBytes: nat := 100 * 1024 * 1024

  const FileField: string := "video"

  /** The file filter: only parts whose media type is a video are kept. */
  predicate AcceptsFile(mimetype: string) {
    StartsWith(mimetype, "video/")
  }

  /** What the parser hands on: the file for `req.file` (absent when there was
      none or the filter skipped it), or an error for the framework's error
      handler. */
  datatype Parsed = Received(file: Option<Part>) | UnexpectedField | FileTooLarge

  /** `upload.single('video')`: a part under another field is an error before
      the filter runs; a skipped part is not read, so its size does not matter;
      a kept part longer than the limit is an error. */
  function Receive(part: Option<Part>): (r: Parsed)
    ensures r.Received? && r.file.Some? <==>
              part.Some? && part.value.field == FileField && AcceptsFile(part.value.mimetype)
              && part.value.size <= MaxFileBytes
    ensures r.Received? && r.file.Some? ==> r.file == part
    ensures r == FileTooLarge <==>
              part.Some? && part.value.field == FileField && AcceptsFile(part.value.mimetype)
              && part.value.size > MaxFileBytes
  {
    match part
    case None => Received(None)
    case Some(p) =>
      if p.field != FileField then UnexpectedField
      else if !AcceptsFile(p.mimetype) then Received(None)
      else if p.size > MaxFileBytes then FileTooLarge
      else Received(Some(p))
  }

  /** `originalname.split('.').pop()`: what follows the last dot, or the whole
      name when it has none. */
  function Extension(name: string): (ext: string)
    ensures '.' !in ext
    ensures |ext| <= |name| && name[|name| - |ext|..] == ext
    ensures '.' in name ==> name[|name| - |ext| - 1] == '.'
    ensures '.' !in name ==> ext == name
  {
    var parts := Split(name, '.');
    SplitPieces(name, '.');
    var ext := parts[|parts| - 1];
    LastPiece(parts, '.');
    ext
  }

  /** The last piece of a split is a suffix of the joined string, and follows
      a separator when there is more than one piece. */
  lemma {:induction false} LastPiece(parts: seq<string>, sep: char)
    requires |parts| >= 1
    ensures var s := Join(parts, [sep]); var p := parts[|parts| - 1];
            |p| <= |s| && s[|s| - |p|..] == p
            && (|parts| > 1 ==> |p| < |s| && s[|s| - |p| - 1] == sep)
            && (|parts| > 1 ==> sep in s)
    decreases |parts|
  {
    if |parts| > 1 {
      LastPiece(parts[1..], sep);
      var s := Join(parts, [sep]);
      var t := Join(parts[1..], [sep]);
      assert s == parts[0] + [sep] + t;
      assert parts[1..][|parts[1..]| - 1] == parts[|parts| - 1];
      assert s[|parts[0]|] == sep;
    }
  }

  /** The object name: `videos/<uuid>.<extension>`. */
  function ObjectName(uuid: string, originalName: string): (name: string)
    ensures StartsWith(name, "videos/")
  {
    "videos/" + uuid + "." + Extension(originalName)
  }

  /** The stored object keeps the extension of the uploaded file, and its name
      splits at its one dot into the UUID part and that extension. */
  lemma ObjectNameKeepsExtension(uuid: string, originalName: string)
    requires '.' !in uuid
    ensures Split(ObjectName(uuid, originalName), '.') == ["videos/" + uuid, Extension(originalName)]
    ensures Extension(ObjectName(uuid, originalName)) == Extension(originalName)
  {
    var parts := ["videos/" + uuid, Extension(originalName)];
    assert '.' !in "videos/";
    assert forall i :: 0 <= i < |parts| ==> '.' !in parts[i];
    assert Join(parts, ".") == ObjectName(uuid, originalName) by {
      assert Join(parts[1..], ".") == parts[1];
    }
    SplitJoin(parts, '.');
  }

  /** The public address of an object. */
  function PublicUrl(bucket: string, name: string): (u: string)
    ensures StartsWith(u, "https://storage.googleapis.com/")
    ensures u[|"https://storage.googleapis.com/"|..] == bucket + "/" + name
  {
    "https://storage.googleapis.com/" + bucket + "/" + name
  }

  /** How the write stream ends. */
  datatype StreamEnd = Finished | StreamFailed

  /** The outside world of the handler. `storageThrows` stands for the client
      constructor failing; `bucket` is `GCS_BUCKET_NAME`; `madePublic` says
      whether `makePublic` resolves. */
  datatype Cloud = Cloud(storageThrows: bool, bucket: Option<string>, uuid: string, stream: StreamEnd,
                         madePublic: bool)

  /** What the handler does to the bucket, in order. */
  datatype Effect = Write(name: string, contentType: string, bytes: seq<byte>) | MakePublic(name: string)

  /** `uploadToGCS` */
  function UploadToGcs(file: Option<Part>, cloud: Cloud): (out: (Reply, seq<Effect>))
    ensures file.None? <==> out == (ErrorReply(400, "No video file provided"), [])
    ensures out.0.status in {200, 400, 500}
    ensures out.0.status == 200 <==>
              file.Some? && !cloud.storageThrows && Truthy(cloud.bucket) && cloud.stream.Finished?
              && cloud.madePublic
    ensures file.Some? && !cloud.storageThrows && !Truthy(cloud.bucket) ==>
              out == (ErrorReply(500, "GCS bucket name not configured"), [])
    ensures out.1 != [] ==>
              out.1[0] == Write(ObjectName(cloud.uuid, file.value.originalName), file.value.mimetype,
                                file.value.buffer)
    ensures out.0.status == 200 ==>
              var name := ObjectName(cloud.uuid, file.value.originalName);
              out.1 == [Write(name, file.value.mimetype, file.value.buffer), MakePublic(name)]
              && out.0.body == map["url" := JStr(PublicUrl(cloud.bucket.value, name)),
                                   "fileName" := JStr(name),
                                   "originalName" := JStr(file.value.originalName),
                                   "size" := JNum(file.value.size as real)]
  {
    if file.None? then (ErrorReply(400, "No video file provided"), [])
    else if cloud.storageThrows then (ErrorReply(500, "Internal server error during upload"), [])
    else if !Truthy(cloud.bucket) then (ErrorReply(500, "GCS bucket name not configured"), [])
    else
      var f := file.value;
      var name := ObjectName(cloud.uuid, f.originalName);
      var write := [Write(name, f.mimetype, f.buffer)];
      if cloud.stream.StreamFailed? then (ErrorReply(500, "Failed to upload to cloud storage"), write)
      else if !cloud.madePublic then (ErrorReply(500, "Failed to make file public"), write + [MakePublic(name)])
      else
        (Reply(200, map[], map["url" := JStr(PublicUrl(cloud.bucket.value, name)), "fileName" := JStr(name),
                               "originalName" := JStr(f.originalName), "size" := JNum(f.size as real)]),
         write + [MakePublic(name)])
  }

  /** `POST /api/upload-to-gcs`: the parser, then the handler; a parser error
      goes to the framework's default error handler, which answers 500. */
  function ServeUpload(part: Option<Part>, cloud: Cloud): (out: (Reply, seq<Effect>))
    ensures Receive(part).Received? ==> out == UploadToGcs(Receive(part).file, cloud)
    ensures !Receive(part).Received? ==> out.0.status == 500 && out.1 == []
  {
    match Receive(part)
    case Received(file) => UploadToGcs(file, cloud)
    case _ => (Reply(500, map[], map[]), [])
  }

  /** Only a video of at most 100 MiB under the right field ever reaches the
      bucket, and a file that is not a video is answered as if none was sent. */
  lemma OnlyVideosStored(part: Option<Part>, cloud: Cloud)
    ensures ServeUpload(part, cloud).1 != [] ==>
              part.Some? && AcceptsFile(part.value.mimetype) && part.value.size <= MaxFileBytes
              && part.value.field == FileField
    ensures part.Some? && part.value.field == FileField && !AcceptsFile(part.value.mimetype) ==>
              ServeUpload(part, cloud).0 == ErrorReply(400, "No video file provided")
  {
  }
}

=== FILE: uri_component.dfy ===
/** `encodeURIComponent`: every character outside the unreserved set
    `A-Z a-z 0-9 - _ . ! ~ * ' ( )` is written as the `%XX` escapes of its UTF-8
    bytes, with upper-case hexadecimal digits. The sources use it to put a region
    code, a search term or a job id into a single URL path segment or query value. */
module UriComponent {
  import opened JsValues

  predicate Unreserved(c: char) {
    ('A' <= c <= 'Z') || ('a' <= c <= 'z') || ('0' <= c <= '9')
    || c == '-' || c == '_' || c == '.' || c == '!' || c == '~' || c == '*'
    || c == '\'' || c == '(' || c == ')'
  }

  predicate IsUpperHex(c: char) {
    ('0' <= c <= '9') || ('A' <= c <= 'F')
  }

  function HexDigit(d: nat): (c: char)
    requires d < 16
    ensures IsUpperHex(c)
  {
    if d < 10 then ('0' as int + d) as char else ('A' as int + (d - 10)) as char
  }

  /** The UTF-8 encoding of one Unicode scalar value. */
  function Utf8(c: char): (bs: seq<byte>)
    ensures 1 <= |bs| <= 4
    ensures |bs| == 1 <==> c as int < 0x80
  {
    var n := c as int;
    if n < 0x80 then [n]
    else if n < 0x800 then [0xC0 + n / 64, 0x80 + n % 64]
    else if n < 0x10000 then [0xE0 + n / 4096, 0x80 + (n / 64) % 64, 0x80 + n % 64]
    else [0xF0 + n / 262144, 0x80 + (n / 4096) % 64, 0x80 + (n / 64) % 64, 0x80 + n % 64]
  }

  /** `%XX` for each byte. */
  function PercentBytes(bs: seq<byte>): (r: string)
    ensures |r| == 3 * |bs|
    ensures forall i :: 0 <= i < |r| ==> r[i] == '%' || IsUpperHex(r[i])
  {
    if |bs| == 0 then ""
    else ['%', HexDigit(bs[0] / 16), HexDigit(bs[0] % 16)] + PercentBytes(bs[1..])
  }

  function EncodeChar(c: char): (r: string)
    ensures Unreserved(c) ==> r == [c]
    ensures !Unreserved(c) ==> 3 <= |r| <= 12 && r[0] == '%'
    ensures forall i :: 0 <= i < |r| ==> Unreserved(r[i]) || r[i] == '%'
  {
    if Unreserved(c) then [c] else PercentBytes(Utf8(c))
  }

  /** `encodeURIComponent(s)`: the result holds only unreserved characters and
      `%` escapes, so it contains no `/`, `?`, `&` or `#`; a string made of
      unreserved characters only is returned unchanged. */
  function Encode(s: string): (r: string)
    ensures |r| >= |s|
    ensures forall i :: 0 <= i < |r| ==> Unreserved(r[i]) || r[i] == '%'
    ensures (forall i :: 0 <= i < |s| ==> Unreserved(s[i])) ==> r == s
    ensures s == "" <==> r == ""
  {
    if |s| == 0 then ""
    else EncodeChar(s[0]) + Encode(s[1..])
  }

  /** The value of a hexadecimal digit, in either case. */
  function HexValue(c: char): (d: Option<nat>)
    ensures d.Some? ==> d.value < 16
  {
    if '0' <= c <= '9' then Some(c as int - '0' as int)
    else if 'A' <= c <= 'F' then Some(c as int - 'A' as int + 10)
    else if 'a' <= c <= 'f' then Some(c as int - 'a' as int + 10)
    else None
  }

  /** The byte an escape `%XX` at the front of `r` stands for. */
  function EscapedByte(r: string): (b: Option<byte>)
    ensures b.Some? ==> |r| >= 3 && r[0] == '%'
  {
    if |r| >= 3 && r[0] == '%' && HexValue(r[1]).Some? && HexValue(r[2]).Some? then
      Some(HexValue(r[1]).value * 16 + HexValue(r[2]).value)
    else None
  }

  /** The bytes of `k` escapes at the front of `r`. */
  function EscapedBytes(r: string, k: nat): (bs: Option<seq<byte>>)
    ensures bs.Some? ==> |bs.value| == k && |r| >= 3 * k
    decreases k
  {
    if k == 0 then Some([])
    else match EscapedByte(r)
      case None => None
      case Some(b) =>
        match EscapedBytes(r[3..], k - 1)
        case None => None
        case Some(rest) => Some([b] + rest)
  }

  /** How many bytes the UTF-8 sequence opened by `lead` has; 0 when `lead`
      cannot open one. */
  function SequenceLength(lead: byte): nat {
    if lead < 0x80 then 1
    else if 0xC0 <= lead < 0xE0 then 2
    else if 0xE0 <= lead < 0xF0 then 3
    else if 0xF0 <= lead < 0xF8 then 4
    else 0
  }

  /** The code point a UTF-8 sequence of one to four bytes carries. */
  function Utf8Value(bs: seq<byte>): int
    requires 1 <= |bs| <= 4
  {
    if |bs| == 1 then bs[0]
    else if |bs| == 2 then (bs[0] as int - 0xC0) * 64 + (bs[1] as int - 0x80)
    else if |bs| == 3 then (bs[0] as int - 0xE0) * 4096 + (bs[1] as int - 0x80) * 64 + (bs[2] as int - 0x80)
    else (bs[0] as int - 0xF0) * 262144 + (bs[1] as int - 0x80) * 4096 + (bs[2] as int - 0x80) * 64
         + (bs[3] as int - 0x80)
  }

  /** A Unicode scalar value: a code point that is not a surrogate. */
  predicate IsScalar(n: int) {
    0 <= n < 0xD800 || 0xE000 <= n < 0x110000
  }

  /** `decodeURIComponent`: each escape opens a UTF-8 sequence of escapes, and
      every other character stands for itself. None where the text is not
      well formed. */
  function Decode(r: string): (s: Option<string>)
    decreases |r|
  {
    if r == "" then Some("")
    else if r[0] != '%' then
      match Decode(r[1..])
      case None => None
      case Some(rest) => Some([r[0]] + rest)
    else match EscapedByte(r)
      case None => None
      case Some(lead) =>
        var k := SequenceLength(lead);
        if k == 0 then None
        else match EscapedBytes(r, k)
          case None => None
          case Some(bs) =>
            if !IsScalar(Utf8Value(bs)) then None
            else match Decode(r[3 * k..])
              case None => None
              case Some(rest) => Some([Utf8Value(bs) as char] + rest)
  }

  /** Decoding undoes the encoding, for every string. */
  lemma {:induction false} DecodeEncode(s: string)
    ensures Decode(Encode(s)) == Some(s)
    decreases |s|
  {
    if |s| > 0 {
      DecodeEncode(s[1..]);
      DecodeChar(s[0], Encode(s[1..]), s[1..]);
      assert [s[0]] + s[1..] == s;
    }
  }

  /** One encoded character in front of text that decodes to `tail`. */
  lemma DecodeChar(c: char, rest: string, tail: string)
    requires Decode(rest) == Some(tail)
    ensures Decode(EncodeChar(c) + rest) == Some([c] + tail)
  {
    var r := EncodeChar(c) + rest;
    if Unreserved(c) {
      assert r[0] == c && r[1..] == rest;
    } else {
      var bs := Utf8(c);
      EscapesRoundTrip(bs, rest);
      Utf8RoundTrip(c);
      assert EscapedByte(r) == Some(bs[0]);
      assert r[3 * |bs|..] == rest;
    }
  }

  /** The escapes of some bytes are read back as those bytes. */
  lemma {:induction false} EscapesRoundTrip(bs: seq<byte>, rest: string)
    ensures EscapedBytes(PercentBytes(bs) + rest, |bs|) == Some(bs)
    ensures |bs| > 0 ==> EscapedByte(PercentBytes(bs) + rest) == Some(bs[0])
    decreases |bs|
  {
    if |bs| > 0 {
      var r := PercentBytes(bs) + rest;
      HexRoundTrip(bs[0] / 16);
      HexRoundTrip(bs[0] % 16);
      assert r[..3] == ['%', HexDigit(bs[0] / 16), HexDigit(bs[0] % 16)];
      assert EscapedByte(r) == Some(bs[0]);
      assert r[3..] == PercentBytes(bs[1..]) + rest;
      EscapesRoundTrip(bs[1..], rest);
      assert [bs[0]] + bs[1..] == bs;
    }
  }

  lemma HexRoundTrip(d: nat)
    requires d < 16
    ensures HexValue(HexDigit(d)) == Some(d)
  {
  }

  /** The lead byte announces the length of the sequence, and the sequence
      carries the character's code point. */
  lemma Utf8RoundTrip(c: char)
    ensures SequenceLength(Utf8(c)[0]) == |Utf8(c)|
    ensures Utf8Value(Utf8(c)) == c as int
  {
    var n := c as int;
    var q1, r0 := n / 64, n % 64;
    var q2, r1 := q1 / 64, q1 % 64;
    var q3, r2 := q2 / 64, q2 % 64;
    assert n == 4096 * q2 + 64 * r1 + r0;
    assert n == 262144 * q3 + 4096 * r2 + 64 * r1 + r0;
    assert n / 4096 == q2;
    assert n / 262144 == q3;
  }
}

=== FILE: video_editor.dfy ===
/** The caption list of the Remotion editor (components/RemotionVideoEditor.tsx):
    entries kept sorted by start time, added from a form, removed and patched by
    id; the canvas size per aspect ratio; the `m:ss` clock; and the frame a seek
    goes to. Ids made from `Date.now()` take the clock as an input. */
module VideoEditor {
  import opened JsValues
  import opened Strings
  import opened Seqs
  import opened Aspects

  /** A caption: shown from `start` to `end` seconds. */
  datatype Caption = Caption(id: string, start: real, end: real, text: string)

  /** The editor plays at 30 frames per second. */
  const EditorFps: real := 30.0

  /** The canvas size of an aspect ratio. */
  function Dimensions(a: Aspect): (wh: (nat, nat))
    ensures a == Landscape ==> 9 * wh.0 == 16 * wh.1
    ensures a == Portrait ==> 16 * wh.0 == 9 * wh.1
    ensures a == Square <==> wh.0 == wh.1
    ensures (if wh.0 < wh.1 then wh.0 else wh.1) == 1080
  {
    match a
    case Landscape => (1920, 1080)
    case Portrait => (1080, 1920)
    case Square => (1080, 1080)
  }

  /** `generateAutoCaptions()`: three fixed captions over [0, 3], [3, 6] and
      from 6 seconds to the video's end or ten seconds, whichever is first. */
  function AutoCaptions(duration: real): (cs: seq<Caption>)
    ensures |cs| == 3
    ensures cs[0].start == 0.0 && cs[0].end == cs[1].start && cs[1].end == cs[2].start
    ensures cs[0].end == 3.0 && cs[1].end == 6.0
    ensures cs[2].end == Min(duration, 10.0)
    ensures forall i :: 0 <= i < 3 ==> cs[i].id == NatToString(i + 1)
    ensures cs[0].text == "AI Generated Video Content" && cs[1].text == "Created with VEO-3 Technology"
            && cs[2].text == "Ready for Social Media"
  {
    [Caption("1", 0.0, 3.0, "AI Generated Video Content"),
     Caption("2", 3.0, 6.0, "Created with VEO-3 Technology"),
     Caption("3", 6.0, Min(duration, 10.0), "Ready for Social Media")]
  }

  /** Start times never decrease along the list. */
  predicate SortedByStart(cs: seq<Caption>) {
    forall i, j :: 0 <= i < j < |cs| ==> cs[i].start <= cs[j].start
  }

  /** Every caption ends no earlier than it starts. */
  predicate WellFormed(cs: seq<Caption>) {
    forall i :: 0 <= i < |cs| ==> cs[i].start <= cs[i].end
  }

  /** The automatic captions are sorted and follow one another without gaps;
      the last one ends before it starts exactly when the video is shorter
      than six seconds. */
  lemma AutoCaptionsShape(duration: real)
    ensures SortedByStart(AutoCaptions(duration))
    ensures WellFormed(AutoCaptions(duration)) <==> duration >= 6.0
  {
  }

  /** Places a caption into a sorted list after every caption starting no
      later than it: the step of a stable sort by start time. */
  function Insert(c: Caption, cs: seq<Caption>): (r: seq<Caption>)
    requires SortedByStart(cs)
    ensures |r| == |cs| + 1
    ensures r[0] == if |cs| == 0 || c.start < cs[0].start then c else cs[0]
    ensures SortedByStart(r)
    ensures multiset(r) == multiset(cs) + multiset{c}
    decreases |cs|
  {
    if |cs| == 0 then [c]
    else if c.start < cs[0].start then [c] + cs
    else
      var rest := Insert(c, cs[1..]);
      assert rest[0].start >= cs[0].start;
      assert cs == [cs[0]] + cs[1..];
      var r := [cs[0]] + rest;
      assert forall j :: 1 <= j < |r| ==> r[j] == rest[j - 1];
      r
  }

  /** `[...].sort((a, b) => a.start - b.start)`: the array sort is stable, so
      the result is the sorted rearrangement that keeps captions with equal
      start times in their order. */
  function SortByStart(cs: seq<Caption>): (r: seq<Caption>)
    ensures |r| == |cs|
    ensures SortedByStart(r)
    ensures multiset(r) == multiset(cs)
    decreases |cs|
  {
    if |cs| == 0 then []
    else
      assert cs == cs[..|cs| - 1] + [cs[|cs| - 1]];
      Insert(cs[|cs| - 1], SortByStart(cs[..|cs| - 1]))
  }

  /** The captions starting at `k`. */
  function StartsAt(k: real): Caption -> bool {
    (c: Caption) => c.start == k
  }

  /** Inserting a caption adds it after the captions with its start time,
      and leaves the captions with any other start time as they were. */
  lemma {:induction false} InsertKeepsTies(c: Caption, cs: seq<Caption>, k: real)
    requires SortedByStart(cs)
    ensures Filter(Insert(c, cs), StartsAt(k)) == Filter(cs, StartsAt(k)) + (if c.start == k then [c] else [])
    decreases |cs|
  {
    if |cs| == 0 {
      FilterCons(c, [], StartsAt(k));
    } else if c.start < cs[0].start {
      FilterCons(c, cs, StartsAt(k));
      if c.start == k {
        NoneStartAt(cs, k);
      }
    } else {
      var rest := Insert(c, cs[1..]);
      InsertKeepsTies(c, cs[1..], k);
      ConsTies(cs[0], cs[1..], rest, c, k);
    }
  }

  /** No caption of a sorted list starts before its first one. */
  lemma NoneStartAt(cs: seq<Caption>, k: real)
    requires SortedByStart(cs) && |cs| > 0 && k < cs[0].start
    ensures Filter(cs, StartsAt(k)) == []
  {
    assert forall i :: 0 <= i < |cs| ==> cs[i].start > k;
  }

  /** The recursive step of `InsertKeepsTies`. */
  lemma ConsTies(x: Caption, xs: seq<Caption>, rest: seq<Caption>, c: Caption, k: real)
    requires Filter(rest, StartsAt(k)) == Filter(xs, StartsAt(k)) + (if c.start == k then [c] else [])
    ensures Filter([x] + rest, StartsAt(k)) == Filter([x] + xs, StartsAt(k)) + (if c.start == k then [c] else [])
  {
    FilterCons(x, rest, StartsAt(k));
    FilterCons(x, xs, StartsAt(k));
  }

  /** Sorting is stable: for every start time, the captions starting then
      come out in the order they went in. */
  lemma {:induction false} SortIsStable(cs: seq<Caption>, k: real)
    ensures Filter(SortByStart(cs), StartsAt(k)) == Filter(cs, StartsAt(k))
    decreases |cs|
  {
    if |cs| > 0 {
      var init, last := cs[..|cs| - 1], cs[|cs| - 1];
      assert cs == init + [last];
      assert SortByStart(cs) == Insert(last, SortByStart(init));
      SortIsStable(init, k);
      InsertKeepsTies(last, SortByStart(init), k);
      FilterAppend(init, [last], StartsAt(k));
      assert Filter([last], StartsAt(k)) == if last.start == k then [last] else [] by {
        assert [last][1..] == [];
      }
    }
  }

  /** A caption that starts no earlier than every caption of a sorted list
      goes at its end. */
  lemma {:induction false} InsertAtEnd(c: Caption, cs: seq<Caption>)
    requires SortedByStart(cs)
    requires forall i :: 0 <= i < |cs| ==> cs[i].start <= c.start
    ensures Insert(c, cs) == cs + [c]
    decreases |cs|
  {
    if |cs| > 0 {
      InsertAtEnd(c, cs[1..]);
      assert [cs[0]] + (cs[1..] + [c]) == cs + [c];
    }
  }

  /** Sorting a sorted list leaves it as it is. */
  lemma {:induction false} SortSorted(cs: seq<Caption>)
    requires SortedByStart(cs)
    ensures SortByStart(cs) == cs
    decreases |cs|
  {
    if |cs| > 0 {
      var init := cs[..|cs| - 1];
      SortSorted(init);
      InsertAtEnd(cs[|cs| - 1], init);
      assert init + [cs[|cs| - 1]] == cs;
    }
  }

  /** The add-caption form: the text box and the two time fields. */
  datatype Form = Form(text: string, start: real, end: real)

  /** The caption the form makes at time `now` (in ms since the epoch). */
  function NewCaption(form: Form, now: nat): (c: Caption)
    ensures c.id == NatToString(now) && c.text == Trim(form.text)
    ensures c.start == form.start && c.end == form.end
  {
    Caption(NatToString(now), form.start, form.end, Trim(form.text))
  }

  /** `addCaption()`: blank text changes nothing; otherwise the trimmed caption
      joins the list, which is sorted again, and the form moves on to the two
      seconds after the new caption, cut at the video's end. */
  function AddCaption(captions: seq<Caption>, form: Form, duration: real, now: nat): (r: (seq<Caption>, Form))
    ensures IsBlank(form.text) ==> r == (captions, form)
    ensures !IsBlank(form.text) ==>
              multiset(r.0) == multiset(captions) + multiset{NewCaption(form, now)}
              && SortedByStart(r.0)
              && NewCaption(form, now).text != ""
              && r.1 == Form("", form.end, Min(form.end + 2.0, duration))
  {
    if Trim(form.text) == "" then (captions, form)
    else (SortByStart(captions + [NewCaption(form, now)]), Form("", form.end, Min(form.end + 2.0, duration)))
  }

  /** Adding to a sorted list inserts the new caption after every caption
      starting no later than it, and leaves the others in their order. */
  lemma AddToSorted(captions: seq<Caption>, form: Form, duration: real, now: nat)
    requires SortedByStart(captions) && !IsBlank(form.text)
    ensures AddCaption(captions, form, duration, now).0 == Insert(NewCaption(form, now), captions)
  {
    var xs := captions + [NewCaption(form, now)];
    assert xs[..|xs| - 1] == captions;
    SortSorted(captions);
  }

  function WithoutId(id: string): Caption -> bool {
    (c: Caption) => c.id != id
  }

  /** `removeCaption(id)`: every caption with that id goes, the rest stay in
      their order. */
  function RemoveCaption(captions: seq<Caption>, id: string): (r: seq<Caption>)
    ensures forall i :: 0 <= i < |r| ==> r[i].id != id && r[i] in captions
    ensures forall i :: 0 <= i < |captions| && captions[i].id != id ==> captions[i] in r
    ensures SubsequenceOf(r, captions)
    ensures (forall i :: 0 <= i < |captions| ==> captions[i].id != id) <==> r == captions
    ensures forall c :: multiset(r)[c] == if c.id != id then multiset(captions)[c] else 0
  {
    FilterKeepsAll(captions, WithoutId(id));
    FilterCounts(captions, WithoutId(id));
    Filter(captions, WithoutId(id))
  }

  /** A subsequence of a sorted list is sorted. */
  lemma {:induction false} SubsequenceSorted(xs: seq<Caption>, ys: seq<Caption>)
    requires SubsequenceOf(xs, ys) && SortedByStart(ys)
    ensures SortedByStart(xs)
    decreases |ys|
  {
    if |xs| > 0 {
      assert SortedByStart(ys[1..]);
      if xs[0] == ys[0] && SubsequenceOf(xs[1..], ys[1..]) {
        SubsequenceSorted(xs[1..], ys[1..]);
        SubsequenceElements(xs[1..], ys[1..]);
        assert forall j :: 1 <= j < |xs| ==> xs[j] == xs[1..][j - 1];
      } else {
        SubsequenceSorted(xs, ys[1..]);
      }
    }
  }

  /** Removing keeps the list sorted. */
  lemma RemoveKeepsSorted(captions: seq<Caption>, id: string)
    requires SortedByStart(captions)
    ensures SortedByStart(RemoveCaption(captions, id))
  {
    SubsequenceSorted(RemoveCaption(captions, id), captions);
  }

  /** `Partial<CaptionEntry>`: the fields an update sets. */
  datatype Patch = Patch(id: Option<string>, start: Option<real>, end: Option<real>, text: Option<string>)

  /** `{ ...caption, ...updates }` */
  function Apply(c: Caption, p: Patch): (r: Caption)
    ensures r.id == p.id.GetOr(c.id) && r.start == p.start.GetOr(c.start)
    ensures r.end == p.end.GetOr(c.end) && r.text == p.text.GetOr(c.text)
  {
    Caption(p.id.GetOr(c.id), p.start.GetOr(c.start), p.end.GetOr(c.end), p.text.GetOr(c.text))
  }

  /** `updateCaption(id, updates)`: the captions with that id are patched, all
      others stay as they are, and nothing moves. */
  function UpdateCaption(captions: seq<Caption>, id: string, p: Patch): (r: seq<Caption>)
    ensures |r| == |captions|
    ensures forall i :: 0 <= i < |r| && captions[i].id != id ==> r[i] == captions[i]
    ensures forall i :: 0 <= i < |r| && captions[i].id == id ==> r[i] == Apply(captions[i], p)
  {
    seq(|captions|, i requires 0 <= i < |captions| =>
      if captions[i].id == id then Apply(captions[i], p) else captions[i])
  }

  /** Updating twice with the same patch is updating once, unless the patch
      gives the captions another id; an empty patch or an unknown id changes
      nothing. */
  lemma UpdateIdempotent(captions: seq<Caption>, id: string, p: Patch)
    ensures p.id.None? || p.id == Some(id) ==>
              UpdateCaption(UpdateCaption(captions, id, p), id, p) == UpdateCaption(captions, id, p)
    ensures p == Patch(None, None, None, None) ==> UpdateCaption(captions, id, p) == captions
    ensures (forall i :: 0 <= i < |captions| ==> captions[i].id != id) ==> UpdateCaption(captions, id, p) == captions
  {
  }

  /** JavaScript's `x % 60`: what is left of `x` after taking away whole
      multiples of 60 toward zero, so the remainder takes the sign of `x`. */
  function ModMinute(x: real): (r: real)
    ensures x >= 0.0 ==> 0.0 <= r < 60.0
    ensures x < 0.0 ==> -60.0 < r <= 0.0
    ensures ((x - r) / 60.0).Floor as real == (x - r) / 60.0
  {
    var q := if x >= 0.0 then (x / 60.0).Floor else -((-x) / 60.0).Floor;
    WholeMinutes(q);
    x - 60.0 * q as real
  }

  lemma WholeMinutes(q: int)
    ensures (60.0 * q as real / 60.0).Floor as real == 60.0 * q as real / 60.0
  {
    assert 60.0 * q as real / 60.0 == q as real;
  }

  /** `formatTime(seconds)`: whole minutes, a colon, and the whole seconds of
      the minute padded to two digits. */
  function FormatTime(seconds: real): string {
    IntToString((seconds / 60.0).Floor) + ":" + PadStart(IntToString(ModMinute(seconds).Floor), 2, '0')
  }

  /** For a whole number of seconds the clock shows `s div 60` and `s mod 60`. */
  lemma FormatWholeSeconds(s: nat)
    ensures FormatTime(s as real) == NatToString(s / 60) + ":" + PadStart(NatToString(s % 60), 2, '0')
  {
    ClockParts(s as real);
  }

  lemma ClockParts(seconds: real)
    requires seconds >= 0.0
    ensures (seconds / 60.0).Floor == seconds.Floor / 60
    ensures ModMinute(seconds).Floor == seconds.Floor % 60
  {
    var n := seconds.Floor;
    var q := n / 60;
    assert n == 60 * q + n % 60;
    assert q as real <= seconds / 60.0 < (q + 1) as real;
    assert (seconds / 60.0).Floor == q;
    assert ModMinute(seconds) == seconds - 60.0 * q as real;
  }

  /** Reads an `m:ss` clock back as a number of seconds. */
  function ReadClock(t: string): (r: Option<nat>) {
    ReadPieces(Split(t, ':'))
  }

  /** The seconds a clock split at its colons stands for. */
  function ReadPieces(parts: seq<string>): (r: Option<nat>) {
    if ClockShape(parts) then Some(DigitsValue(parts[0]) * 60 + DigitsValue(parts[1])) else None
  }

  /** Minutes in digits, then two digits of seconds below 60. */
  predicate ClockShape(parts: seq<string>) {
    |parts| == 2 && |parts[0]| >= 1 && |parts[1]| == 2
    && (forall i :: 0 <= i < |parts[0]| ==> IsDigit(parts[0][i]))
    && (forall i :: 0 <= i < 2 ==> IsDigit(parts[1][i]))
    && DigitsValue(parts[1]) < 60
  }

  /** Two digits for a number below 100, a leading zero below 10. */
  lemma TwoDigits(n: nat)
    requires n < 100
    ensures var t := PadStart(NatToString(n), 2, '0');
            |t| == 2 && IsDigit(t[0]) && IsDigit(t[1]) && DigitsValue(t) == n
  {
    if n < 10 {
      var t := PadStart(NatToString(n), 2, '0');
      assert t == ['0', DigitChar(n)];
      assert t[..1] == "0";
    } else {
      assert NatToString(n) == NatToString(n / 10) + [DigitChar(n % 10)];
    }
  }

  /** The clock reads back as the whole seconds shown: nothing is lost but
      the fraction. */
  lemma FormatTimeReadsBack(seconds: real)
    requires seconds >= 0.0
    ensures ReadClock(FormatTime(seconds)) == Some(seconds.Floor)
  {
    ClockParts(seconds);
    var n := seconds.Floor;
    var m := NatToString(n / 60);
    var ss := PadStart(NatToString(n % 60), 2, '0');
    TwoDigits(n % 60);
    assert FormatTime(seconds) == m + ":" + ss;
    ReadClockParts(m, ss);
    assert n == (n / 60) * 60 + n % 60;
  }

  /** A clock of digits, a colon and two digits below 60 reads as minutes and seconds. */
  lemma ReadClockParts(m: string, ss: string)
    requires |m| >= 1 && forall i :: 0 <= i < |m| ==> IsDigit(m[i])
    requires |ss| == 2 && IsDigit(ss[0]) && IsDigit(ss[1]) && DigitsValue(ss) < 60
    ensures ReadClock(m + ":" + ss) == Some(DigitsValue(m) * 60 + DigitsValue(ss))
  {
    assert ':' !in m by {
      assert forall i :: 0 <= i < |m| ==> IsDigit(m[i]);
    }
    assert ':' !in ss;
    var parts := [m, ss];
    assert Join(parts, ":") == m + ":" + ss by {
      assert parts[1..] == [ss];
    }
    SplitJoin(parts, ':');
    ReadPiecesOf(m, ss);
  }

  /** Minutes and seconds in digits read as their value. */
  lemma ReadPiecesOf(m: string, ss: string)
    requires |m| >= 1 && forall i :: 0 <= i < |m| ==> IsDigit(m[i])
    requires |ss| == 2 && IsDigit(ss[0]) && IsDigit(ss[1]) && DigitsValue(ss) < 60
    ensures ReadPieces([m, ss]) == Some(DigitsValue(m) * 60 + DigitsValue(ss))
  {
    ShapeOf([m, ss], m, ss);
  }

  lemma ShapeOf(parts: seq<string>, m: string, ss: string)
    requires |parts| == 2 && parts[0] == m && parts[1] == ss
    requires |m| >= 1 && forall i :: 0 <= i < |m| ==> IsDigit(m[i])
    requires |ss| == 2 && IsDigit(ss[0]) && IsDigit(ss[1]) && DigitsValue(ss) < 60
    ensures ClockShape(parts)
  {
  }

  /** `handleTimelineSeek(time)`: the frame the player seeks to. */
  function SeekFrame(time: real): (f: real)
    ensures f / EditorFps == time
  {
    time * EditorFps
  }

  /** The player's length in frames: the duration in whole frames. */
  function DurationInFrames(duration: real): (n: int)
    ensures n as real <= duration * EditorFps < n as real + 1.0
  {
    (duration * EditorFps).Floor
  }
}

=== FILE: video_uploader.dfy ===
/** The upload-and-publish panel (components/VideoUploader.tsx) as a state
    machine: a dropped video is uploaded to cloud storage, the stored video can
    be published to YouTube, and the panel can be reset. Each asynchronous
    handler is split into the update it makes when it starts and the one it
    makes when its request settles; the requests' outcomes are inputs. */
module Uploader {
  import opened JsValues

  datatype Progress = Idle | Uploading | Uploaded | Publishing | Published | Failed

  /** A dropped file: its name. */
  datatype FileInfo = FileInfo(name: string)

  datatype State = State(file: Option<FileInfo>, isUploading: bool, isPublishing: bool, gcsUrl: string,
                         youtubeUrl: string, statusMessage: string, progress: Progress)

  const IdleMessage: string := "Drop a video file here to begin uploading to cloud storage"

  /** The panel as it first appears. */
  const Initial: State := State(None, false, false, "", "", IdleMessage, Idle)

  /** A settled request: whether the response was OK, and the two fields the
      panel reads from its JSON body. An absent address is kept as the empty
      string: the panel only ever tests it for truthiness. A request that
      throws (the network, or a body that is not JSON) is `Threw`. */
  datatype Answer = Answer(ok: bool, url: Option<string>, error: Option<string>)

  /** The message of a thrown value, as the catch blocks print it. */
  function Message(t: Thrown): string {
    if t.ErrorObject? then t.message else "Unknown error"
  }

  /** The Error a non-OK response is turned into: the body's `error`, or the fallback. */
  function Rejection(a: Answer, fallback: string): (t: Thrown)
    ensures t.ErrorObject? && (Truthy(a.error) ==> t.message == a.error.value)
    ensures !Truthy(a.error) ==> t.message == fallback
  {
    ErrorObject(if Truthy(a.error) then a.error.value else fallback)
  }

  /** The start of `handleDrop`: nothing happens without a file; with one, the
      upload starts and any earlier storage address is forgotten. */
  function Drop(s: State, files: seq<FileInfo>): (t: State)
    ensures files == [] ==> t == s
    ensures files != [] ==>
              t == s.(file := Some(files[0]), isUploading := true, gcsUrl := "", progress := Uploading,
                      statusMessage := "Uploading to secure cloud storage...")
  {
    if files == [] then s
    else s.(file := Some(files[0]), isUploading := true, statusMessage := "Uploading to secure cloud storage...",
            progress := Uploading, gcsUrl := "")
  }

  /** The end of `handleDrop`: an OK answer stores the address; anything else
      is an error carrying its message. Either way the upload is over. */
  function UploadSettled(s: State, outcome: Attempt<Answer>): (t: State)
    ensures !t.isUploading && t.isPublishing == s.isPublishing && t.file == s.file
    ensures t.youtubeUrl == s.youtubeUrl
    ensures t.progress == Uploaded <==> outcome.Done? && outcome.value.ok
    ensures t.progress == Uploaded ==> t.gcsUrl == outcome.value.url.GetOr("")
    ensures t.progress != Uploaded ==> t.progress == Failed && t.gcsUrl == s.gcsUrl
  {
    match outcome
    case Done(a) =>
      if a.ok then
        s.(isUploading := false, gcsUrl := a.url.GetOr(""),
           statusMessage := "Upload complete! Ready to publish to YouTube.", progress := Uploaded)
      else UploadFailed(s, Rejection(a, "Upload failed"))
    case Threw(e) => UploadFailed(s, e)
  }

  function UploadFailed(s: State, e: Thrown): State {
    s.(isUploading := false, statusMessage := "Upload failed: " + Message(e), progress := Failed)
  }

  /** What `handlePublish` asks the server to publish. */
  datatype PublishRequest = PublishRequest(videoUrl: string, title: string, description: string, tags: seq<string>)

  /** `handlePublish` does anything only with a stored address and a file. */
  predicate CanPublish(s: State) {
    s.gcsUrl != "" && s.file.Some?
  }

  /** The request body: the stored address and a title made from the file name. */
  function Request(s: State): (r: PublishRequest)
    requires CanPublish(s)
    ensures r.videoUrl == s.gcsUrl && r.title == "AI Generated Video - " + s.file.value.name
    ensures r.tags == ["AI", "generated", "video", "demo"]
  {
    PublishRequest(s.gcsUrl, "AI Generated Video - " + s.file.value.name,
                   "This video was generated using AI and uploaded through our custom pipeline.",
                   ["AI", "generated", "video", "demo"])
  }

  /** The start of `handlePublish`. */
  function PublishStart(s: State): (t: State)
    ensures !CanPublish(s) ==> t == s
    ensures CanPublish(s) ==>
              t == s.(isPublishing := true, statusMessage := "Publishing to YouTube...", progress := Publishing)
  {
    if !CanPublish(s) then s
    else s.(isPublishing := true, statusMessage := "Publishing to YouTube...", progress := Publishing)
  }

  /** The end of `handlePublish`: an OK answer records the YouTube address. */
  function PublishSettled(s: State, outcome: Attempt<Answer>): (t: State)
    ensures !t.isPublishing && t.isUploading == s.isUploading && t.file == s.file && t.gcsUrl == s.gcsUrl
    ensures t.progress == Published <==> outcome.Done? && outcome.value.ok
    ensures t.progress == Published ==> t.youtubeUrl == outcome.value.url.GetOr("")
    ensures t.progress != Published ==> t.progress == Failed && t.youtubeUrl == s.youtubeUrl
  {
    match outcome
    case Done(a) =>
      if a.ok then
        s.(isPublishing := false, youtubeUrl := a.url.GetOr(""),
           statusMessage := "\U{1F680} Successfully published to YouTube!", progress := Published)
      else PublishFailed(s, Rejection(a, "Publishing failed"))
    case Threw(e) => PublishFailed(s, e)
  }

  function PublishFailed(s: State, e: Thrown): State {
    s.(isPublishing := false, statusMessage := "\U{274C} Publishing failed: " + Message(e), progress := Failed)
  }

  /** `resetUploader` */
  function Reset(s: State): (t: State)
    ensures t.file.None? && !t.isUploading && !t.isPublishing && t.gcsUrl == "" && t.youtubeUrl == ""
    ensures t.progress == Idle && t.statusMessage == IdleMessage
  {
    Initial
  }

  /** The drop zone ignores drops while a request runs. */
  predicate DropDisabled(s: State) {
    s.isUploading || s.isPublishing
  }

  /** The publish button is disabled without a stored address, while
      publishing, and once published. */
  predicate PublishDisabled(s: State) {
    s.gcsUrl == "" || s.isPublishing || s.progress == Published
  }

  /** The reset button is offered only after an error or a publication. */
  predicate ResetOffered(s: State) {
    s.progress == Failed || s.progress == Published
  }

  /** What the user and the network can do to the panel. */
  datatype Event = DropFiles(files: seq<FileInfo>) | UploadDone(outcome: Attempt<Answer>) | PressPublish
                 | PublishDone(outcome: Attempt<Answer>) | PressReset

  /** Whether the interface lets an event happen: drops and presses only on
      enabled controls, and a request settles only while it runs. */
  predicate Enabled(s: State, e: Event) {
    match e
    case DropFiles(_) => !DropDisabled(s)
    case UploadDone(_) => s.progress == Uploading
    case PressPublish => !PublishDisabled(s)
    case PublishDone(_) => s.progress == Publishing
    case PressReset => ResetOffered(s)
  }

  function Step(s: State, e: Event): State {
    match e
    case DropFiles(files) => Drop(s, files)
    case UploadDone(outcome) => UploadSettled(s, outcome)
    case PressPublish => PublishStart(s)
    case PublishDone(outcome) => PublishSettled(s, outcome)
    case PressReset => Reset(s)
  }

  /** The flags agree with the progress; an upload runs with no stored
      address; a publication runs, or has happened, for a stored file. */
  predicate Consistent(s: State) {
    (s.isUploading <==> s.progress == Uploading)
    && (s.isPublishing <==> s.progress == Publishing)
    && (s.isUploading ==> s.gcsUrl == "")
    && (s.progress in {Uploading, Uploaded, Publishing, Published} ==> s.file.Some?)
    && (s.progress in {Publishing, Published} ==> s.gcsUrl != "")
  }

  /** Every enabled event keeps the panel consistent. */
  lemma StepConsistent(s: State, e: Event)
    requires Consistent(s) && Enabled(s, e)
    ensures Consistent(Step(s, e))
  {
  }

  /** The state after a run of events, each applied only if enabled. */
  function Run(s: State, es: seq<Event>): State
    decreases |es|
  {
    if |es| == 0 then s
    else Run(if Enabled(s, es[0]) then Step(s, es[0]) else s, es[1..])
  }

  /** From the initial panel, whatever happens, the panel stays consistent:
      in particular an upload and a publication never run at once. */
  lemma {:induction false} RunConsistent(s: State, es: seq<Event>)
    requires Consistent(s)
    ensures Consistent(Run(s, es))
    ensures !(Run(s, es).isUploading && Run(s, es).isPublishing)
    decreases |es|
  {
    if |es| > 0 {
      var s' := if Enabled(s, es[0]) then Step(s, es[0]) else s;
      if Enabled(s, es[0]) {
        StepConsistent(s, es[0]);
      }
      RunConsistent(s', es[1..]);
    }
  }

  lemma InitialConsistent()
    ensures Consistent(Initial) && Reset(Initial) == Initial
  {
  }
}

=== FILE: youtube_post_modal.dfy ===
/** The form of the YouTube publishing dialog (components/YouTubePostModal.tsx):
    its initial values, the comma-separated tag field, the thumbnail picker,
    when the submit button is enabled, and what a submission hands on. */
module PostModal {
  import opened JsValues
  import opened Strings
  import opened Seqs

  datatype Privacy = Public | Unlisted | Private

  /** A picked file: its name and media type. */
  datatype FileInfo = FileInfo(name: string, mediaType: string)

  datatype Form = Form(title: string, description: string, tags: string, privacy: Privacy, category: string,
                       thumbnail: Option<FileInfo>, isUploading: bool)

  /** The dialog as it opens: the given title and description (empty when not
      given), no tags, public, category 22 ("People & Blogs"), no thumbnail. */
  function Initial(defaultTitle: Option<string>, defaultDescription: Option<string>): (f: Form)
    ensures f.title == defaultTitle.GetOr("") && f.description == defaultDescription.GetOr("")
    ensures f.tags == "" && f.privacy == Public && f.category == "22"
    ensures f.thumbnail.None? && !f.isUploading
  {
    Form(defaultTitle.GetOr(""), defaultDescription.GetOr(""), "", Public, "22", None, false)
  }

  /** Each piece trimmed. */
  function TrimAll(xs: seq<string>): (r: seq<string>)
    ensures |r| == |xs| && forall i :: 0 <= i < |xs| ==> r[i] == Trim(xs[i])
  {
    Map(xs, Trim)
  }

  function NonEmpty(s: string): bool {
    |s| > 0
  }

  /** The tag list a submission sends: the field split at commas, each piece
      trimmed, empty pieces dropped. No tag is empty or has white space at
      either end, there are no more tags than pieces, and every piece with
      something in it gives its tag, in order. */
  function ParseTags(input: string): (tags: seq<string>)
    ensures forall i :: 0 <= i < |tags| ==> tags[i] != "" && Trim(tags[i]) == tags[i]
    ensures |tags| <= CountFrom(input, ',') + 1
    ensures forall i :: 0 <= i < |tags| ==> tags[i] in TrimAll(Split(input, ','))
    ensures SubsequenceOf(tags, TrimAll(Split(input, ',')))
    ensures forall p :: p in Split(input, ',') && !IsBlank(p) ==> Trim(p) in tags
  {
    var pieces := Split(input, ',');
    TagsTrimmed(pieces);
    TagsComplete(pieces);
    Filter(TrimAll(pieces), NonEmpty)
  }

  lemma TagsTrimmed(pieces: seq<string>)
    ensures var tags := Filter(TrimAll(pieces), NonEmpty);
            forall i :: 0 <= i < |tags| ==> Trim(tags[i]) == tags[i]
  {
    var trimmed := TrimAll(pieces);
    var tags := Filter(trimmed, NonEmpty);
    forall i | 0 <= i < |tags| ensures Trim(tags[i]) == tags[i] {
      var j :| 0 <= j < |trimmed| && trimmed[j] == tags[i];
      TrimIdempotent(pieces[j]);
    }
  }

  lemma TagsComplete(pieces: seq<string>)
    ensures forall p :: p in pieces && !IsBlank(p) ==> Trim(p) in Filter(TrimAll(pieces), NonEmpty)
  {
    var trimmed := TrimAll(pieces);
    forall p | p in pieces && !IsBlank(p) ensures Trim(p) in Filter(trimmed, NonEmpty) {
      var j :| 0 <= j < |pieces| && pieces[j] == p;
      assert trimmed[j] == Trim(p) && NonEmpty(trimmed[j]);
    }
  }

  function HasText(s: string): bool {
    Trim(s) != ""
  }

  /** The count the summary shows: the pieces whose trimmed text is not empty. */
  function DisplayedCount(input: string): (n: nat)
    ensures n <= CountFrom(input, ',') + 1
  {
    |Filter(Split(input, ','), HasText)|
  }

  /** The summary's count is the number of tags a submission sends. */
  lemma DisplayedCountMatches(input: string)
    ensures DisplayedCount(input) == |ParseTags(input)|
  {
    CountKept(Split(input, ','));
  }

  lemma {:induction false} CountKept(xs: seq<string>)
    ensures |Filter(xs, HasText)| == |Filter(TrimAll(xs), NonEmpty)|
    decreases |xs|
  {
    if |xs| > 0 {
      CountKept(xs[1..]);
      TrimAllCons(xs);
      FilterCons(Trim(xs[0]), TrimAll(xs[1..]), NonEmpty);
      assert xs == [xs[0]] + xs[1..];
      FilterCons(xs[0], xs[1..], HasText);
    }
  }

  lemma TrimAllCons(xs: seq<string>)
    requires |xs| > 0
    ensures TrimAll(xs) == [Trim(xs[0])] + TrimAll(xs[1..])
  {
    MapCons(xs, Trim);
  }

  /** Tags written out with commas are read back as they were, however many
      there are: the "Max 15 tags" hint is not enforced. */
  lemma TagsRoundTrip(tags: seq<string>)
    requires |tags| >= 1
    requires forall i :: 0 <= i < |tags| ==> tags[i] != "" && ',' !in tags[i] && Trim(tags[i]) == tags[i]
    ensures ParseTags(Join(tags, ",")) == tags
  {
    KeptPieces(tags);
    ParseTagsPieces(Join(tags, ","));
  }

  lemma KeptPieces(tags: seq<string>)
    requires |tags| >= 1
    requires forall i :: 0 <= i < |tags| ==> tags[i] != "" && ',' !in tags[i] && Trim(tags[i]) == tags[i]
    ensures Filter(TrimAll(Split(Join(tags, ","), ',')), NonEmpty) == tags
  {
    SplitJoin(tags, ',');
    TrimAllFixed(tags);
    FilterKeepsAll(tags, NonEmpty);
  }

  lemma ParseTagsPieces(input: string)
    ensures ParseTags(input) == Filter(TrimAll(Split(input, ',')), NonEmpty)
  {
  }

  lemma TrimAllFixed(xs: seq<string>)
    requires forall i :: 0 <= i < |xs| ==> Trim(xs[i]) == xs[i]
    ensures TrimAll(xs) == xs
  {
  }

  /** `handleThumbnailChange`: an image replaces the thumbnail; anything else,
      or no file, keeps the one there was. */
  function PickThumbnail(f: Form, picked: Option<FileInfo>): (g: Form)
    ensures g.thumbnail == (if picked.Some? && StartsWith(picked.value.mediaType, "image/") then picked
                            else f.thumbnail)
    ensures g.(thumbnail := f.thumbnail) == f
  {
    if picked.Some? && StartsWith(picked.value.mediaType, "image/") then f.(thumbnail := picked) else f
  }

  /** The submit button is disabled while a submission is running and while
      the title is only white space. */
  predicate SubmitDisabled(f: Form) {
    f.isUploading || Trim(f.title) == ""
  }

  lemma SubmitDisabledMeaning(f: Form)
    ensures SubmitDisabled(f) <==> f.isUploading || IsBlank(f.title)
  {
  }

  /** What `onPublish` receives. */
  datatype Submission = Submission(title: string, description: string, tags: seq<string>, privacy: Privacy,
                                   category: string, thumbnail: Option<FileInfo>)

  /** `handleSubmit`: the form's values with the tags parsed; the dialog is
      busy until the callback settles, whatever its outcome. */
  function Submit(f: Form): (out: (Submission, Form))
    ensures out.0.tags == ParseTags(f.tags)
    ensures out.0.title == f.title && out.0.description == f.description && out.0.privacy == f.privacy
    ensures out.0.category == f.category && out.0.thumbnail == f.thumbnail
    ensures out.1 == f.(isUploading := false)
  {
    (Submission(f.title, f.description, ParseTags(f.tags), f.privacy, f.category, f.thumbnail),
     f.(isUploading := false))
  }
}
